=== FILE: README.md ===
# Line folding of YAML scalars

A Dafny model of the scalar line-folding transform of a JavaScript YAML library, with
proofs about it. The behaviour is reconstructed from the library's test file for that
transform, `__tests__/foldFlowLines.js`. The implementation module it imports,
`src/foldFlowLines.js`, is not part of this model.

The model has two sides.

- **Flow folding** (`fold_flow.dfy`, module `FoldFlow`). `Fold(text, options)` inserts
  line breaks into a plain or double-quoted scalar. It returns the folded text and the
  breaks it inserted.
  - Each line has a budget. The first line gets `lineWidth - indentAtStart` columns.
    A continuation line gets `lineWidth` less the indent, but never less than
    `minContentWidth`.
  - The budget is a target, not a bound. In plain mode, a line with no break point up to
    its limit runs past it. In quoted mode, such a line gets an escaped break instead.
    A quoted line that reaches a run of blanks keeps the whole run before its escape. A
    quoted line can also run one column past a budget of at most one column, and past a
    continuation budget smaller than the first line's (see "Left out").
  - The scan is greedy, in both modes (`fold_lines.dfy`, module `FoldLines`). A line is
    broken only when it reaches its limit, and then at its last break point up to the
    limit. An escape comes only on a line with no break point up to it, and only once the
    line has reached its limit. So a single space between word characters is always
    broken bare.
  - A plain scalar breaks only at a single space between two word characters. The break
    and the continuation indentation read back as that space (line folding, section 6.5
    of YAML 1.2).
  - A double-quoted scalar may also break with an escaped line break, a `\` at the end of
    the line, which reads back as nothing (section 7.3.1 of YAML 1.2).
  - Line breaks already in the text are kept and restart the width count.
  - The `onFold` observer becomes `Folded.Notifies()`: one flag per call, set when at
    least one break was inserted.
  - `Reread` is the reader's side: it removes the inserted breaks again.
  - Plain folding with no continuation indentation is idempotent
    (`fold_idempotence.dfy`, module `FoldIdempotence`). Folded again with the same
    options, the folded text gets no new break. With an indent, or in quoted mode, a
    second fold can add breaks (see "Left out").
- **Folded block scalars** (`block_fold.dfy`, module `BlockFold`), section 8.1.3 of YAML 1.2
  with the default "clip" chomping.
  - `Unfold(lines, baseIndent, terminated)` reads the content lines of a `>` block as its
    value. Adjacent text lines are joined by one space. Empty lines become line feeds.
    More-indented lines keep their line breaks. It gives `None` when a line is not
    indented enough to belong to the block.
  - `terminated` says whether the block's last line ends in a line break. Clip chomping
    keeps the line break after the last content line exactly when it is there.
  - `Refold(value, options)` writes a value back as content lines. Each text line is folded
    like a plain scalar, and the empty lines needed for the same line feeds are added.

`fold_properties.dfy`, `fold_lines.dfy` and `block_properties.dfy` hold the general
properties.
`fold_examples.dfy` and `block_examples.dfy` work every scenario of the test file through
the model. Each one proves the model's exact output for that scenario's input and options.

## Model

| member | source | states |
|---|---|---|
| FoldFlow.Fold | __tests__/foldFlowLines.js:5-104 | A non-positive width returns the text unchanged with no breaks. Every inserted break is admissible and the breaks are strictly increasing. A bare break stands on a single space between word characters. An escaped break is followed by a word character. Plain mode never escapes. The observer fires exactly when the output differs from the input. |
| FoldFlow.Scan | __tests__/foldFlowLines.js:20-103 | The breaks the scan places are admissible, strictly increasing, and at or after the start of the line it is on. A plain scan never escapes. |
| FoldProperties.RenderRereads | __tests__/foldFlowLines.js:20-103 | Render's partner: each break `Render` writes in has a mark pointing at it, and rereading the rendering through the marks gives the text from `from` on. |
| FoldFlow.RenderChangesText | __tests__/foldFlowLines.js:14-24 | Writing in at least one break never gives back the input text, and writing in none gives it back. So "folded" and "changed" coincide. |
| FoldProperties.FoldRereads | __tests__/foldFlowLines.js:20-103 | For every text and every option set, in both modes, there is one mark per inserted break, each mark points at the break's text in the output, and reading the output back gives the input exactly. A bare break with its indentation reads as one space, and an escaped break with its indentation reads as nothing. |
| FoldProperties.PassThrough | __tests__/foldFlowLines.js:14-18 | Text whose first line has at most `lineWidth - indentAtStart` characters, and whose later lines have at most `max(minContentWidth, lineWidth - indent length)`, is returned unchanged with no breaks, so the observer does not fire. This holds in plain and quoted mode (lines 77-81). |
| FoldProperties.BreaksAvoidBlankRuns | __tests__/foldFlowLines.js:61-65 | Every bare break sits on a space whose neighbours are not blanks, so a run of two or more blanks is never split. Plain folding inserts no escapes. |
| FoldProperties.DoubledSpacesStayIntact | __tests__/foldFlowLines.js:61-65 | In plain mode, text in which every space is next to another space is returned unchanged with no breaks, however far it overflows the width. |
| FoldProperties.PlainScanWithoutCandidates | __tests__/foldFlowLines.js:61-65 | A plain scan that meets no break point from its position on inserts no breaks, whatever its line limit. |
| FoldProperties.EscapesPrecedeWordChars | __tests__/foldFlowLines.js:94-103 | Every escaped break is followed by a word character, so no continuation line starts with a blank. The blanks a line reaches stay before its escape. |
| FoldProperties.FoldKeepsLastChar | __tests__/foldFlowLines.js:20-34 | The folded text ends in the same character as the input, so a trailing line feed (or closing quote) is kept. |
| FoldProperties.DeepIndentOneWordPerLine | __tests__/foldFlowLines.js:36-41 | When the indent is at least the width and there is no minimum content width, plain mode breaks at every break point past the first line's limit, so each continuation line holds one word. |
| FoldProperties.ScanRestartsAtNewline | __tests__/foldFlowLines.js:51-59 | A line break in the text restarts the scan. The breaks after it are those of a fresh scan from the next line, whatever happened on the lines before. |
| FoldLines.ScanFillsLine | __tests__/foldFlowLines.js:20-103 | From any scan state, in either mode, the line it is on is filled greedily. A break falls on the line only when the line reaches its limit. The break is the last break point up to the limit, or, when there is none, the line's first break point or a quoted escape. An escape on the line comes no earlier than two characters before the limit, so the escaped line with its `\` takes the whole budget. A line without a break either fits or has no break point at all. |
| FoldLines.FoldFillsFirstLine | __tests__/foldFlowLines.js:51-59 | In either mode the first line is filled greedily up to `FirstLimit = lineWidth - indentAtStart`, and an escape on it comes at that limit. |
| FoldLines.FoldFillsLineAfterBreak | __tests__/foldFlowLines.js:26-49 | In either mode the line after every inserted break is filled greedily up to `EndStep - 1` characters past the break, the continuation budget, and an escape on it comes at that limit. This includes the tail after the last break (quoted: lines 89-97). |
| FoldLines.ScanResumesAfterBreak | __tests__/foldFlowLines.js:89-97 | In either mode, after each break the scan places, the later breaks are those of a scan state of the line that starts right after the break, with the continuation limit. The scan may already be further along that line, after a late escape. |
| FoldLines.ScanEscapesAreFallbacks | __tests__/foldFlowLines.js:89-103 | From any scan state, in either mode, an escaped break is taken only on a line that has no break point from its start (the previous break, a line break of the text, or the scan's start) up to and including the escaped position. |
| FoldLines.FoldEscapesAreFallbacks | __tests__/foldFlowLines.js:89-103 | Every escaped break of a fold is a fallback: its line has no break point up to it. Where the line has one, the fold breaks bare there instead, as after "def" and "jkl" at width 10. |
| FoldLines.FoldSingleSpacesBare | __tests__/foldFlowLines.js:83-97 | No escaped break of a fold stands on a single space between word characters. Such a space is always broken bare, so it reads back as the one space it was. |
| FoldLines.FoldFillsLineAfterNewline | __tests__/foldFlowLines.js:20-24 | In either mode the line after every line break of the text is filled greedily with the continuation budget, and an escape on it comes at that limit. |
| FoldLines.ScanRestartsAtBreak | __tests__/foldFlowLines.js:26-34 | In plain mode, the breaks after each inserted break are exactly those of a fresh scan of the line that starts after it. |
| FoldLines.ScanRestartsAtEveryNewline | __tests__/foldFlowLines.js:51-59 | In both modes, the breaks after any line break of the text are exactly those of a fresh scan of the next line. |
| FoldLines.ContinuationIgnoresIndentAtStart | __tests__/foldFlowLines.js:51-59 | Two plain folds that differ only in `indentAtStart` place the same breaks after any index where both break. Only the first line's budget depends on `indentAtStart`. |
| FoldLines.IndentAtStartOnlyFirstLine | __tests__/foldFlowLines.js:51-59 | In both modes, the breaks after any line break of the text are the same for every value of `indentAtStart`. |
| FoldIdempotence.FoldIdempotent | __tests__/foldFlowLines.js:20-29 | In plain mode with no continuation indentation, for every text, width, minimum content width and `indentAtStart`, folding the folded text again with the same options inserts no break and gives it back unchanged, so the observer does not fire on the second call. |
| FoldIdempotence.FoldedLinesQuiet | __tests__/foldFlowLines.js:20-29 | Every line of plainly folded text with no indentation either fits the limit that a second fold gives it or has no break point. This follows from the greedy filling of each line of the input. |
| FoldIdempotence.RenderInPlace | __tests__/foldFlowLines.js:26-29 | Bare breaks written with no indentation turn their spaces into line breaks in place. The output is as long as the input, and each index holds a line break exactly when a break stands there, and the input's character otherwise. |
| FoldIdempotence.ScanQuiet | __tests__/foldFlowLines.js:14-18 | A plain scan over text in which every line either fits its limit or has no break point inserts no break. |
| FoldIdempotence.IndentedRefoldBreaksAgain | __tests__/foldFlowLines.js:31-34 | With the two-space indent of the test and width 10, `abc def ghi jkl` folds after `def`, and folding the result again adds a break after `ghi`. The indent counts as content of the line it starts. |
| FoldIdempotence.QuotedRefoldEscapesAgain | __tests__/foldFlowLines.js:99-103 | In quoted mode at width 3, `a  b` is escaped after its blanks. The escaped line `a  \` takes four columns, so a second fold escapes it again. |
| FoldExamples.PlainPassThrough | __tests__/foldFlowLines.js:14-18 | At width 40 the plain sample is returned as it is, with no breaks. |
| FoldExamples.PlainSimple | __tests__/foldFlowLines.js:20-24 | At width 20 the plain sample gets one break, after "mno". |
| FoldExamples.PlainMultipleFolds | __tests__/foldFlowLines.js:26-29 | At width 10 there are three breaks and one notification. |
| FoldExamples.PlainIndent | __tests__/foldFlowLines.js:31-34 | With a two-space indent, every continuation line starts with the indent. |
| FoldExamples.PlainDeepIndent | __tests__/foldFlowLines.js:36-41 | At width 7 with an eight-space indent, each continuation line holds one word. |
| FoldExamples.PlainDeepIndentMinContent | __tests__/foldFlowLines.js:43-49 | With a minimum content width of 7, continuation lines hold two words each. |
| FoldExamples.PlainPositiveIndentAtStart | __tests__/foldFlowLines.js:51-54 | With 8 columns already used, the first line holds only "abc" and still overflows. Later lines use the normal budget. |
| FoldExamples.PlainNegativeIndentAtStart | __tests__/foldFlowLines.js:56-59 | With the first line 8 columns longer, it holds "abc def ghi jkl". |
| FoldExamples.PlainDoubledSpaces | __tests__/foldFlowLines.js:61-65 | The doubled-space sample is returned as it is, with no breaks. |
| FoldExamples.QuotedPassThrough | __tests__/foldFlowLines.js:77-81 | At width 40 the quoted sample is returned as it is, with no breaks. |
| FoldExamples.QuotedSimple | __tests__/foldFlowLines.js:83-87 | At width 20 the quoted sample gets one bare break, after "jkl". |
| FoldExamples.QuotedMultipleFolds | __tests__/foldFlowLines.js:89-92 | At width 10 there are two bare breaks and then one escaped break inside the long word. |
| FoldExamples.QuotedShortLineWidth | __tests__/foldFlowLines.js:94-97 | At width 3 there are escaped breaks inside words and bare breaks at the spaces. The final line feed stays unescaped. |
| FoldExamples.QuotedDoubledSpaces | __tests__/foldFlowLines.js:99-103 | At width 9 with doubled spaces, every break is escaped. A line that reaches a run of spaces keeps the whole run before its escape. |
| BlockFold.Dedent | __tests__/foldFlowLines.js:121-134 | A line belongs to the block exactly when it starts with the block indentation or consists of spaces only. An indented line loses exactly that indentation. |
| BlockFold.Unfold | __tests__/foldFlowLines.js:121-146 | The block has a value exactly when every line starts with the indentation or is all spaces. |
| BlockFold.UnfoldContent | __tests__/foldFlowLines.js:136-145 | The value is empty exactly when every content line is empty. A non-empty value ends in a line feed when the last line has a line break or empty lines end the block. When the block ends right after an unterminated content line, the value is the folded lines with no line feed added. |
| BlockFold.JoinLinesKeepsLast | __tests__/foldFlowLines.js:136-145 | Folding content lines gives a value that ends with the last content line. Nothing is folded in after it. |
| BlockProperties.JoinLinesPair | __tests__/foldFlowLines.js:123-145 | Folding, section 8.1.3 of YAML 1.2. Two adjacent text lines join with one space. Text lines with `n > 0` empty lines between them join with `n` line feeds. Next to a more-indented line, `n` empty lines give `n + 1` line feeds. |
| BlockProperties.RefoldLinesBelong | __tests__/foldFlowLines.js:121-147 | Every line `Refold` writes is empty or carries the block indentation, so all of them belong to the block. A value of line feeds only is written as no lines. Any other value is written with a content line last, so no empty line trails the block. |
| BlockFold.SplitLines | __tests__/foldFlowLines.js:136-147 | Joining the pieces with line feeds gives the text back, and no piece holds a line feed. |
| BlockProperties.RefoldUnfolds | __tests__/foldFlowLines.js:121-147 | For every value that clip chomping can give and every width and indentation, writing the value as a folded block and reading the lines back, with the last line terminated, gives the value. |
| BlockProperties.RefoldUnfoldsUnterminated | __tests__/foldFlowLines.js:121-147 | A value that does not end in a line feed is read back from its written lines when the block ends right after its last line. |
| BlockProperties.RefoldLinesRereads | __tests__/foldFlowLines.js:123-145 | The content lines written for the logical lines of a value read back as those lines joined by line feeds. They end in a content line, and the first one is of the same kind as the first logical line. |
| BlockProperties.IndentDedents | __tests__/foldFlowLines.js:121-147 | Removing the block indentation from indented lines gives them back. |
| BlockProperties.PiecesJoin | __tests__/foldFlowLines.js:123-137 | The lines a text line is broken into, joined with single spaces, give the text line back. |
| BlockProperties.LineOutJoins | __tests__/foldFlowLines.js:123-137 | A text line is written as text lines that join back into it. Any other line is written as it is. |
| BlockProperties.LineOutFits | __tests__/foldFlowLines.js:130-134 | A text line no longer than the content width is written as one line, unchanged. |
| BlockProperties.SpacedLinesKept | __tests__/foldFlowLines.js:128-132 | Every more-indented logical line appears unchanged among the written content lines. |
| BlockProperties.UnfoldIgnoresTrailingEmpties | __tests__/foldFlowLines.js:133-145 | Clip chomping: empty lines at the end of the block do not change the value. The only effect of one or more of them is that the line break after the last content line is there. |
| BlockProperties.SplitJoinNewline | __tests__/foldFlowLines.js:136-147 | Splitting lines joined by line feeds at the line feeds gives the lines back. |
| BlockExamples.ParagraphLineOut | __tests__/foldFlowLines.js:123-126 | At width 20 the first paragraph is written as the four lines of the test, broken after "that", "folded" and "of". |
| BlockExamples.RefoldExample | __tests__/foldFlowLines.js:147 | Writing the test's value at width 20 gives exactly the test's content lines. |
| BlockExamples.UnfoldExample | __tests__/foldFlowLines.js:121-146 | Reading the test's content lines, whose last line ends in a line break, gives exactly the test's value. |

## Left out

- The YAML parser and stringifier (`YAML.parseStream`, `String(doc)`, the document tree).
  The block examples start from the scalar's content lines and end at its value.
- The block header line `> # comment ...` and comments in general. They are parsed, not folded.
- The process-wide `strOptions.fold` defaults that the block tests swap in and out. The
  width settings are passed explicitly as `BlockOptions`.
- The `onFold` callback and its mock. The returned break list and `Notifies()` stand in
  for it. The callback fires once per call, and the flag is one boolean per call.
- Skipping of escape sequences (`\x..`, `\u....`) inside quoted text. No test exercises it,
  so a break may be placed inside one.
- Unicode or grapheme-aware widths. A character counts as one column.
- A quoted line that has no break point and reaches only blanks before a line break or
  the end of the text. No test reaches that case. The model lets such a line overflow
  rather than escape a break in front of the blanks.
- "Keep" (`+`) and "strip" (`-`) chomping of block scalars. Only the default clip chomping
  appears in the test. `Refold` is proved to invert `Unfold` for every value that clip
  chomping can give: a value ending in one line feed, or a value ending in another
  character, read from a block whose last line has no line break.
- Literal (`|`) block scalars and the choice between block styles.
- FoldFlow.Fold: its own contract states no width bound, because a line without a break
  point runs past its limit by design. The conditional bounds are the `FoldLines`
  lemmas. Its contract also allows an escape on a break point. That escapes
  are only a fallback is proved separately, in `FoldLines.FoldEscapesAreFallbacks` and
  `FoldLines.FoldSingleSpacesBare`.
- FoldLines.ScanRestartsAtBreak: plain mode only. In quoted mode, a fresh scan from the
  character after a bare break can escape a break among characters that the running scan
  has already passed on the previous line. So the restart does not hold there in general.
- FoldLines.ContinuationIgnoresIndentAtStart: plain mode only, because it rests on
  `ScanRestartsAtBreak`.
- Quoted lines with a continuation budget of one column or less. An escaped line holds at
  least one character plus its `\`, so it runs one column past such a budget. For
  example, `abcdefgh` with indent `"  "` and width 3 gets the line `  c\`. No test sets
  such a budget.
- Quoted continuation lines after a first line with a larger budget. The scan escapes
  only once it passes the new line's limit. When a bare break falls on a line that was
  already past that limit, the escape on the next line comes late. For example,
  `a bbbbbbbbbbbbbb` with indent `"  "` and width 10 gets breaks after `a` (bare) and
  after the eighth `b` (escaped), so the second line, `  bbbbbbbb\`, has 11 columns. No
  test sets up that case.
- Idempotence with a continuation indent or in quoted mode, because it does not hold
  there. A second fold reads the indent of a continuation line as content, so a line that
  filled its budget is too long the second time (`FoldIdempotence.IndentedRefoldBreaksAgain`).
  In quoted mode an escaped line keeps the blanks it reached and gains a `\`, so it can
  exceed its limit and is escaped again (`FoldIdempotence.QuotedRefoldEscapesAgain`).

=== FILE: block_examples.dfy ===
/**
 The block-fold test worked through by the model: the content lines of a folded block
 scalar with a width of 20 and no minimum content width, and the value they read as.
 Reading the lines gives the value, and writing the value gives the lines back.
 */
module BlockExamples {
  import opened FoldFlow
  import opened BlockFold
  import opened BlockProperties

  /** The first paragraph of the value, one logical line. */
  const Paragraph: string := "Text " + "on " + "a " + "line " + "that " + "should " + "get " + "folded " + "with " + "a " + "line " + "width " + "of " + "20 " + "characters."

  /** The more-indented line of the value, which is never folded. */
  const MoreIndented: string := "  " + "Text " + "that " + "is " + "prevented " + "from " + "folding " + "due " + "to " + "being " + "more-indented."

  /** The value of the test's folded block scalar. */
  const Value: string :=
    Paragraph + "\n"
    + "\n"
    + "  Indented text\n"
    + "  that appears to be\n"
    + "folded but is not.\n"
    + "\n"
    + MoreIndented + "\n"
    + "\n"
    + "Unfolded paragraph.\n"

  /** The content lines of the test's folded block scalar, after its header line. */
  const Lines: seq<string> := [
    "Text on a line that",
    "should get folded",
    "with a line width of",
    "20 characters.",
    "",
    "  Indented text",
    "  that appears to be",
    "folded but is not.",
    "",
    MoreIndented,
    "",
    "Unfolded paragraph."]

  /** The logical lines of `Value`. */
  const Logicals: seq<string> := [Paragraph, "", "  Indented text", "  that appears to be", "folded but is not.", "", MoreIndented, "", "Unfolded paragraph."]

  /** The block options of the test: width 20, no minimum content width, no indentation. */
  const TestOptions: BlockOptions := BlockOptions("", 20, 0)

  const ParagraphBreaks: seq<Break> := [Break(19, false), Break(37, false), Break(58, false)]

  lemma ParagraphScan71()
    ensures Scan(Paragraph, Plain, 21, 71, 79, Some(61), 59) == []
  {
    assert Scan(Paragraph, Plain, 21, 73, 79, Some(61), 59) == [];
    assert Scan(Paragraph, Plain, 21, 72, 79, Some(61), 59) == [];
  }

  lemma ParagraphScan68()
    ensures Scan(Paragraph, Plain, 21, 68, 79, Some(61), 59) == []
  {
    ParagraphScan71();
    assert Scan(Paragraph, Plain, 21, 70, 79, Some(61), 59) == [];
    assert Scan(Paragraph, Plain, 21, 69, 79, Some(61), 59) == [];
  }

  lemma ParagraphScan65()
    ensures Scan(Paragraph, Plain, 21, 65, 79, Some(61), 59) == []
  {
    ParagraphScan68();
    assert Scan(Paragraph, Plain, 21, 67, 79, Some(61), 59) == [];
    assert Scan(Paragraph, Plain, 21, 66, 79, Some(61), 59) == [];
  }

  lemma ParagraphScan62()
    ensures Scan(Paragraph, Plain, 21, 62, 79, Some(61), 59) == []
  {
    ParagraphScan65();
    assert Scan(Paragraph, Plain, 21, 64, 79, Some(61), 59) == [];
    assert Scan(Paragraph, Plain, 21, 63, 79, Some(61), 59) == [];
  }

  lemma ParagraphScan59()
    ensures Scan(Paragraph, Plain, 21, 59, 79, None, 59) == []
  {
    ParagraphScan62();
    assert Scan(Paragraph, Plain, 21, 61, 79, None, 59) == [];
    assert Scan(Paragraph, Plain, 21, 60, 79, None, 59) == [];
  }

  lemma ParagraphScan56()
    ensures Scan(Paragraph, Plain, 21, 56, 58, Some(55), 38) == ParagraphBreaks[2..]
  {
    ParagraphScan59();
    assert Scan(Paragraph, Plain, 21, 58, 58, Some(55), 38) == ParagraphBreaks[2..];
    assert Scan(Paragraph, Plain, 21, 57, 58, Some(55), 38) == ParagraphBreaks[2..];
  }

  lemma ParagraphScan53()
    ensures Scan(Paragraph, Plain, 21, 53, 58, Some(49), 38) == ParagraphBreaks[2..]
  {
    ParagraphScan56();
    assert Scan(Paragraph, Plain, 21, 55, 58, Some(49), 38) == ParagraphBreaks[2..];
    assert Scan(Paragraph, Plain, 21, 54, 58, Some(49), 38) == ParagraphBreaks[2..];
  }

  lemma ParagraphScan50()
    ensures Scan(Paragraph, Plain, 21, 50, 58, Some(49), 38) == ParagraphBreaks[2..]
  {
    ParagraphScan53();
    assert Scan(Paragraph, Plain, 21, 52, 58, Some(49), 38) == ParagraphBreaks[2..];
    assert Scan(Paragraph, Plain, 21, 51, 58, Some(49), 38) == ParagraphBreaks[2..];
  }

  lemma ParagraphScan47()
    ensures Scan(Paragraph, Plain, 21, 47, 58, Some(44), 38) == ParagraphBreaks[2..]
  {
    ParagraphScan50();
    assert Scan(Paragraph, Plain, 21, 49, 58, Some(44), 38) == ParagraphBreaks[2..];
    assert Scan(Paragraph, Plain, 21, 48, 58, Some(44), 38) == ParagraphBreaks[2..];
  }

  lemma ParagraphScan44()
    ensures Scan(Paragraph, Plain, 21, 44, 58, Some(42), 38) == ParagraphBreaks[2..]
  {
    ParagraphScan47();
    assert Scan(Paragraph, Plain, 21, 46, 58, Some(44), 38) == ParagraphBreaks[2..];
    assert Scan(Paragraph, Plain, 21, 45, 58, Some(44), 38) == ParagraphBreaks[2..];
  }

  lemma ParagraphScan41()
    ensures Scan(Paragraph, Plain, 21, 41, 58, None, 38) == ParagraphBreaks[2..]
  {
    ParagraphScan44();
    assert Scan(Paragraph, Plain, 21, 43, 58, Some(42), 38) == ParagraphBreaks[2..];
    assert Scan(Paragraph, Plain, 21, 42, 58, None, 38) == ParagraphBreaks[2..];
  }

  lemma ParagraphScan38()
    ensures Scan(Paragraph, Plain, 21, 38, 40, Some(37), 20) == ParagraphBreaks[1..]
  {
    ParagraphScan41();
    assert Scan(Paragraph, Plain, 21, 40, 40, Some(37), 20) == ParagraphBreaks[1..];
    assert Scan(Paragraph, Plain, 21, 39, 40, Some(37), 20) == ParagraphBreaks[1..];
  }

  lemma ParagraphScan35()
    ensures Scan(Paragraph, Plain, 21, 35, 40, Some(30), 20) == ParagraphBreaks[1..]
  {
    ParagraphScan38();
    assert Scan(Paragraph, Plain, 21, 37, 40, Some(30), 20) == ParagraphBreaks[1..];
    assert Scan(Paragraph, Plain, 21, 36, 40, Some(30), 20) == ParagraphBreaks[1..];
  }

  lemma ParagraphScan32()
    ensures Scan(Paragraph, Plain, 21, 32, 40, Some(30), 20) == ParagraphBreaks[1..]
  {
    ParagraphScan35();
    assert Scan(Paragraph, Plain, 21, 34, 40, Some(30), 20) == ParagraphBreaks[1..];
    assert Scan(Paragraph, Plain, 21, 33, 40, Some(30), 20) == ParagraphBreaks[1..];
  }

  lemma ParagraphScan29()
    ensures Scan(Paragraph, Plain, 21, 29, 40, Some(26), 20) == ParagraphBreaks[1..]
  {
    ParagraphScan32();
    assert Scan(Paragraph, Plain, 21, 31, 40, Some(30), 20) == ParagraphBreaks[1..];
    assert Scan(Paragraph, Plain, 21, 30, 40, Some(26), 20) == ParagraphBreaks[1..];
  }

  lemma ParagraphScan26()
    ensures Scan(Paragraph, Plain, 21, 26, 40, None, 20) == ParagraphBreaks[1..]
  {
    ParagraphScan29();
    assert Scan(Paragraph, Plain, 21, 28, 40, Some(26), 20) == ParagraphBreaks[1..];
    assert Scan(Paragraph, Plain, 21, 27, 40, Some(26), 20) == ParagraphBreaks[1..];
  }

  lemma ParagraphScan23()
    ensures Scan(Paragraph, Plain, 21, 23, 40, None, 20) == ParagraphBreaks[1..]
  {
    ParagraphScan26();
    assert Scan(Paragraph, Plain, 21, 25, 40, None, 20) == ParagraphBreaks[1..];
    assert Scan(Paragraph, Plain, 21, 24, 40, None, 20) == ParagraphBreaks[1..];
  }

  lemma ParagraphScan20()
    ensures Scan(Paragraph, Plain, 21, 20, 20, Some(19), 0) == ParagraphBreaks
  {
    ParagraphScan23();
    assert Scan(Paragraph, Plain, 21, 22, 40, None, 20) == ParagraphBreaks[1..];
    assert Scan(Paragraph, Plain, 21, 21, 40, None, 20) == ParagraphBreaks[1..];
  }

  lemma ParagraphScan17()
    ensures Scan(Paragraph, Plain, 21, 17, 20, Some(14), 0) == ParagraphBreaks
  {
    ParagraphScan20();
    assert Scan(Paragraph, Plain, 21, 19, 20, Some(14), 0) == ParagraphBreaks;
    assert Scan(Paragraph, Plain, 21, 18, 20, Some(14), 0) == ParagraphBreaks;
  }

  lemma ParagraphScan14()
    ensures Scan(Paragraph, Plain, 21, 14, 20, Some(9), 0) == ParagraphBreaks
  {
    ParagraphScan17();
    assert Scan(Paragraph, Plain, 21, 16, 20, Some(14), 0) == ParagraphBreaks;
    assert Scan(Paragraph, Plain, 21, 15, 20, Some(14), 0) == ParagraphBreaks;
  }

  lemma ParagraphScan11()
    ensures Scan(Paragraph, Plain, 21, 11, 20, Some(9), 0) == ParagraphBreaks
  {
    ParagraphScan14();
    assert Scan(Paragraph, Plain, 21, 13, 20, Some(9), 0) == ParagraphBreaks;
    assert Scan(Paragraph, Plain, 21, 12, 20, Some(9), 0) == ParagraphBreaks;
  }

  lemma ParagraphScan8()
    ensures Scan(Paragraph, Plain, 21, 8, 20, Some(7), 0) == ParagraphBreaks
  {
    ParagraphScan11();
    assert Scan(Paragraph, Plain, 21, 10, 20, Some(9), 0) == ParagraphBreaks;
    assert Scan(Paragraph, Plain, 21, 9, 20, Some(7), 0) == ParagraphBreaks;
  }

  lemma ParagraphScan5()
    ensures Scan(Paragraph, Plain, 21, 5, 20, Some(4), 0) == ParagraphBreaks
  {
    ParagraphScan8();
    assert Scan(Paragraph, Plain, 21, 7, 20, Some(4), 0) == ParagraphBreaks;
    assert Scan(Paragraph, Plain, 21, 6, 20, Some(4), 0) == ParagraphBreaks;
  }

  lemma ParagraphScan2()
    ensures Scan(Paragraph, Plain, 21, 2, 20, None, 0) == ParagraphBreaks
  {
    ParagraphScan5();
    assert Scan(Paragraph, Plain, 21, 4, 20, None, 0) == ParagraphBreaks;
    assert Scan(Paragraph, Plain, 21, 3, 20, None, 0) == ParagraphBreaks;
  }

  lemma ParagraphScan()
    ensures Scan(Paragraph, Plain, 21, 0, 20, None, 0) == ParagraphBreaks
  {
    ParagraphScan2();
    assert Scan(Paragraph, Plain, 21, 1, 20, None, 0) == ParagraphBreaks;
  }

  /** The paragraph's breaks: a plain fold whose first line has the full budget of 20. */
  lemma ParagraphLineBreaks()
    ensures LineBreaks(Paragraph, TestOptions) == ParagraphBreaks
  {
    ParagraphScan();
    var flow := FoldOptions("", 0, 20, 0, Plain);
    assert EndStep(flow) == 21;
  }

  /** One piece of a concrete split. */
  lemma PiecesStep(text: string, breaks: seq<Break>, from: nat, piece: string, tail: seq<string>)
    requires from <= |text| && WellPlaced(text, breaks, from) && breaks != []
    requires text[from..breaks[0].pos] == piece
    requires Pieces(text, breaks[1..], breaks[0].pos + 1) == tail
    ensures Pieces(text, breaks, from) == [piece] + tail
  {
  }

  lemma ParagraphWellPlaced()
    ensures WellPlaced(Paragraph, ParagraphBreaks, 0)
    ensures WellPlaced(Paragraph, ParagraphBreaks[1..], 20)
    ensures WellPlaced(Paragraph, ParagraphBreaks[2..], 38)
    ensures WellPlaced(Paragraph, ParagraphBreaks[3..], 59)
  {
    ParagraphScan();
    assert ParagraphBreaks[1..][1..] == ParagraphBreaks[2..];
    assert ParagraphBreaks[2..][1..] == ParagraphBreaks[3..];
  }

  lemma ParagraphSlices()
    ensures Paragraph[..19] == "Text on a line that"
    ensures Paragraph[20..37] == "should get folded"
    ensures Paragraph[38..58] == "with a line width of"
    ensures Paragraph[59..] == "20 characters."
  {
    ParagraphSlice0();
    ParagraphSlice1();
    ParagraphSlice2();
    ParagraphSlice3();
  }

  lemma ParagraphSlice0()
    ensures Paragraph[..19] == "Text on a line that"
  {
  }

  lemma ParagraphSlice1()
    ensures Paragraph[20..37] == "should get folded"
  {
  }

  lemma ParagraphSlice2()
    ensures Paragraph[38..58] == "with a line width of"
  {
  }

  lemma ParagraphSlice3()
    ensures Paragraph[59..] == "20 characters."
  {
  }

  lemma ParagraphPieces()
    ensures WellPlaced(Paragraph, ParagraphBreaks, 0)
    ensures Pieces(Paragraph, ParagraphBreaks, 0) == ["Text on a line that", "should get folded", "with a line width of", "20 characters."]
  {
    ParagraphWellPlaced();
    ParagraphSlices();
    assert ParagraphBreaks[2..][1..] == ParagraphBreaks[3..];
    assert ParagraphBreaks[1..][1..] == ParagraphBreaks[2..];
    PiecesStep(Paragraph, ParagraphBreaks[2..], 38, "with a line width of", ["20 characters."]);
    PiecesStep(Paragraph, ParagraphBreaks[1..], 20, "should get folded", ["with a line width of", "20 characters."]);
    PiecesStep(Paragraph, ParagraphBreaks, 0, "Text on a line that", ["should get folded", "with a line width of", "20 characters."]);
  }

  /** The paragraph is written as four lines, broken after "that", "folded" and "of". */
  lemma ParagraphLineOut()
    ensures LineOut(Paragraph, TestOptions) == Lines[..4]
  {
    ParagraphLineBreaks();
    ParagraphPieces();
    assert IsText(Paragraph);
  }

  /** One step of `ValueJoins`: logical line `ls[0]` and its line feed. */
  lemma JoinNewlineStep(pre: string, ls: seq<string>, piece: string, v: string)
    requires |ls| > 1 && piece == ls[0] + "\n"
    requires v == pre + piece + JoinNewline(ls[1..]) + "\n"
    ensures v == pre + JoinNewline(ls) + "\n"
  {
    AppendAssoc(pre, piece, JoinNewline(ls[1..]));
    AppendAssoc(ls[0], "\n", JoinNewline(ls[1..]));
  }

  lemma JoinNewlineLast(pre: string, last: string, v: string)
    requires v == pre + (last + "\n")
    ensures v == pre + JoinNewline([last]) + "\n"
  {
    AppendAssoc(pre, last, "\n");
  }

  lemma JoinNewlineBare(pre: string, ls: seq<string>, v: string)
    requires |ls| > 1 && v == pre + ls[0] + "\n" + JoinNewline(ls[1..]) + "\n"
    ensures v == pre + JoinNewline(ls) + "\n"
  {
    AppendAssoc(pre, ls[0], "\n");
    AppendAssoc(pre, ls[0] + "\n", JoinNewline(ls[1..]));
  }

  lemma JoinNewlineFirst(ls: seq<string>, v: string)
    requires |ls| > 1 && v == ls[0] + "\n" + JoinNewline(ls[1..]) + "\n"
    ensures v == JoinNewline(ls) + "\n"
  {
  }

  lemma ValueJoinsFrom7()
    ensures Value == Paragraph + "\n" + "\n" + "  Indented text\n" + "  that appears to be\n" + "folded but is not.\n" + "\n" + MoreIndented + "\n" + JoinNewline(Logicals[7..]) + "\n"
  {
    JoinNewlineLast(Paragraph + "\n" + "\n" + "  Indented text\n" + "  that appears to be\n" + "folded but is not.\n" + "\n" + MoreIndented + "\n" + "\n", "Unfolded paragraph.", Value);
    JoinNewlineStep(Paragraph + "\n" + "\n" + "  Indented text\n" + "  that appears to be\n" + "folded but is not.\n" + "\n" + MoreIndented + "\n", Logicals[7..], "\n", Value);
  }

  lemma ValueJoinsFrom5()
    ensures Value == Paragraph + "\n" + "\n" + "  Indented text\n" + "  that appears to be\n" + "folded but is not.\n" + JoinNewline(Logicals[5..]) + "\n"
  {
    ValueJoinsFrom7();
    JoinNewlineBare(Paragraph + "\n" + "\n" + "  Indented text\n" + "  that appears to be\n" + "folded but is not.\n" + "\n", Logicals[6..], Value);
    JoinNewlineStep(Paragraph + "\n" + "\n" + "  Indented text\n" + "  that appears to be\n" + "folded but is not.\n", Logicals[5..], "\n", Value);
  }

  lemma ValueJoinsFrom3()
    ensures Value == Paragraph + "\n" + "\n" + "  Indented text\n" + JoinNewline(Logicals[3..]) + "\n"
  {
    ValueJoinsFrom5();
    JoinNewlineStep(Paragraph + "\n" + "\n" + "  Indented text\n" + "  that appears to be\n", Logicals[4..], "folded but is not.\n", Value);
    JoinNewlineStep(Paragraph + "\n" + "\n" + "  Indented text\n", Logicals[3..], "  that appears to be\n", Value);
  }

  lemma ValueJoinsFrom1()
    ensures Value == Paragraph + "\n" + JoinNewline(Logicals[1..]) + "\n"
  {
    ValueJoinsFrom3();
    JoinNewlineStep(Paragraph + "\n" + "\n", Logicals[2..], "  Indented text\n", Value);
    JoinNewlineStep(Paragraph + "\n", Logicals[1..], "\n", Value);
  }

  /** The value is its logical lines, each followed by a line feed. */
  lemma ValueJoins()
    ensures Value == JoinNewline(Logicals) + "\n"
  {
    ValueJoinsFrom1();
    JoinNewlineFirst(Logicals, Value);
  }
  /** The value ends in "paragraph." and one line feed. */
  lemma ValueEnds()
    ensures |Value| >= 2 && Value[|Value| - 1] == '\n' && Value[|Value| - 2] == '.'
  {
  }

  lemma LogicalsHaveNoLineFeeds()
    ensures forall k :: 0 <= k < |Logicals| ==> '\n' !in Logicals[k]
  {
    ParagraphHasNoLineFeeds();
    MoreIndentedHasNoLineFeeds();
    assert '\n' !in "  Indented text";
    assert '\n' !in "  that appears to be";
    assert '\n' !in "folded but is not.";
    assert '\n' !in "Unfolded paragraph.";
  }

  lemma MoreIndentedHasNoLineFeeds()
    ensures '\n' !in MoreIndented
  {
  }

  lemma ParagraphHasNoLineFeeds()
    ensures '\n' !in Paragraph
  {
  }

  /** Reading back the value's text: the trailing line feed is dropped and the rest splits
      into the logical lines. */
  lemma ValueSplits()
    ensures TrimNewlines(Value) == JoinNewline(Logicals)
    ensures SplitLines(TrimNewlines(Value)) == Logicals
  {
    ValueJoins();
    ValueEnds();
    var body := JoinNewline(Logicals);
    assert Value[..|Value| - 1] == body;
    assert TrimNewlines(body) == body;
    LogicalsHaveNoLineFeeds();
    SplitJoinNewline(Logicals);
  }

  /** One logical line of a concrete refold, with every part passed in. */
  lemma RefoldStep(ls: seq<string>, o: BlockOptions, e: nat, head: seq<string>, tail: seq<string>)
    requires EndsInContent(ls) && |ls| > 1 && ls[0] != ""
    requires LeadingEmpties(ls[1..]) == e
    requires LineOut(ls[0], o) == head
    requires RefoldLines(ls[1 + e..], o) == tail
    ensures RefoldLines(ls, o) == head + Empties(if IsText(ls[0]) && IsText(ls[1 + e]) then e + 1 else e) + tail
  {
  }

  /** The lines after the first paragraph are written as they are. */
  lemma RefoldRest(ls: seq<string>)
    requires ls == ["  Indented text", "  that appears to be", "folded but is not.", "", MoreIndented, "", "Unfolded paragraph."]
    ensures RefoldLines(ls, TestOptions) == ls
  {
    ShortLineOut("folded but is not.");
    ShortLineOut("Unfolded paragraph.");
    assert IsSpaced(MoreIndented);
    assert ls == ["  Indented text"] + (["  that appears to be"] + ["folded but is not.", "", MoreIndented, "", "Unfolded paragraph."]);
    RefoldKeepsLines("  Indented text", "  that appears to be", "folded but is not.", MoreIndented, "Unfolded paragraph.", TestOptions);
  }

  /** The shape of the lines after the first paragraph: two more-indented lines, a text line
      that fits, an empty line, a more-indented line, an empty line and a text line that
      fits. Such lines are written as they are. */
  lemma RefoldKeepsLines(s1: string, s2: string, t: string, m: string, u: string, o: BlockOptions)
    requires IsSpaced(s1) && IsSpaced(s2) && IsText(t) && IsSpaced(m) && IsText(u)
    requires LineOut(t, o) == [t] && LineOut(u, o) == [u]
    ensures RefoldLines([s1] + ([s2] + [t, "", m, "", u]), o) == [s1] + ([s2] + [t, "", m, "", u])
  {
    var tail := [t, "", m, "", u];
    RefoldKeepsTail(t, m, u, o);
    RefoldKeepsSpaced(s2, tail, o);
    RefoldKeepsSpaced(s1, [s2] + tail, o);
  }

  /** A more-indented line before a content line is written as it is. */
  lemma RefoldKeepsSpaced(a: string, rest: seq<string>, o: BlockOptions)
    requires IsSpaced(a) && EndsInContent(rest) && rest[0] != ""
    ensures RefoldLines([a] + rest, o) == [a] + RefoldLines(rest, o)
  {
    var ls := [a] + rest;
    assert ls[1..] == rest;
    assert LeadingEmpties(rest) == 0;
    assert ls[|ls| - 1] == rest[|rest| - 1];
  }

  lemma RefoldKeepsTail(t: string, m: string, u: string, o: BlockOptions)
    requires IsText(t) && IsSpaced(m) && IsText(u)
    requires LineOut(t, o) == [t] && LineOut(u, o) == [u]
    ensures RefoldLines([t, "", m, "", u], o) == [t, "", m, "", u]
  {
    var ls := [t, "", m, "", u];
    assert ls[1..] == ["", m, "", u] && ls[2..] == [m, "", u];
    assert [m, "", u][1..] == ["", u] && [m, "", u][2..] == [u];
    assert LeadingEmpties([u]) == 0;
    assert LeadingEmpties(["", u]) == 1;
    assert LeadingEmpties([m, "", u]) == 0;
    assert LeadingEmpties(["", m, "", u]) == 1;
    assert Empties(1) == [""];
    assert RefoldLines([u], o) == [u];
    assert RefoldLines([m, "", u], o) == [m] + [""] + [u];
  }

  /** The two short text lines fit the width and are written as they are. */
  lemma ShortLineOut(line: string)
    requires line == "folded but is not." || line == "Unfolded paragraph."
    ensures IsText(line)
    ensures LineOut(line, TestOptions) == [line]
  {
    LineOutFits(line, TestOptions);
  }

  /** The logical lines are written as the test's content lines. */
  lemma RefoldLogicals()
    ensures EndsInContent(Logicals)
    ensures RefoldLines(Logicals, TestOptions) == Lines
  {
    RefoldFirst(Logicals);
  }

  lemma RefoldFirst(ls: seq<string>)
    requires ls == Logicals
    ensures EndsInContent(ls)
    ensures RefoldLines(ls, TestOptions) == Lines
  {
    LogicalsShape();
    RefoldRest(ls[2..]);
    ParagraphLineOut();
    RefoldStep(ls, TestOptions, 1, Lines[..4], ls[2..]);
    assert Empties(1) == [""];
    LinesShape();
  }

  lemma LogicalsShape()
    ensures EndsInContent(Logicals) && Logicals[0] == Paragraph && IsText(Paragraph)
    ensures Logicals[2..] == ["  Indented text", "  that appears to be", "folded but is not.", "", MoreIndented, "", "Unfolded paragraph."]
    ensures LeadingEmpties(Logicals[1..]) == 1 && Logicals[1 + 1..] == Logicals[2..] && IsSpaced(Logicals[2])
  {
    assert Logicals[1..][0] == "" && Logicals[1..][1..] == Logicals[2..];
    assert LeadingEmpties(Logicals[1..][1..]) == 0;
  }

  lemma LinesShape()
    ensures Lines == Lines[..4] + Empties(1) + Logicals[2..]
  {
    assert Empties(1) == [""];
  }

  /** Writing the value gives the test's content lines. */
  lemma RefoldExample()
    ensures Refold(Value, TestOptions) == Lines
  {
    ValueSplits();
    RefoldLogicals();
    RefoldThrough(Value, TestOptions, Logicals, Lines);
    IndentNothing(Lines);
  }

  /** Writing a value whose logical lines are `ls`, these being written as `content`. */
  lemma RefoldThrough(v: string, o: BlockOptions, ls: seq<string>, content: seq<string>)
    requires TrimNewlines(v) != "" && SplitLines(TrimNewlines(v)) == ls
    requires EndsInContent(ls) && RefoldLines(ls, o) == content
    ensures Refold(v, o) == IndentLines(content, o.indent)
  {
  }

  lemma IndentNothing(ls: seq<string>)
    ensures IndentLines(ls, "") == ls
  {
    var r := IndentLines(ls, "");
    forall k | 0 <= k < |ls| ensures r[k] == ls[k] {
      assert "" + ls[k] == ls[k];
    }
  }

  /** Reading the test's content lines, the last one ending in a line break, gives the
      test's value. */
  lemma UnfoldExample()
    ensures Unfold(Lines, "", true) == Some(Value)
  {
    ValueEnds();
    RefoldExample();
    RefoldUnfolds(Value, TestOptions);
  }
}

=== FILE: block_fold.dfy ===
/**
 Folded block scalars (`>`), section 8.1.3 of YAML 1.2, with the default "clip" chomping.

 The scalar's lines lose the block indentation (a line of spaces shorter than it is an
 empty line) and then read back as a value by line folding: two adjacent text lines are joined by one space, and a run of `n`
 empty lines between two text lines gives `n` line feeds. Lines that start with a blank
 are "more indented" and are never folded: the line feed before and after them is kept,
 so `n` empty lines next to them give `n + 1` line feeds. Empty lines before the first
 content line each give a line feed, and trailing empty lines are dropped. The value ends
 in one line feed when the last content line has a line break after it, which it always
 has when empty lines follow it, and in no line feed when the block ends at the end of the
 input right after its last content line.

 Writing a value back as a folded block is the inverse: every text line of the value is
 folded like a plain scalar (each inserted break becomes a line of its own), more-indented
 lines are kept as they are, and empty lines are added so that reading gives back the
 same line feeds.
 */
module BlockFold {
  import opened FoldFlow

  /** The width settings of a block scalar: `indent` is the block indentation. */
  datatype BlockOptions = BlockOptions(indent: string, lineWidth: int, minContentWidth: int)

  /** A content line that starts with a blank: kept as it is on both sides. */
  predicate IsSpaced(line: string) {
    line != "" && IsBlank(line[0])
  }

  /** A content line that takes part in folding. */
  predicate IsText(line: string) {
    line != "" && !IsBlank(line[0])
  }

  function Newlines(n: nat): (s: string)
    ensures |s| == n && forall k :: 0 <= k < n ==> s[k] == '\n'
  {
    if n == 0 then "" else "\n" + Newlines(n - 1)
  }

  function Empties(n: nat): (ls: seq<string>)
    ensures |ls| == n && forall k :: 0 <= k < n ==> ls[k] == ""
  {
    if n == 0 then [] else [""] + Empties(n - 1)
  }

  /** The number of empty lines at the start of `ls`. */
  function LeadingEmpties(ls: seq<string>): (n: nat)
    ensures n <= |ls|
    ensures forall k :: 0 <= k < n ==> ls[k] == ""
    ensures n < |ls| ==> ls[n] != ""
  {
    if ls != [] && ls[0] == "" then 1 + LeadingEmpties(ls[1..]) else 0
  }

  /** The text between content lines `a` and `b` that have `n` empty lines between them. */
  function Separator(a: string, n: nat, b: string): string {
    if IsText(a) && IsText(b) then (if n == 0 then " " else Newlines(n)) else Newlines(n + 1)
  }

  predicate EndsInContent(ls: seq<string>) {
    ls != [] && ls[|ls| - 1] != ""
  }

  predicate EndsWith(s: string, t: string) {
    |t| <= |s| && s[|s| - |t|..] == t
  }

  lemma EndsWithAppend(a: string, b: string, t: string)
    requires EndsWith(b, t)
    ensures EndsWith(a + b, t)
  {
    assert (a + b)[|a + b| - |t|..] == b[|b| - |t|..];
  }

  /** Folds content lines into a value, the last line being a content line. */
  function JoinLines(ls: seq<string>): string
    requires EndsInContent(ls)
    decreases |ls|
  {
    if ls[0] == "" then "\n" + JoinLines(ls[1..])
    else if |ls| == 1 then ls[0]
    else
      var n := LeadingEmpties(ls[1..]);
      ls[0] + Separator(ls[0], n, ls[1 + n]) + JoinLines(ls[1 + n..])
  }

  /** The last content line is never folded into anything: the value ends with it. */
  lemma {:induction false} JoinLinesKeepsLast(ls: seq<string>)
    requires EndsInContent(ls)
    ensures EndsWith(JoinLines(ls), ls[|ls| - 1])
    decreases |ls|
  {
    if ls[0] == "" {
      JoinLinesKeepsLast(ls[1..]);
      EndsWithAppend("\n", JoinLines(ls[1..]), ls[|ls| - 1]);
    } else if |ls| > 1 {
      var n := LeadingEmpties(ls[1..]);
      JoinLinesKeepsLast(ls[1 + n..]);
      EndsWithAppend(ls[0] + Separator(ls[0], n, ls[1 + n]), JoinLines(ls[1 + n..]), ls[|ls| - 1]);
    }
  }

  /** `ls` without its trailing empty lines. */
  function TrimTrailing(ls: seq<string>): (r: seq<string>)
    ensures r <= ls
    ensures r == [] || EndsInContent(r)
    ensures forall k :: |r| <= k < |ls| ==> ls[k] == ""
  {
    if ls == [] || ls[|ls| - 1] != "" then ls else TrimTrailing(ls[..|ls| - 1])
  }

  /** The value of a folded block scalar with clip chomping, read from its content lines
      with the block indentation removed. `terminated` tells whether the last line has a
      line break after it; clip chomping keeps the line break after the last content line
      exactly when it is there. */
  function UnfoldContent(lines: seq<string>, terminated: bool): (v: string)
    ensures (forall k :: 0 <= k < |lines| ==> lines[k] == "") <==> v == ""
    ensures v != "" && (terminated || lines[|lines| - 1] == "") ==> v[|v| - 1] == '\n'
    ensures !terminated && lines != [] && lines[|lines| - 1] != "" ==> v == JoinLines(lines)
  {
    var content := TrimTrailing(lines);
    if content == [] then ""
    else
      assert content[|content| - 1] != "" && content[|content| - 1] == lines[|content| - 1];
      JoinLinesKeepsLast(content);
      JoinLines(content) + (if terminated || |content| < |lines| then "\n" else "")
  }

  predicate AllSpaces(line: string) {
    forall k :: 0 <= k < |line| ==> line[k] == ' '
  }

  /** A line with the block indentation removed. A line of spaces shorter than the
      indentation is an empty line; any other line that lacks the indentation cannot belong
      to the block. */
  function Dedent(line: string, baseIndent: string): (r: Option<string>)
    ensures r.Some? <==> baseIndent <= line || AllSpaces(line)
    ensures r.Some? && baseIndent <= line ==> line == baseIndent + r.value
  {
    if baseIndent <= line then Some(line[|baseIndent|..])
    else if AllSpaces(line) then Some("")
    else None
  }

  function DedentAll(lines: seq<string>, baseIndent: string): (r: Option<seq<string>>)
    ensures r.Some? <==> forall k :: 0 <= k < |lines| ==> Dedent(lines[k], baseIndent).Some?
    ensures r.Some? ==> |r.value| == |lines| && forall k :: 0 <= k < |lines| ==> Dedent(lines[k], baseIndent) == Some(r.value[k])
  {
    if lines == [] then Some([])
    else
      var first := Dedent(lines[0], baseIndent);
      var rest := DedentAll(lines[1..], baseIndent);
      if first.None? then None
      else if rest.None? then
        assert forall k :: 0 <= k < |lines[1..]| ==> lines[1..][k] == lines[k + 1];
        None
      else
        var r := [first.value] + rest.value;
        assert forall k :: 1 <= k < |lines| ==> lines[k] == lines[1..][k - 1];
        Some(r)
  }

  /** The value of a folded block scalar indented by `baseIndent`, or `None` when a line
      is not indented enough to belong to it. `terminated` tells whether the last line has
      a line break after it. */
  function Unfold(lines: seq<string>, baseIndent: string, terminated: bool): (v: Option<string>)
    ensures v.Some? <==> forall k :: 0 <= k < |lines| ==> baseIndent <= lines[k] || AllSpaces(lines[k])
  {
    match DedentAll(lines, baseIndent)
    case None => None
    case Some(content) => Some(UnfoldContent(content, terminated))
  }

  /** The lines of `ls` with a line feed between each two. */
  function JoinNewline(ls: seq<string>): string
    requires ls != []
    decreases |ls|
  {
    if |ls| == 1 then ls[0] else ls[0] + "\n" + JoinNewline(ls[1..])
  }

  /** The pieces of `text[from..]` cut out by bare breaks, each break's space dropped. */
  function Pieces(text: string, breaks: seq<Break>, from: nat): (ps: seq<string>)
    requires from <= |text|
    requires WellPlaced(text, breaks, from)
    ensures |ps| == |breaks| + 1
    decreases |breaks|
  {
    if breaks == [] then [text[from..]]
    else [text[from..breaks[0].pos]] + Pieces(text, breaks[1..], breaks[0].pos + 1)
  }

  /** The pieces with one space between each two. */
  function JoinSpaces(ps: seq<string>): string
    requires ps != []
    decreases |ps|
  {
    if |ps| == 1 then ps[0] else ps[0] + " " + JoinSpaces(ps[1..])
  }

  /** The breaks a text line of the block gets: a plain fold in which the first line has
      the same budget as every continuation line. */
  function LineBreaks(line: string, o: BlockOptions): (bs: seq<Break>)
    ensures WellPlaced(line, bs, 0) && NoEscapes(bs)
  {
    var flow := FoldOptions(o.indent, 0, o.lineWidth, o.minContentWidth, Plain);
    var step := EndStep(flow);
    Fold(line, flow.(indentAtStart := o.lineWidth + 1 - step)).breaks
  }

  /** The lines one logical line of the value is written as. */
  function LineOut(line: string, o: BlockOptions): seq<string> {
    if IsText(line) then Pieces(line, LineBreaks(line, o), 0) else [line]
  }

  /** The content lines for the logical lines `ls` of a value, the last one being non-empty. */
  function RefoldLines(ls: seq<string>, o: BlockOptions): seq<string>
    requires EndsInContent(ls)
    decreases |ls|
  {
    if ls[0] == "" then [""] + RefoldLines(ls[1..], o)
    else if |ls| == 1 then LineOut(ls[0], o)
    else
      var e := LeadingEmpties(ls[1..]);
      var blanks := if IsText(ls[0]) && IsText(ls[1 + e]) then e + 1 else e;
      LineOut(ls[0], o) + Empties(blanks) + RefoldLines(ls[1 + e..], o)
  }

  /** `s` split at its line feeds. */
  function SplitLines(s: string): (ls: seq<string>)
    ensures ls != [] && JoinNewline(ls) == s
    ensures forall k :: 0 <= k < |ls| ==> '\n' !in ls[k]
    decreases |s|
  {
    if s == "" then [""]
    else
      var rest := SplitLines(s[1..]);
      if s[0] == '\n' then [""] + rest
      else
        var ls := [[s[0]] + rest[0]] + rest[1..];
        assert ls[1..] == rest[1..];
        ls
  }

  /** `s` without its trailing line feeds. */
  function TrimNewlines(s: string): (r: string)
    ensures r <= s
    ensures r == "" || r[|r| - 1] != '\n'
    ensures forall k :: |r| <= k < |s| ==> s[k] == '\n'
  {
    if s == "" || s[|s| - 1] != '\n' then s else TrimNewlines(s[..|s| - 1])
  }

  /** The content lines a value is written as, without the block indentation. */
  function RefoldContent(v: string, o: BlockOptions): seq<string> {
    var body := TrimNewlines(v);
    if body == "" then [] else
      var ls := SplitLines(body);
      SplitEndsInContent(body);
      RefoldLines(ls, o)
  }

  /** Every non-empty line indented by `indent`; empty lines stay empty. */
  function IndentLines(ls: seq<string>, indent: string): (r: seq<string>)
    ensures |r| == |ls|
    ensures forall k :: 0 <= k < |ls| ==> r[k] == if ls[k] == "" then "" else indent + ls[k]
  {
    if ls == [] then []
    else [if ls[0] == "" then "" else indent + ls[0]] + IndentLines(ls[1..], indent)
  }

  /** The lines a value is written as in a folded block scalar indented by `o.indent`. */
  function Refold(v: string, o: BlockOptions): seq<string> {
    IndentLines(RefoldContent(v, o), o.indent)
  }

  /** A value that clip chomping can give for a block whose last line has a line break
      after it: empty, or ending in exactly one line feed. */
  predicate ClipChomped(v: string) {
    v == "" || (|v| >= 2 && v[|v| - 1] == '\n' && v[|v| - 2] != '\n')
  }

  /** The last line of a split is empty exactly when the text ends in a line feed. */
  lemma {:induction false} SplitEndsInContent(s: string)
    requires s != "" && s[|s| - 1] != '\n'
    ensures EndsInContent(SplitLines(s))
    decreases |s|
  {
    var rest := SplitLines(s[1..]);
    if |s| > 1 {
      SplitEndsInContent(s[1..]);
    }
  }
}

=== FILE: block_properties.dfy ===
/**
 Reading back a folded block scalar: the content lines written for a value read back as
 that value, and more-indented lines are written as they are.
 */
module BlockProperties {
  import opened FoldFlow
  import opened BlockFold
  import opened FoldProperties

  /** Joining the pieces of a line with single spaces gives the line back: every bare break
      stands on a space. */
  lemma {:induction false} PiecesJoin(text: string, breaks: seq<Break>, from: nat)
    requires from <= |text|
    requires WellPlaced(text, breaks, from) && NoEscapes(breaks)
    ensures JoinSpaces(Pieces(text, breaks, from)) == text[from..]
    decreases |breaks|
  {
    if breaks != [] {
      var p := breaks[0].pos;
      assert !breaks[0].escaped;
      assert NoEscapes(breaks[1..]) by {
        forall k | 0 <= k < |breaks[1..]| ensures !breaks[1..][k].escaped {
          assert breaks[1..][k] == breaks[k + 1];
        }
      }
      PiecesJoin(text, breaks[1..], p + 1);
      assert text[from..] == text[from..p] + [text[p]] + text[p + 1..];
    }
  }

  /** Every piece of a line that starts with a non-blank is a text line of its own: the
      continuation after a break starts with a word character. */
  lemma {:induction false} PiecesAreText(text: string, breaks: seq<Break>, from: nat)
    requires from < |text| && !IsBlank(text[from])
    requires WellPlaced(text, breaks, from) && NoEscapes(breaks)
    ensures forall k :: 0 <= k < |breaks| + 1 ==> IsText(Pieces(text, breaks, from)[k])
    decreases |breaks|
  {
    var ps := Pieces(text, breaks, from);
    if breaks != [] {
      var p := breaks[0].pos;
      assert NoEscapes(breaks[1..]) by {
        forall k | 0 <= k < |breaks[1..]| ensures !breaks[1..][k].escaped {
          assert breaks[1..][k] == breaks[k + 1];
        }
      }
      PiecesAreText(text, breaks[1..], p + 1);
      assert ps[0] == text[from..p] && p != from;
      assert ps[0][0] == text[from];
      forall k | 1 <= k < |breaks| + 1 ensures IsText(ps[k]) {
        assert ps[k] == Pieces(text, breaks[1..], p + 1)[k - 1];
      }
    }
  }

  /** What a logical line is written as joins back into it, and starts and ends with a
      line of its own kind. */
  lemma {:induction false} LineOutJoins(line: string, o: BlockOptions)
    requires line != ""
    ensures var out := LineOut(line, o);
      && out != []
      && JoinSpaces(out) == line
      && (IsText(line) ==> forall k :: 0 <= k < |out| ==> IsText(out[k]))
      && (!IsText(line) ==> out == [line])
  {
    if IsText(line) {
      var bs := LineBreaks(line, o);
      PiecesJoin(line, bs, 0);
      PiecesAreText(line, bs, 0);
    }
  }

  /** Reading one content line followed by `k` empty lines and more content. */
  lemma {:induction false} JoinOneLine(a: string, k: nat, rest: seq<string>)
    requires a != ""
    requires EndsInContent(rest) && rest[0] != ""
    ensures EndsInContent([a] + (Empties(k) + rest))
    ensures JoinLines([a] + (Empties(k) + rest)) == a + Separator(a, k, rest[0]) + JoinLines(rest)
  {
    var ls := [a] + (Empties(k) + rest);
    assert ls[|ls| - 1] == rest[|rest| - 1];
    assert ls[1..] == Empties(k) + rest;
    LeadingEmptiesBefore(k, rest);
    assert ls[1 + k] == rest[0];
    assert ls[1 + k..] == rest;
  }

  /** `JoinSpaces(ps) + t`, built the way the reader builds it: from the left. */
  function JoinSpacesThen(ps: seq<string>, t: string): string
    requires ps != []
    decreases |ps|
  {
    if |ps| == 1 then ps[0] + t else ps[0] + " " + JoinSpacesThen(ps[1..], t)
  }

  lemma {:induction false} JoinSpacesThenAppends(ps: seq<string>, t: string)
    requires ps != []
    ensures JoinSpacesThen(ps, t) == JoinSpaces(ps) + t
    decreases |ps|
  {
    if |ps| > 1 {
      JoinSpacesThenAppends(ps[1..], t);
      var js := JoinSpaces(ps[1..]);
      assert ps[0] + " " + (js + t) == ps[0] + " " + js + t;
    }
  }

  /** Reading text lines followed by empty lines and more content: the text lines join with
      spaces, then the separator to the next content line. */
  lemma {:induction false} JoinTextLines(ps: seq<string>, k: nat, rest: seq<string>)
    requires ps != [] && forall j :: 0 <= j < |ps| ==> IsText(ps[j])
    requires EndsInContent(rest) && rest[0] != ""
    ensures EndsInContent(ps + Empties(k) + rest)
    ensures JoinLines(ps + Empties(k) + rest) == JoinSpaces(ps) + Separator(ps[|ps| - 1], k, rest[0]) + JoinLines(rest)
  {
    var t := Separator(ps[|ps| - 1], k, rest[0]) + JoinLines(rest);
    assert ps + Empties(k) + rest == ps + (Empties(k) + rest);
    JoinTextLinesThen(ps, k, rest, ps + (Empties(k) + rest), t);
    JoinSpacesThenAppends(ps, t);
  }

  lemma {:induction false} JoinTextLinesThen(ps: seq<string>, k: nat, rest: seq<string>, ls: seq<string>, t: string)
    requires ps != [] && forall j :: 0 <= j < |ps| ==> IsText(ps[j])
    requires EndsInContent(rest) && rest[0] != ""
    requires ls == ps + (Empties(k) + rest)
    requires t == Separator(ps[|ps| - 1], k, rest[0]) + JoinLines(rest)
    ensures EndsInContent(ls)
    ensures JoinLines(ls) == JoinSpacesThen(ps, t)
    decreases |ps|
  {
    var m := Empties(k) + rest;
    if |ps| == 1 {
      JoinLastTextLine(ps, k, rest, ls, t);
    } else {
      var tail := ps[1..] + m;
      assert ps[1..][|ps[1..]| - 1] == ps[|ps| - 1];
      JoinTextLinesThen(ps[1..], k, rest, tail, t);
      ConsSplit(ps, m);
      JoinTextStep(ps, tail, t);
    }
  }

  /** The base case of `JoinTextLinesThen`: one text line. */
  lemma {:induction false} JoinLastTextLine(ps: seq<string>, k: nat, rest: seq<string>, ls: seq<string>, t: string)
    requires |ps| == 1 && ps[0] != ""
    requires EndsInContent(rest) && rest[0] != ""
    requires ls == ps + (Empties(k) + rest)
    requires t == Separator(ps[0], k, rest[0]) + JoinLines(rest)
    ensures EndsInContent(ls)
    ensures JoinLines(ls) == JoinSpacesThen(ps, t)
  {
    assert ls == [ps[0]] + (Empties(k) + rest);
    JoinOneLine(ps[0], k, rest);
    AppendAssoc(ps[0], Separator(ps[0], k, rest[0]), JoinLines(rest));
  }

  lemma AppendAssoc<T>(a: seq<T>, b: seq<T>, c: seq<T>)
    ensures a + b + c == a + (b + c)
  {
  }

  lemma ConsSplit<T>(s: seq<T>, m: seq<T>)
    requires s != []
    ensures s + m == [s[0]] + (s[1..] + m)
  {
  }

  /** One step of `JoinTextLinesThen`: a text line before text lines. */
  lemma {:induction false} JoinTextStep(ps: seq<string>, tail: seq<string>, t: string)
    requires |ps| > 1 && forall j :: 0 <= j < |ps| ==> IsText(ps[j])
    requires EndsInContent(tail) && tail[0] == ps[1]
    requires JoinLines(tail) == JoinSpacesThen(ps[1..], t)
    ensures EndsInContent([ps[0]] + tail)
    ensures JoinLines([ps[0]] + tail) == JoinSpacesThen(ps, t)
  {
    JoinTextPair(ps[0], tail);
  }

  /** Two adjacent text lines are joined by one space. */
  lemma {:induction false} JoinTextPair(a: string, ls: seq<string>)
    requires IsText(a) && EndsInContent(ls) && IsText(ls[0])
    ensures EndsInContent([a] + ls)
    ensures JoinLines([a] + ls) == a + " " + JoinLines(ls)
  {
    var all := [a] + ls;
    assert all[|all| - 1] == ls[|ls| - 1];
    assert all[1..] == ls;
    assert LeadingEmpties(ls) == 0;
  }

  /** Reading the last content lines, all of them text. */
  lemma {:induction false} JoinLastTextLines(ps: seq<string>)
    requires ps != [] && forall j :: 0 <= j < |ps| ==> IsText(ps[j])
    ensures EndsInContent(ps)
    ensures JoinLines(ps) == JoinSpaces(ps)
    decreases |ps|
  {
    if |ps| > 1 {
      assert LeadingEmpties(ps[1..]) == 0;
      JoinLastTextLines(ps[1..]);
    }
  }

  lemma {:induction false} LeadingEmptiesBefore(k: nat, rest: seq<string>)
    requires rest != [] && rest[0] != ""
    ensures LeadingEmpties(Empties(k) + rest) == k
    decreases k
  {
    if k > 0 {
      assert (Empties(k) + rest)[1..] == Empties(k - 1) + rest;
      LeadingEmptiesBefore(k - 1, rest);
    }
  }

  /** A logical line, `e` empty lines, and the rest are joined by `e + 1` line feeds. */
  lemma {:induction false} JoinNewlineEmpties(a: string, e: nat, rest: seq<string>)
    requires rest != []
    ensures JoinNewline([a] + Empties(e) + rest) == a + Newlines(e + 1) + JoinNewline(rest)
    decreases e
  {
    var ls := [a] + Empties(e) + rest;
    assert ls[1..] == Empties(e) + rest;
    if e == 0 {
      assert ls[1..] == rest;
    } else {
      assert Empties(e) + rest == [""] + Empties(e - 1) + rest;
      JoinNewlineEmpties("", e - 1, rest);
    }
  }

  /** The content lines written for logical lines read back as those logical lines, joined
      by line feeds; the first content line is of the same kind as the first logical line. */
  lemma {:induction false} RefoldLinesRereads(ls: seq<string>, o: BlockOptions)
    requires EndsInContent(ls)
    ensures EndsInContent(RefoldLines(ls, o))
    ensures JoinLines(RefoldLines(ls, o)) == JoinNewline(ls)
    ensures ls[0] != "" ==> RefoldLines(ls, o)[0] != "" && (IsText(RefoldLines(ls, o)[0]) <==> IsText(ls[0]))
    decreases |ls|
  {
    if ls[0] == "" {
      RefoldLinesRereads(ls[1..], o);
      EmptyLineRereads(ls, RefoldLines(ls[1..], o), RefoldLines(ls, o));
    } else if |ls| == 1 {
      LineOutJoins(ls[0], o);
      if IsText(ls[0]) {
        JoinLastTextLines(LineOut(ls[0], o));
      }
    } else {
      var e := LeadingEmpties(ls[1..]);
      var rest := ls[1 + e..];
      RefoldLinesRereads(rest, o);
      ContentLineRereads(ls, o, e, rest, RefoldLines(rest, o));
    }
  }

  /** A leading empty logical line is written as an empty content line, read as a line feed. */
  lemma {:induction false} EmptyLineRereads(ls: seq<string>, tail: seq<string>, out: seq<string>)
    requires EndsInContent(ls) && ls[0] == ""
    requires EndsInContent(tail) && JoinLines(tail) == JoinNewline(ls[1..])
    requires out == [""] + tail
    ensures EndsInContent(out)
    ensures JoinLines(out) == JoinNewline(ls)
  {
    assert out[|out| - 1] == tail[|tail| - 1];
    assert out[1..] == tail;
    assert |ls| > 1;
  }

  /** One step of `RefoldLines` at a content line followed by `e` empty lines. */
  lemma RefoldLinesFirst(ls: seq<string>, o: BlockOptions, e: nat, tail: seq<string>)
    requires EndsInContent(ls) && ls[0] != "" && |ls| > 1
    requires e == LeadingEmpties(ls[1..]) && tail == RefoldLines(ls[1 + e..], o)
    ensures RefoldLines(ls, o) == LineOut(ls[0], o) + Empties(if IsText(ls[0]) && IsText(ls[1 + e]) then e + 1 else e) + tail
  {
  }

  /** A content logical line, its following empty lines, and the rest, given that the rest
      reads back. */
  lemma {:induction false} ContentLineRereads(ls: seq<string>, o: BlockOptions, e: nat, rest: seq<string>, tail: seq<string>)
    requires EndsInContent(ls) && ls[0] != "" && |ls| > 1
    requires e == LeadingEmpties(ls[1..]) && rest == ls[1 + e..]
    requires EndsInContent(tail) && JoinLines(tail) == JoinNewline(rest)
    requires tail[0] != "" && (IsText(tail[0]) <==> IsText(rest[0]))
    requires tail == RefoldLines(rest, o)
    ensures EndsInContent(RefoldLines(ls, o))
    ensures JoinLines(RefoldLines(ls, o)) == JoinNewline(ls)
    ensures RefoldLines(ls, o)[0] != "" && (IsText(RefoldLines(ls, o)[0]) <==> IsText(ls[0]))
  {
    var a := ls[0];
    var blanks := if IsText(a) && IsText(rest[0]) then e + 1 else e;
    var lo := LineOut(a, o);
    RefoldLinesFirst(ls, o, e, tail);
    LineOutJoins(a, o);
    SplitAfterFirst(ls, e);
    JoinNewlineEmpties(a, e, rest);
    if IsText(a) {
      JoinTextLines(lo, blanks, tail);
    } else {
      AppendAssoc([a], Empties(blanks), tail);
      JoinOneLine(a, blanks, tail);
    }
  }

  /** A line, the empty lines after it, and the rest. */
  lemma {:induction false} SplitAfterFirst(ls: seq<string>, e: nat)
    requires |ls| > 1 && e == LeadingEmpties(ls[1..]) && e < |ls| - 1
    ensures ls == [ls[0]] + Empties(e) + ls[1 + e..]
  {
    var r := [ls[0]] + Empties(e) + ls[1 + e..];
    assert |r| == |ls|;
    forall k | 0 <= k < |ls| ensures r[k] == ls[k] {
      if 1 <= k < 1 + e {
        assert ls[1..][k - 1] == "";
      }
    }
  }

  /** Writing a value as a folded block scalar and reading it back, the last line having
      a line break, gives the value, for every value that clip chomping can give then. */
  lemma {:induction false} RefoldUnfolds(v: string, o: BlockOptions)
    requires ClipChomped(v)
    ensures Unfold(Refold(v, o), o.indent, true) == Some(v)
  {
    var content := RefoldContent(v, o);
    IndentDedents(content, o.indent);
    RefoldContentUnfolds(v, o);
  }

  /** A value that does not end in a line feed is read back from its written lines when
      the block ends right after its last line. */
  lemma {:induction false} RefoldUnfoldsUnterminated(v: string, o: BlockOptions)
    requires v != "" && v[|v| - 1] != '\n'
    ensures Unfold(Refold(v, o), o.indent, false) == Some(v)
  {
    var content := RefoldContent(v, o);
    IndentDedents(content, o.indent);
    RefoldContentUnfoldsUnterminated(v, o);
  }

  /** Every written line is empty or carries the block indentation, so all of them belong
      to the block; a value of line feeds only is written as no line at all, and any other
      value as lines whose last one holds content, so that no empty line trails the block. */
  lemma {:induction false} RefoldLinesBelong(v: string, o: BlockOptions)
    ensures forall k :: 0 <= k < |Refold(v, o)| ==> Refold(v, o)[k] == "" || o.indent <= Refold(v, o)[k]
    ensures Refold(v, o) == [] <==> forall k :: 0 <= k < |v| ==> v[k] == '\n'
    ensures Refold(v, o) != [] ==> EndsInContent(Refold(v, o))
  {
    var body := TrimNewlines(v);
    if body != "" {
      assert v[|body| - 1] == body[|body| - 1] != '\n';
      SplitEndsInContent(body);
      var ls := SplitLines(body);
      RefoldLinesRereads(ls, o);
    }
  }

  /** Removing the indentation from indented lines gives them back. */
  lemma {:induction false} IndentDedents(ls: seq<string>, indent: string)
    ensures DedentAll(IndentLines(ls, indent), indent) == Some(ls)
  {
    var lines := IndentLines(ls, indent);
    forall k | 0 <= k < |ls| ensures Dedent(lines[k], indent) == Some(ls[k]) {
      if ls[k] != "" {
        assert lines[k][|indent|..] == ls[k];
      }
    }
    var r := DedentAll(lines, indent);
    assert r.value == ls;
  }

  lemma {:induction false} RefoldContentUnfolds(v: string, o: BlockOptions)
    requires ClipChomped(v)
    ensures UnfoldContent(RefoldContent(v, o), true) == v
  {
    if v != "" {
      var body := TrimNewlines(v);
      assert TrimNewlines(v[..|v| - 1]) == v[..|v| - 1];
      assert body == v[..|v| - 1];
      var ls := SplitLines(body);
      SplitEndsInContent(body);
      RefoldLinesRereads(ls, o);
      var out := RefoldLines(ls, o);
      assert RefoldContent(v, o) == out;
      assert TrimTrailing(out) == out;
      assert UnfoldContent(out, true) == JoinLines(out) + "\n";
      assert JoinLines(out) == body;
      assert v == body + "\n";
    }
  }

  lemma {:induction false} RefoldContentUnfoldsUnterminated(v: string, o: BlockOptions)
    requires v != "" && v[|v| - 1] != '\n'
    ensures UnfoldContent(RefoldContent(v, o), false) == v
  {
    assert TrimNewlines(v) == v;
    var ls := SplitLines(v);
    SplitEndsInContent(v);
    RefoldLinesRereads(ls, o);
    var out := RefoldLines(ls, o);
    assert RefoldContent(v, o) == out;
  }

  /** Clip chomping: empty lines at the end of the block do not change the value, except
      that the line break after the last content line is then always there. */
  lemma UnfoldIgnoresTrailingEmpties(lines: seq<string>, n: nat, terminated: bool)
    ensures UnfoldContent(lines + Empties(n), terminated) == UnfoldContent(lines, terminated || n > 0)
  {
    TrimTrailingEmpties(lines, n);
  }

  lemma {:induction false} TrimTrailingEmpties(lines: seq<string>, n: nat)
    ensures TrimTrailing(lines + Empties(n)) == TrimTrailing(lines)
    decreases n
  {
    if n > 0 {
      var more := lines + [""];
      assert more[..|lines|] == lines;
      assert TrimTrailing(more) == TrimTrailing(lines);
      assert lines + Empties(n) == more + Empties(n - 1);
      TrimTrailingEmpties(more, n - 1);
    } else {
      assert lines + Empties(n) == lines;
    }
  }

  /** Folding two content lines with `n` empty lines between them: two text lines are
      joined by one space, or by `n` line feeds when empty lines stand between them; next
      to a more-indented line the line break is kept, so `n` empty lines give `n + 1`
      line feeds. */
  lemma JoinLinesPair(a: string, n: nat, b: string)
    requires a != "" && b != ""
    ensures EndsInContent([a] + Empties(n) + [b])
    ensures IsText(a) && IsText(b) && n == 0 ==> JoinLines([a] + Empties(n) + [b]) == a + " " + b
    ensures IsText(a) && IsText(b) && n > 0 ==> JoinLines([a] + Empties(n) + [b]) == a + Newlines(n) + b
    ensures IsSpaced(a) || IsSpaced(b) ==> JoinLines([a] + Empties(n) + [b]) == a + Newlines(n + 1) + b
  {
    assert [a] + Empties(n) + [b] == [a] + (Empties(n) + [b]);
    JoinOneLine(a, n, [b]);
  }

  /** A more-indented logical line is written out unchanged, as a content line of its own. */
  lemma {:induction false} SpacedLinesKept(ls: seq<string>, o: BlockOptions)
    requires EndsInContent(ls)
    ensures forall k :: 0 <= k < |ls| && IsSpaced(ls[k]) ==> ls[k] in RefoldLines(ls, o)
    decreases |ls|
  {
    var out := RefoldLines(ls, o);
    if ls[0] == "" {
      SpacedLinesKept(ls[1..], o);
      forall k | 0 <= k < |ls| && IsSpaced(ls[k]) ensures ls[k] in out {
        assert ls[k] == ls[1..][k - 1];
      }
    } else if |ls| > 1 {
      var e := LeadingEmpties(ls[1..]);
      var rest := ls[1 + e..];
      SpacedLinesKept(rest, o);
      var blanks := if IsText(ls[0]) && IsText(ls[1 + e]) then e + 1 else e;
      var lo := LineOut(ls[0], o);
      var tail := RefoldLines(rest, o);
      assert out == lo + Empties(blanks) + tail;
      forall k | 0 <= k < |ls| && IsSpaced(ls[k]) ensures ls[k] in out {
        if k == 0 {
          assert lo == [ls[0]] && out[0] == ls[0];
        } else {
          assert k >= 1 + e;
          assert ls[k] == rest[k - 1 - e];
          assert ls[k] in tail;
        }
      }
    }
  }

  /** A text line no longer than the content width is written as it is. */
  lemma LineOutFits(line: string, o: BlockOptions)
    requires '\n' !in line
    requires |line| <= Max(o.minContentWidth, o.lineWidth - |o.indent|)
    ensures LineOut(line, o) == [line]
  {
    if IsText(line) {
      var flow := FoldOptions(o.indent, 0, o.lineWidth, o.minContentWidth, Plain);
      var start := flow.(indentAtStart := o.lineWidth + 1 - EndStep(flow));
      forall m | 0 <= m < |line| && line[m] != '\n'
        ensures LineStartOf(line, m) == 0
      {
      }
      assert Fits(line, start);
      PassThrough(line, start);
      assert line[0..] == line;
    }
  }

  /** Splitting text whose first line is `a` keeps `a` in front of the first line of the rest. */
  lemma {:induction false} SplitFirstLine(a: string, s: string)
    requires '\n' !in a
    ensures SplitLines(a + s) == [a + SplitLines(s)[0]] + SplitLines(s)[1..]
    decreases |a|
  {
    var ss := SplitLines(s);
    if a != [] {
      assert a[0] != '\n' by { assert a[0] in a; }
      assert '\n' !in a[1..];
      SplitFirstLine(a[1..], s);
      ConsSplit(a, s);
      SplitCons(a[0], a[1..] + s);
      ConsSplit(a, ss[0]);
    } else {
      assert a + s == s && a + ss[0] == ss[0];
      assert ss == [ss[0]] + ss[1..];
    }
  }

  /** Splitting text that starts with a character other than a line feed. */
  lemma SplitCons(c: char, t: string)
    requires c != '\n'
    ensures SplitLines([c] + t) == [[c] + SplitLines(t)[0]] + SplitLines(t)[1..]
  {
    assert ([c] + t)[1..] == t;
  }

  /** Splitting at line feeds undoes joining with line feeds. */
  lemma {:induction false} SplitJoinNewline(ls: seq<string>)
    requires ls != []
    requires forall k :: 0 <= k < |ls| ==> '\n' !in ls[k]
    ensures SplitLines(JoinNewline(ls)) == ls
    decreases |ls|
  {
    if |ls| == 1 {
      SplitFirstLine(ls[0], "");
      assert ls[0] + "" == ls[0];
    } else {
      var rest := JoinNewline(ls[1..]);
      SplitJoinNewline(ls[1..]);
      assert JoinNewline(ls) == ls[0] + ("\n" + rest);
      SplitFirstLine(ls[0], "\n" + rest);
      assert ("\n" + rest)[1..] == rest;
      assert ls[0] + "" == ls[0];
      assert ls == [ls[0]] + ls[1..];
    }
  }
}

=== FILE: fold_examples.dfy ===
/**
 The scenarios of the flow-folding tests, worked through by the model: the folded text
 and the inserted breaks for each configuration. The `...Scan` helpers step the scan
 through the sample one index at a time.
 */
module FoldExamples {
  import opened FoldFlow

  const PlainSample: string := "abc " + "def " + "ghi " + "jkl " + "mno " + "pqr " + "stu " + "vwx " + "yz\n"
  const DoubledSample: string := "abc  " + "def  " + "ghi  " + "jkl  " + "mno  " + "pqr  " + "stu  " + "vwx  " + "yz\n"
  const QuotedSample: string := "\"abc " + "def " + "ghi " + "jkl " + "mnopqrstuvwxyz\n\""
  const QuotedDoubledSample: string := "\"abc  " + "def  " + "ghi  " + "jkl  " + "mno  " + "pqr  " + "stu  " + "vwx  " + "yz\n\""

  /** One break of a concrete rendering: the piece up to and including the break, then the rest. */
  lemma RenderStep(text: string, breaks: seq<Break>, rest: seq<Break>, indent: string, from: nat, piece: string, tail: string)
    requires |breaks| > 0 && breaks[1..] == rest
    requires from <= breaks[0].pos < |text| && Admissible(text, breaks[0])
    requires WellPlaced(text, rest, breaks[0].pos + 1)
    requires (if breaks[0].escaped then text[from..breaks[0].pos + 1] else text[from..breaks[0].pos]) + BreakText(breaks[0].escaped, indent) == piece
    requires Render(text, rest, indent, breaks[0].pos + 1) == tail
    ensures WellPlaced(text, breaks, from)
    ensures Render(text, breaks, indent, from) == piece + tail
  {
  }

  lemma PlainPassThroughScan32()
    ensures Scan(PlainSample, Plain, 41, 32, 40, Some(31), 0) == []
  {
    assert Scan(PlainSample, Plain, 41, 35, 75, None, 35) == [];
    assert Scan(PlainSample, Plain, 41, 34, 40, Some(31), 0) == [];
    assert Scan(PlainSample, Plain, 41, 33, 40, Some(31), 0) == [];
  }

  lemma PlainPassThroughScan28()
    ensures Scan(PlainSample, Plain, 41, 28, 40, Some(27), 0) == []
  {
    PlainPassThroughScan32();
    assert Scan(PlainSample, Plain, 41, 31, 40, Some(27), 0) == [];
    assert Scan(PlainSample, Plain, 41, 30, 40, Some(27), 0) == [];
    assert Scan(PlainSample, Plain, 41, 29, 40, Some(27), 0) == [];
  }

  lemma PlainPassThroughScan24()
    ensures Scan(PlainSample, Plain, 41, 24, 40, Some(23), 0) == []
  {
    PlainPassThroughScan28();
    assert Scan(PlainSample, Plain, 41, 27, 40, Some(23), 0) == [];
    assert Scan(PlainSample, Plain, 41, 26, 40, Some(23), 0) == [];
    assert Scan(PlainSample, Plain, 41, 25, 40, Some(23), 0) == [];
  }

  lemma PlainPassThroughScan20()
    ensures Scan(PlainSample, Plain, 41, 20, 40, Some(19), 0) == []
  {
    PlainPassThroughScan24();
    assert Scan(PlainSample, Plain, 41, 23, 40, Some(19), 0) == [];
    assert Scan(PlainSample, Plain, 41, 22, 40, Some(19), 0) == [];
    assert Scan(PlainSample, Plain, 41, 21, 40, Some(19), 0) == [];
  }

  lemma PlainPassThroughScan16()
    ensures Scan(PlainSample, Plain, 41, 16, 40, Some(15), 0) == []
  {
    PlainPassThroughScan20();
    assert Scan(PlainSample, Plain, 41, 19, 40, Some(15), 0) == [];
    assert Scan(PlainSample, Plain, 41, 18, 40, Some(15), 0) == [];
    assert Scan(PlainSample, Plain, 41, 17, 40, Some(15), 0) == [];
  }

  lemma PlainPassThroughScan12()
    ensures Scan(PlainSample, Plain, 41, 12, 40, Some(11), 0) == []
  {
    PlainPassThroughScan16();
    assert Scan(PlainSample, Plain, 41, 15, 40, Some(11), 0) == [];
    assert Scan(PlainSample, Plain, 41, 14, 40, Some(11), 0) == [];
    assert Scan(PlainSample, Plain, 41, 13, 40, Some(11), 0) == [];
  }

  lemma PlainPassThroughScan8()
    ensures Scan(PlainSample, Plain, 41, 8, 40, Some(7), 0) == []
  {
    PlainPassThroughScan12();
    assert Scan(PlainSample, Plain, 41, 11, 40, Some(7), 0) == [];
    assert Scan(PlainSample, Plain, 41, 10, 40, Some(7), 0) == [];
    assert Scan(PlainSample, Plain, 41, 9, 40, Some(7), 0) == [];
  }

  lemma PlainPassThroughScan4()
    ensures Scan(PlainSample, Plain, 41, 4, 40, Some(3), 0) == []
  {
    PlainPassThroughScan8();
    assert Scan(PlainSample, Plain, 41, 7, 40, Some(3), 0) == [];
    assert Scan(PlainSample, Plain, 41, 6, 40, Some(3), 0) == [];
    assert Scan(PlainSample, Plain, 41, 5, 40, Some(3), 0) == [];
  }

  lemma PlainPassThroughScan()
    ensures Scan(PlainSample, Plain, 41, 0, 40, None, 0) == []
  {
    PlainPassThroughScan4();
    assert Scan(PlainSample, Plain, 41, 3, 40, None, 0) == [];
    assert Scan(PlainSample, Plain, 41, 2, 40, None, 0) == [];
    assert Scan(PlainSample, Plain, 41, 1, 40, None, 0) == [];
  }

  /** Plain pass-through: the sample fits a width of 40 and is returned as it is, without notifying. */
  lemma PlainPassThrough()
    ensures Fold(PlainSample, FoldOptions("", 0, 40, 0, Plain)) == Folded(PlainSample, [])
  {
    var o := FoldOptions("", 0, 40, 0, Plain);
    assert EndStep(o) == 41 && FirstLimit(o) == 40;
    PlainPassThroughScan();
  }
  lemma PlainSimpleScan32()
    ensures Scan(PlainSample, Plain, 21, 32, 40, Some(31), 20) == []
  {
    assert Scan(PlainSample, Plain, 21, 35, 55, None, 35) == [];
    assert Scan(PlainSample, Plain, 21, 34, 40, Some(31), 20) == [];
    assert Scan(PlainSample, Plain, 21, 33, 40, Some(31), 20) == [];
  }

  lemma PlainSimpleScan28()
    ensures Scan(PlainSample, Plain, 21, 28, 40, Some(27), 20) == []
  {
    PlainSimpleScan32();
    assert Scan(PlainSample, Plain, 21, 31, 40, Some(27), 20) == [];
    assert Scan(PlainSample, Plain, 21, 30, 40, Some(27), 20) == [];
    assert Scan(PlainSample, Plain, 21, 29, 40, Some(27), 20) == [];
  }

  lemma PlainSimpleScan24()
    ensures Scan(PlainSample, Plain, 21, 24, 40, Some(23), 20) == []
  {
    PlainSimpleScan28();
    assert Scan(PlainSample, Plain, 21, 27, 40, Some(23), 20) == [];
    assert Scan(PlainSample, Plain, 21, 26, 40, Some(23), 20) == [];
    assert Scan(PlainSample, Plain, 21, 25, 40, Some(23), 20) == [];
  }

  lemma PlainSimpleScan20()
    ensures Scan(PlainSample, Plain, 21, 20, 20, Some(19), 0) == [Break(19, false)]
  {
    PlainSimpleScan24();
    assert Scan(PlainSample, Plain, 21, 23, 40, None, 20) == [];
    assert Scan(PlainSample, Plain, 21, 22, 40, None, 20) == [];
    assert Scan(PlainSample, Plain, 21, 21, 40, None, 20) == [];
  }

  lemma PlainSimpleScan16()
    ensures Scan(PlainSample, Plain, 21, 16, 20, Some(15), 0) == [Break(19, false)]
  {
    PlainSimpleScan20();
    assert Scan(PlainSample, Plain, 21, 19, 20, Some(15), 0) == [Break(19, false)];
    assert Scan(PlainSample, Plain, 21, 18, 20, Some(15), 0) == [Break(19, false)];
    assert Scan(PlainSample, Plain, 21, 17, 20, Some(15), 0) == [Break(19, false)];
  }

  lemma PlainSimpleScan12()
    ensures Scan(PlainSample, Plain, 21, 12, 20, Some(11), 0) == [Break(19, false)]
  {
    PlainSimpleScan16();
    assert Scan(PlainSample, Plain, 21, 15, 20, Some(11), 0) == [Break(19, false)];
    assert Scan(PlainSample, Plain, 21, 14, 20, Some(11), 0) == [Break(19, false)];
    assert Scan(PlainSample, Plain, 21, 13, 20, Some(11), 0) == [Break(19, false)];
  }

  lemma PlainSimpleScan8()
    ensures Scan(PlainSample, Plain, 21, 8, 20, Some(7), 0) == [Break(19, false)]
  {
    PlainSimpleScan12();
    assert Scan(PlainSample, Plain, 21, 11, 20, Some(7), 0) == [Break(19, false)];
    assert Scan(PlainSample, Plain, 21, 10, 20, Some(7), 0) == [Break(19, false)];
    assert Scan(PlainSample, Plain, 21, 9, 20, Some(7), 0) == [Break(19, false)];
  }

  lemma PlainSimpleScan4()
    ensures Scan(PlainSample, Plain, 21, 4, 20, Some(3), 0) == [Break(19, false)]
  {
    PlainSimpleScan8();
    assert Scan(PlainSample, Plain, 21, 7, 20, Some(3), 0) == [Break(19, false)];
    assert Scan(PlainSample, Plain, 21, 6, 20, Some(3), 0) == [Break(19, false)];
    assert Scan(PlainSample, Plain, 21, 5, 20, Some(3), 0) == [Break(19, false)];
  }

  lemma PlainSimpleScan()
    ensures Scan(PlainSample, Plain, 21, 0, 20, None, 0) == [Break(19, false)]
  {
    PlainSimpleScan4();
    assert Scan(PlainSample, Plain, 21, 3, 20, None, 0) == [Break(19, false)];
    assert Scan(PlainSample, Plain, 21, 2, 20, None, 0) == [Break(19, false)];
    assert Scan(PlainSample, Plain, 21, 1, 20, None, 0) == [Break(19, false)];
  }

  const PlainSimpleBreaks: seq<Break> := [Break(19, false)]

  lemma PlainSimpleRender1()
    ensures WellPlaced(PlainSample, PlainSimpleBreaks[1..], 20)
    ensures Render(PlainSample, PlainSimpleBreaks[1..], "", 20) == "pqr " + "stu " + "vwx " + "yz\n"
  {
  }

  lemma PlainSimpleRender0()
    ensures WellPlaced(PlainSample, PlainSimpleBreaks, 0)
    ensures Render(PlainSample, PlainSimpleBreaks, "", 0) == "abc def ghi jkl mno\n" + "pqr " + "stu " + "vwx " + "yz\n"
  {
    PlainSimpleRender1();
    RenderStep(PlainSample, PlainSimpleBreaks, PlainSimpleBreaks[1..], "", 0, "abc def ghi jkl mno\n", "pqr " + "stu " + "vwx " + "yz\n");
  }

  /** Plain, width 20: one break, after "mno". */
  lemma PlainSimple()
    ensures Fold(PlainSample, FoldOptions("", 0, 20, 0, Plain)) == Folded("abc def ghi jkl mno\n" + "pqr " + "stu " + "vwx " + "yz\n", [Break(19, false)])
  {
    var o := FoldOptions("", 0, 20, 0, Plain);
    assert EndStep(o) == 21 && FirstLimit(o) == 20;
    PlainSimpleScan();
    PlainSimpleRender0();
  }
  lemma PlainMultipleFoldsScan32()
    ensures Scan(PlainSample, Plain, 11, 32, 34, Some(31), 24) == []
  {
    assert Scan(PlainSample, Plain, 11, 35, 45, None, 35) == [];
    assert Scan(PlainSample, Plain, 11, 34, 34, Some(31), 24) == [];
    assert Scan(PlainSample, Plain, 11, 33, 34, Some(31), 24) == [];
  }

  lemma PlainMultipleFoldsScan28()
    ensures Scan(PlainSample, Plain, 11, 28, 34, Some(27), 24) == []
  {
    PlainMultipleFoldsScan32();
    assert Scan(PlainSample, Plain, 11, 31, 34, Some(27), 24) == [];
    assert Scan(PlainSample, Plain, 11, 30, 34, Some(27), 24) == [];
    assert Scan(PlainSample, Plain, 11, 29, 34, Some(27), 24) == [];
  }

  lemma PlainMultipleFoldsScan24()
    ensures Scan(PlainSample, Plain, 11, 24, 26, Some(23), 16) == [Break(23, false)]
  {
    PlainMultipleFoldsScan28();
    assert Scan(PlainSample, Plain, 11, 27, 34, None, 24) == [];
    assert Scan(PlainSample, Plain, 11, 26, 26, Some(23), 16) == [Break(23, false)];
    assert Scan(PlainSample, Plain, 11, 25, 26, Some(23), 16) == [Break(23, false)];
  }

  lemma PlainMultipleFoldsScan20()
    ensures Scan(PlainSample, Plain, 11, 20, 26, Some(19), 16) == [Break(23, false)]
  {
    PlainMultipleFoldsScan24();
    assert Scan(PlainSample, Plain, 11, 23, 26, Some(19), 16) == [Break(23, false)];
    assert Scan(PlainSample, Plain, 11, 22, 26, Some(19), 16) == [Break(23, false)];
    assert Scan(PlainSample, Plain, 11, 21, 26, Some(19), 16) == [Break(23, false)];
  }

  lemma PlainMultipleFoldsScan16()
    ensures Scan(PlainSample, Plain, 11, 16, 18, Some(15), 8) == [Break(15, false), Break(23, false)]
  {
    PlainMultipleFoldsScan20();
    assert Scan(PlainSample, Plain, 11, 19, 26, None, 16) == [Break(23, false)];
    assert Scan(PlainSample, Plain, 11, 18, 18, Some(15), 8) == [Break(15, false), Break(23, false)];
    assert Scan(PlainSample, Plain, 11, 17, 18, Some(15), 8) == [Break(15, false), Break(23, false)];
  }

  lemma PlainMultipleFoldsScan12()
    ensures Scan(PlainSample, Plain, 11, 12, 18, Some(11), 8) == [Break(15, false), Break(23, false)]
  {
    PlainMultipleFoldsScan16();
    assert Scan(PlainSample, Plain, 11, 15, 18, Some(11), 8) == [Break(15, false), Break(23, false)];
    assert Scan(PlainSample, Plain, 11, 14, 18, Some(11), 8) == [Break(15, false), Break(23, false)];
    assert Scan(PlainSample, Plain, 11, 13, 18, Some(11), 8) == [Break(15, false), Break(23, false)];
  }

  lemma PlainMultipleFoldsScan8()
    ensures Scan(PlainSample, Plain, 11, 8, 10, Some(7), 0) == [Break(7, false), Break(15, false), Break(23, false)]
  {
    PlainMultipleFoldsScan12();
    assert Scan(PlainSample, Plain, 11, 11, 18, None, 8) == [Break(15, false), Break(23, false)];
    assert Scan(PlainSample, Plain, 11, 10, 10, Some(7), 0) == [Break(7, false), Break(15, false), Break(23, false)];
    assert Scan(PlainSample, Plain, 11, 9, 10, Some(7), 0) == [Break(7, false), Break(15, false), Break(23, false)];
  }

  lemma PlainMultipleFoldsScan4()
    ensures Scan(PlainSample, Plain, 11, 4, 10, Some(3), 0) == [Break(7, false), Break(15, false), Break(23, false)]
  {
    PlainMultipleFoldsScan8();
    assert Scan(PlainSample, Plain, 11, 7, 10, Some(3), 0) == [Break(7, false), Break(15, false), Break(23, false)];
    assert Scan(PlainSample, Plain, 11, 6, 10, Some(3), 0) == [Break(7, false), Break(15, false), Break(23, false)];
    assert Scan(PlainSample, Plain, 11, 5, 10, Some(3), 0) == [Break(7, false), Break(15, false), Break(23, false)];
  }

  lemma PlainMultipleFoldsScan()
    ensures Scan(PlainSample, Plain, 11, 0, 10, None, 0) == [Break(7, false), Break(15, false), Break(23, false)]
  {
    PlainMultipleFoldsScan4();
    assert Scan(PlainSample, Plain, 11, 3, 10, None, 0) == [Break(7, false), Break(15, false), Break(23, false)];
    assert Scan(PlainSample, Plain, 11, 2, 10, None, 0) == [Break(7, false), Break(15, false), Break(23, false)];
    assert Scan(PlainSample, Plain, 11, 1, 10, None, 0) == [Break(7, false), Break(15, false), Break(23, false)];
  }

  const PlainMultipleFoldsBreaks: seq<Break> := [Break(7, false), Break(15, false), Break(23, false)]

  lemma PlainMultipleFoldsRender3()
    ensures WellPlaced(PlainSample, PlainMultipleFoldsBreaks[3..], 24)
    ensures Render(PlainSample, PlainMultipleFoldsBreaks[3..], "", 24) == "stu " + "vwx " + "yz\n"
  {
  }

  lemma PlainMultipleFoldsRender2()
    ensures WellPlaced(PlainSample, PlainMultipleFoldsBreaks[2..], 16)
    ensures Render(PlainSample, PlainMultipleFoldsBreaks[2..], "", 16) == "mno pqr\n" + "stu " + "vwx " + "yz\n"
  {
    PlainMultipleFoldsRender3();
    RenderStep(PlainSample, PlainMultipleFoldsBreaks[2..], PlainMultipleFoldsBreaks[3..], "", 16, "mno pqr\n", "stu " + "vwx " + "yz\n");
  }

  lemma PlainMultipleFoldsRender1()
    ensures WellPlaced(PlainSample, PlainMultipleFoldsBreaks[1..], 8)
    ensures Render(PlainSample, PlainMultipleFoldsBreaks[1..], "", 8) == "ghi jkl\n" + ("mno pqr\n" + "stu " + "vwx " + "yz\n")
  {
    PlainMultipleFoldsRender2();
    RenderStep(PlainSample, PlainMultipleFoldsBreaks[1..], PlainMultipleFoldsBreaks[2..], "", 8, "ghi jkl\n", "mno pqr\n" + "stu " + "vwx " + "yz\n");
  }

  lemma PlainMultipleFoldsRender0()
    ensures WellPlaced(PlainSample, PlainMultipleFoldsBreaks, 0)
    ensures Render(PlainSample, PlainMultipleFoldsBreaks, "", 0) == "abc def\n" + ("ghi jkl\n" + ("mno pqr\n" + "stu " + "vwx " + "yz\n"))
  {
    PlainMultipleFoldsRender1();
    RenderStep(PlainSample, PlainMultipleFoldsBreaks, PlainMultipleFoldsBreaks[1..], "", 0, "abc def\n", "ghi jkl\n" + ("mno pqr\n" + "stu " + "vwx " + "yz\n"));
  }

  /** Plain, width 10: three breaks, and the observer fires once for all of them. */
  lemma PlainMultipleFolds()
    ensures Fold(PlainSample, FoldOptions("", 0, 10, 0, Plain)) == Folded("abc def\n" + ("ghi jkl\n" + ("mno pqr\n" + "stu " + "vwx " + "yz\n")), [Break(7, false), Break(15, false), Break(23, false)])
  {
    var o := FoldOptions("", 0, 10, 0, Plain);
    assert EndStep(o) == 11 && FirstLimit(o) == 10;
    PlainMultipleFoldsScan();
    PlainMultipleFoldsRender0();
  }
  lemma PlainIndentScan32()
    ensures Scan(PlainSample, Plain, 9, 32, 32, Some(31), 24) == [Break(31, false)]
  {
    assert Scan(PlainSample, Plain, 9, 35, 43, None, 35) == [];
    assert Scan(PlainSample, Plain, 9, 34, 40, None, 32) == [];
    assert Scan(PlainSample, Plain, 9, 33, 40, None, 32) == [];
  }

  lemma PlainIndentScan28()
    ensures Scan(PlainSample, Plain, 9, 28, 32, Some(27), 24) == [Break(31, false)]
  {
    PlainIndentScan32();
    assert Scan(PlainSample, Plain, 9, 31, 32, Some(27), 24) == [Break(31, false)];
    assert Scan(PlainSample, Plain, 9, 30, 32, Some(27), 24) == [Break(31, false)];
    assert Scan(PlainSample, Plain, 9, 29, 32, Some(27), 24) == [Break(31, false)];
  }

  lemma PlainIndentScan24()
    ensures Scan(PlainSample, Plain, 9, 24, 24, Some(23), 16) == [Break(23, false), Break(31, false)]
  {
    PlainIndentScan28();
    assert Scan(PlainSample, Plain, 9, 27, 32, None, 24) == [Break(31, false)];
    assert Scan(PlainSample, Plain, 9, 26, 32, None, 24) == [Break(31, false)];
    assert Scan(PlainSample, Plain, 9, 25, 32, None, 24) == [Break(31, false)];
  }

  lemma PlainIndentScan20()
    ensures Scan(PlainSample, Plain, 9, 20, 24, Some(19), 16) == [Break(23, false), Break(31, false)]
  {
    PlainIndentScan24();
    assert Scan(PlainSample, Plain, 9, 23, 24, Some(19), 16) == [Break(23, false), Break(31, false)];
    assert Scan(PlainSample, Plain, 9, 22, 24, Some(19), 16) == [Break(23, false), Break(31, false)];
    assert Scan(PlainSample, Plain, 9, 21, 24, Some(19), 16) == [Break(23, false), Break(31, false)];
  }

  lemma PlainIndentScan16()
    ensures Scan(PlainSample, Plain, 9, 16, 16, Some(15), 8) == [Break(15, false), Break(23, false), Break(31, false)]
  {
    PlainIndentScan20();
    assert Scan(PlainSample, Plain, 9, 19, 24, None, 16) == [Break(23, false), Break(31, false)];
    assert Scan(PlainSample, Plain, 9, 18, 24, None, 16) == [Break(23, false), Break(31, false)];
    assert Scan(PlainSample, Plain, 9, 17, 24, None, 16) == [Break(23, false), Break(31, false)];
  }

  lemma PlainIndentScan12()
    ensures Scan(PlainSample, Plain, 9, 12, 16, Some(11), 8) == [Break(15, false), Break(23, false), Break(31, false)]
  {
    PlainIndentScan16();
    assert Scan(PlainSample, Plain, 9, 15, 16, Some(11), 8) == [Break(15, false), Break(23, false), Break(31, false)];
    assert Scan(PlainSample, Plain, 9, 14, 16, Some(11), 8) == [Break(15, false), Break(23, false), Break(31, false)];
    assert Scan(PlainSample, Plain, 9, 13, 16, Some(11), 8) == [Break(15, false), Break(23, false), Break(31, false)];
  }

  lemma PlainIndentScan8()
    ensures Scan(PlainSample, Plain, 9, 8, 10, Some(7), 0) == [Break(7, false), Break(15, false), Break(23, false), Break(31, false)]
  {
    PlainIndentScan12();
    assert Scan(PlainSample, Plain, 9, 11, 16, None, 8) == [Break(15, false), Break(23, false), Break(31, false)];
    assert Scan(PlainSample, Plain, 9, 10, 10, Some(7), 0) == [Break(7, false), Break(15, false), Break(23, false), Break(31, false)];
    assert Scan(PlainSample, Plain, 9, 9, 10, Some(7), 0) == [Break(7, false), Break(15, false), Break(23, false), Break(31, false)];
  }

  lemma PlainIndentScan4()
    ensures Scan(PlainSample, Plain, 9, 4, 10, Some(3), 0) == [Break(7, false), Break(15, false), Break(23, false), Break(31, false)]
  {
    PlainIndentScan8();
    assert Scan(PlainSample, Plain, 9, 7, 10, Some(3), 0) == [Break(7, false), Break(15, false), Break(23, false), Break(31, false)];
    assert Scan(PlainSample, Plain, 9, 6, 10, Some(3), 0) == [Break(7, false), Break(15, false), Break(23, false), Break(31, false)];
    assert Scan(PlainSample, Plain, 9, 5, 10, Some(3), 0) == [Break(7, false), Break(15, false), Break(23, false), Break(31, false)];
  }

  lemma PlainIndentScan()
    ensures Scan(PlainSample, Plain, 9, 0, 10, None, 0) == [Break(7, false), Break(15, false), Break(23, false), Break(31, false)]
  {
    PlainIndentScan4();
    assert Scan(PlainSample, Plain, 9, 3, 10, None, 0) == [Break(7, false), Break(15, false), Break(23, false), Break(31, false)];
    assert Scan(PlainSample, Plain, 9, 2, 10, None, 0) == [Break(7, false), Break(15, false), Break(23, false), Break(31, false)];
    assert Scan(PlainSample, Plain, 9, 1, 10, None, 0) == [Break(7, false), Break(15, false), Break(23, false), Break(31, false)];
  }

  const PlainIndentBreaks: seq<Break> := [Break(7, false), Break(15, false), Break(23, false), Break(31, false)]

  lemma PlainIndentRender4()
    ensures WellPlaced(PlainSample, PlainIndentBreaks[4..], 32)
    ensures Render(PlainSample, PlainIndentBreaks[4..], "  ", 32) == "yz\n"
  {
  }

  lemma PlainIndentRender3()
    ensures WellPlaced(PlainSample, PlainIndentBreaks[3..], 24)
    ensures Render(PlainSample, PlainIndentBreaks[3..], "  ", 24) == "stu vwx\n  " + "yz\n"
  {
    PlainIndentRender4();
    RenderStep(PlainSample, PlainIndentBreaks[3..], PlainIndentBreaks[4..], "  ", 24, "stu vwx\n  ", "yz\n");
  }

  lemma PlainIndentRender2()
    ensures WellPlaced(PlainSample, PlainIndentBreaks[2..], 16)
    ensures Render(PlainSample, PlainIndentBreaks[2..], "  ", 16) == "mno pqr\n  " + ("stu vwx\n  " + "yz\n")
  {
    PlainIndentRender3();
    RenderStep(PlainSample, PlainIndentBreaks[2..], PlainIndentBreaks[3..], "  ", 16, "mno pqr\n  ", "stu vwx\n  " + "yz\n");
  }

  lemma PlainIndentRender1()
    ensures WellPlaced(PlainSample, PlainIndentBreaks[1..], 8)
    ensures Render(PlainSample, PlainIndentBreaks[1..], "  ", 8) == "ghi jkl\n  " + ("mno pqr\n  " + ("stu vwx\n  " + "yz\n"))
  {
    PlainIndentRender2();
    RenderStep(PlainSample, PlainIndentBreaks[1..], PlainIndentBreaks[2..], "  ", 8, "ghi jkl\n  ", "mno pqr\n  " + ("stu vwx\n  " + "yz\n"));
  }

  lemma PlainIndentRender0()
    ensures WellPlaced(PlainSample, PlainIndentBreaks, 0)
    ensures Render(PlainSample, PlainIndentBreaks, "  ", 0) == "abc def\n  " + ("ghi jkl\n  " + ("mno pqr\n  " + ("stu vwx\n  " + "yz\n")))
  {
    PlainIndentRender1();
    RenderStep(PlainSample, PlainIndentBreaks, PlainIndentBreaks[1..], "  ", 0, "abc def\n  ", "ghi jkl\n  " + ("mno pqr\n  " + ("stu vwx\n  " + "yz\n")));
  }

  /** Plain, width 10, indent of two spaces: every continuation line starts with the indent. */
  lemma PlainIndent()
    ensures Fold(PlainSample, FoldOptions("  ", 0, 10, 0, Plain)) == Folded("abc def\n  " + ("ghi jkl\n  " + ("mno pqr\n  " + ("stu vwx\n  " + "yz\n"))), [Break(7, false), Break(15, false), Break(23, false), Break(31, false)])
  {
    var o := FoldOptions("  ", 0, 10, 0, Plain);
    assert EndStep(o) == 9 && FirstLimit(o) == 10;
    PlainIndentScan();
    PlainIndentRender0();
  }
  lemma PlainDeepIndentScan32()
    ensures Scan(PlainSample, Plain, 1, 32, 32, None, 32) == []
  {
    assert Scan(PlainSample, Plain, 1, 35, 35, None, 35) == [];
    assert Scan(PlainSample, Plain, 1, 34, 32, None, 32) == [];
    assert Scan(PlainSample, Plain, 1, 33, 32, None, 32) == [];
  }

  lemma PlainDeepIndentScan28()
    ensures Scan(PlainSample, Plain, 1, 28, 28, None, 28) == [Break(31, false)]
  {
    PlainDeepIndentScan32();
    assert Scan(PlainSample, Plain, 1, 31, 28, None, 28) == [Break(31, false)];
    assert Scan(PlainSample, Plain, 1, 30, 28, None, 28) == [Break(31, false)];
    assert Scan(PlainSample, Plain, 1, 29, 28, None, 28) == [Break(31, false)];
  }

  lemma PlainDeepIndentScan24()
    ensures Scan(PlainSample, Plain, 1, 24, 24, None, 24) == [Break(27, false), Break(31, false)]
  {
    PlainDeepIndentScan28();
    assert Scan(PlainSample, Plain, 1, 27, 24, None, 24) == [Break(27, false), Break(31, false)];
    assert Scan(PlainSample, Plain, 1, 26, 24, None, 24) == [Break(27, false), Break(31, false)];
    assert Scan(PlainSample, Plain, 1, 25, 24, None, 24) == [Break(27, false), Break(31, false)];
  }

  lemma PlainDeepIndentScan20()
    ensures Scan(PlainSample, Plain, 1, 20, 20, None, 20) == [Break(23, false), Break(27, false), Break(31, false)]
  {
    PlainDeepIndentScan24();
    assert Scan(PlainSample, Plain, 1, 23, 20, None, 20) == [Break(23, false), Break(27, false), Break(31, false)];
    assert Scan(PlainSample, Plain, 1, 22, 20, None, 20) == [Break(23, false), Break(27, false), Break(31, false)];
    assert Scan(PlainSample, Plain, 1, 21, 20, None, 20) == [Break(23, false), Break(27, false), Break(31, false)];
  }

  lemma PlainDeepIndentScan16()
    ensures Scan(PlainSample, Plain, 1, 16, 16, None, 16) == [Break(19, false), Break(23, false), Break(27, false), Break(31, false)]
  {
    PlainDeepIndentScan20();
    assert Scan(PlainSample, Plain, 1, 19, 16, None, 16) == [Break(19, false), Break(23, false), Break(27, false), Break(31, false)];
    assert Scan(PlainSample, Plain, 1, 18, 16, None, 16) == [Break(19, false), Break(23, false), Break(27, false), Break(31, false)];
    assert Scan(PlainSample, Plain, 1, 17, 16, None, 16) == [Break(19, false), Break(23, false), Break(27, false), Break(31, false)];
  }

  lemma PlainDeepIndentScan12()
    ensures Scan(PlainSample, Plain, 1, 12, 12, None, 12) == [Break(15, false), Break(19, false), Break(23, false), Break(27, false), Break(31, false)]
  {
    PlainDeepIndentScan16();
    assert Scan(PlainSample, Plain, 1, 15, 12, None, 12) == [Break(15, false), Break(19, false), Break(23, false), Break(27, false), Break(31, false)];
    assert Scan(PlainSample, Plain, 1, 14, 12, None, 12) == [Break(15, false), Break(19, false), Break(23, false), Break(27, false), Break(31, false)];
    assert Scan(PlainSample, Plain, 1, 13, 12, None, 12) == [Break(15, false), Break(19, false), Break(23, false), Break(27, false), Break(31, false)];
  }

  lemma PlainDeepIndentScan8()
    ensures Scan(PlainSample, Plain, 1, 8, 8, None, 8) == [Break(11, false), Break(15, false), Break(19, false), Break(23, false), Break(27, false), Break(31, false)]
  {
    PlainDeepIndentScan12();
    assert Scan(PlainSample, Plain, 1, 11, 8, None, 8) == [Break(11, false), Break(15, false), Break(19, false), Break(23, false), Break(27, false), Break(31, false)];
    assert Scan(PlainSample, Plain, 1, 10, 8, None, 8) == [Break(11, false), Break(15, false), Break(19, false), Break(23, false), Break(27, false), Break(31, false)];
    assert Scan(PlainSample, Plain, 1, 9, 8, None, 8) == [Break(11, false), Break(15, false), Break(19, false), Break(23, false), Break(27, false), Break(31, false)];
  }

  lemma PlainDeepIndentScan4()
    ensures Scan(PlainSample, Plain, 1, 4, 7, Some(3), 0) == [Break(7, false), Break(11, false), Break(15, false), Break(19, false), Break(23, false), Break(27, false), Break(31, false)]
  {
    PlainDeepIndentScan8();
    assert Scan(PlainSample, Plain, 1, 7, 7, Some(3), 0) == [Break(7, false), Break(11, false), Break(15, false), Break(19, false), Break(23, false), Break(27, false), Break(31, false)];
    assert Scan(PlainSample, Plain, 1, 6, 7, Some(3), 0) == [Break(7, false), Break(11, false), Break(15, false), Break(19, false), Break(23, false), Break(27, false), Break(31, false)];
    assert Scan(PlainSample, Plain, 1, 5, 7, Some(3), 0) == [Break(7, false), Break(11, false), Break(15, false), Break(19, false), Break(23, false), Break(27, false), Break(31, false)];
  }

  lemma PlainDeepIndentScan()
    ensures Scan(PlainSample, Plain, 1, 0, 7, None, 0) == [Break(7, false), Break(11, false), Break(15, false), Break(19, false), Break(23, false), Break(27, false), Break(31, false)]
  {
    PlainDeepIndentScan4();
    assert Scan(PlainSample, Plain, 1, 3, 7, None, 0) == [Break(7, false), Break(11, false), Break(15, false), Break(19, false), Break(23, false), Break(27, false), Break(31, false)];
    assert Scan(PlainSample, Plain, 1, 2, 7, None, 0) == [Break(7, false), Break(11, false), Break(15, false), Break(19, false), Break(23, false), Break(27, false), Break(31, false)];
    assert Scan(PlainSample, Plain, 1, 1, 7, None, 0) == [Break(7, false), Break(11, false), Break(15, false), Break(19, false), Break(23, false), Break(27, false), Break(31, false)];
  }

  const PlainDeepIndentBreaks: seq<Break> := [Break(7, false), Break(11, false), Break(15, false), Break(19, false), Break(23, false), Break(27, false), Break(31, false)]

  lemma PlainDeepIndentRender7()
    ensures WellPlaced(PlainSample, PlainDeepIndentBreaks[7..], 32)
    ensures Render(PlainSample, PlainDeepIndentBreaks[7..], "        ", 32) == "yz\n"
  {
  }

  lemma PlainDeepIndentRender6()
    ensures WellPlaced(PlainSample, PlainDeepIndentBreaks[6..], 28)
    ensures Render(PlainSample, PlainDeepIndentBreaks[6..], "        ", 28) == "vwx\n        " + "yz\n"
  {
    PlainDeepIndentRender7();
    RenderStep(PlainSample, PlainDeepIndentBreaks[6..], PlainDeepIndentBreaks[7..], "        ", 28, "vwx\n        ", "yz\n");
  }

  lemma PlainDeepIndentRender5()
    ensures WellPlaced(PlainSample, PlainDeepIndentBreaks[5..], 24)
    ensures Render(PlainSample, PlainDeepIndentBreaks[5..], "        ", 24) == "stu\n        " + ("vwx\n        " + "yz\n")
  {
    PlainDeepIndentRender6();
    RenderStep(PlainSample, PlainDeepIndentBreaks[5..], PlainDeepIndentBreaks[6..], "        ", 24, "stu\n        ", "vwx\n        " + "yz\n");
  }

  lemma PlainDeepIndentRender4()
    ensures WellPlaced(PlainSample, PlainDeepIndentBreaks[4..], 20)
    ensures Render(PlainSample, PlainDeepIndentBreaks[4..], "        ", 20) == "pqr\n        " + ("stu\n        " + ("vwx\n        " + "yz\n"))
  {
    PlainDeepIndentRender5();
    RenderStep(PlainSample, PlainDeepIndentBreaks[4..], PlainDeepIndentBreaks[5..], "        ", 20, "pqr\n        ", "stu\n        " + ("vwx\n        " + "yz\n"));
  }

  lemma PlainDeepIndentRender3()
    ensures WellPlaced(PlainSample, PlainDeepIndentBreaks[3..], 16)
    ensures Render(PlainSample, PlainDeepIndentBreaks[3..], "        ", 16) == "mno\n        " + ("pqr\n        " + ("stu\n        " + ("vwx\n        " + "yz\n")))
  {
    PlainDeepIndentRender4();
    RenderStep(PlainSample, PlainDeepIndentBreaks[3..], PlainDeepIndentBreaks[4..], "        ", 16, "mno\n        ", "pqr\n        " + ("stu\n        " + ("vwx\n        " + "yz\n")));
  }

  lemma PlainDeepIndentRender2()
    ensures WellPlaced(PlainSample, PlainDeepIndentBreaks[2..], 12)
    ensures Render(PlainSample, PlainDeepIndentBreaks[2..], "        ", 12) == "jkl\n        " + ("mno\n        " + ("pqr\n        " + ("stu\n        " + ("vwx\n        " + "yz\n"))))
  {
    PlainDeepIndentRender3();
    RenderStep(PlainSample, PlainDeepIndentBreaks[2..], PlainDeepIndentBreaks[3..], "        ", 12, "jkl\n        ", "mno\n        " + ("pqr\n        " + ("stu\n        " + ("vwx\n        " + "yz\n"))));
  }

  lemma PlainDeepIndentRender1()
    ensures WellPlaced(PlainSample, PlainDeepIndentBreaks[1..], 8)
    ensures Render(PlainSample, PlainDeepIndentBreaks[1..], "        ", 8) == "ghi\n        " + ("jkl\n        " + ("mno\n        " + ("pqr\n        " + ("stu\n        " + ("vwx\n        " + "yz\n")))))
  {
    PlainDeepIndentRender2();
    RenderStep(PlainSample, PlainDeepIndentBreaks[1..], PlainDeepIndentBreaks[2..], "        ", 8, "ghi\n        ", "jkl\n        " + ("mno\n        " + ("pqr\n        " + ("stu\n        " + ("vwx\n        " + "yz\n")))));
  }

  lemma PlainDeepIndentRender0()
    ensures WellPlaced(PlainSample, PlainDeepIndentBreaks, 0)
    ensures Render(PlainSample, PlainDeepIndentBreaks, "        ", 0) == "abc def\n        " + ("ghi\n        " + ("jkl\n        " + ("mno\n        " + ("pqr\n        " + ("stu\n        " + ("vwx\n        " + "yz\n"))))))
  {
    PlainDeepIndentRender1();
    RenderStep(PlainSample, PlainDeepIndentBreaks, PlainDeepIndentBreaks[1..], "        ", 0, "abc def\n        ", "ghi\n        " + ("jkl\n        " + ("mno\n        " + ("pqr\n        " + ("stu\n        " + ("vwx\n        " + "yz\n"))))));
  }

  /** Plain, width 7, indent of eight spaces: each continuation line holds one word. */
  lemma PlainDeepIndent()
    ensures Fold(PlainSample, FoldOptions("        ", 0, 7, 0, Plain)) == Folded("abc def\n        " + ("ghi\n        " + ("jkl\n        " + ("mno\n        " + ("pqr\n        " + ("stu\n        " + ("vwx\n        " + "yz\n")))))), [Break(7, false), Break(11, false), Break(15, false), Break(19, false), Break(23, false), Break(27, false), Break(31, false)])
  {
    var o := FoldOptions("        ", 0, 7, 0, Plain);
    assert EndStep(o) == 1 && FirstLimit(o) == 7;
    PlainDeepIndentScan();
    PlainDeepIndentRender0();
  }
  lemma PlainDeepIndentMinContentScan32()
    ensures Scan(PlainSample, Plain, 8, 32, 39, None, 32) == []
  {
    assert Scan(PlainSample, Plain, 8, 35, 42, None, 35) == [];
    assert Scan(PlainSample, Plain, 8, 34, 39, None, 32) == [];
    assert Scan(PlainSample, Plain, 8, 33, 39, None, 32) == [];
  }

  lemma PlainDeepIndentMinContentScan28()
    ensures Scan(PlainSample, Plain, 8, 28, 31, Some(27), 24) == [Break(31, false)]
  {
    PlainDeepIndentMinContentScan32();
    assert Scan(PlainSample, Plain, 8, 31, 31, Some(27), 24) == [Break(31, false)];
    assert Scan(PlainSample, Plain, 8, 30, 31, Some(27), 24) == [Break(31, false)];
    assert Scan(PlainSample, Plain, 8, 29, 31, Some(27), 24) == [Break(31, false)];
  }

  lemma PlainDeepIndentMinContentScan24()
    ensures Scan(PlainSample, Plain, 8, 24, 31, None, 24) == [Break(31, false)]
  {
    PlainDeepIndentMinContentScan28();
    assert Scan(PlainSample, Plain, 8, 27, 31, None, 24) == [Break(31, false)];
    assert Scan(PlainSample, Plain, 8, 26, 31, None, 24) == [Break(31, false)];
    assert Scan(PlainSample, Plain, 8, 25, 31, None, 24) == [Break(31, false)];
  }

  lemma PlainDeepIndentMinContentScan20()
    ensures Scan(PlainSample, Plain, 8, 20, 23, Some(19), 16) == [Break(23, false), Break(31, false)]
  {
    PlainDeepIndentMinContentScan24();
    assert Scan(PlainSample, Plain, 8, 23, 23, Some(19), 16) == [Break(23, false), Break(31, false)];
    assert Scan(PlainSample, Plain, 8, 22, 23, Some(19), 16) == [Break(23, false), Break(31, false)];
    assert Scan(PlainSample, Plain, 8, 21, 23, Some(19), 16) == [Break(23, false), Break(31, false)];
  }

  lemma PlainDeepIndentMinContentScan16()
    ensures Scan(PlainSample, Plain, 8, 16, 23, None, 16) == [Break(23, false), Break(31, false)]
  {
    PlainDeepIndentMinContentScan20();
    assert Scan(PlainSample, Plain, 8, 19, 23, None, 16) == [Break(23, false), Break(31, false)];
    assert Scan(PlainSample, Plain, 8, 18, 23, None, 16) == [Break(23, false), Break(31, false)];
    assert Scan(PlainSample, Plain, 8, 17, 23, None, 16) == [Break(23, false), Break(31, false)];
  }

  lemma PlainDeepIndentMinContentScan12()
    ensures Scan(PlainSample, Plain, 8, 12, 15, Some(11), 8) == [Break(15, false), Break(23, false), Break(31, false)]
  {
    PlainDeepIndentMinContentScan16();
    assert Scan(PlainSample, Plain, 8, 15, 15, Some(11), 8) == [Break(15, false), Break(23, false), Break(31, false)];
    assert Scan(PlainSample, Plain, 8, 14, 15, Some(11), 8) == [Break(15, false), Break(23, false), Break(31, false)];
    assert Scan(PlainSample, Plain, 8, 13, 15, Some(11), 8) == [Break(15, false), Break(23, false), Break(31, false)];
  }

  lemma PlainDeepIndentMinContentScan8()
    ensures Scan(PlainSample, Plain, 8, 8, 15, None, 8) == [Break(15, false), Break(23, false), Break(31, false)]
  {
    PlainDeepIndentMinContentScan12();
    assert Scan(PlainSample, Plain, 8, 11, 15, None, 8) == [Break(15, false), Break(23, false), Break(31, false)];
    assert Scan(PlainSample, Plain, 8, 10, 15, None, 8) == [Break(15, false), Break(23, false), Break(31, false)];
    assert Scan(PlainSample, Plain, 8, 9, 15, None, 8) == [Break(15, false), Break(23, false), Break(31, false)];
  }

  lemma PlainDeepIndentMinContentScan4()
    ensures Scan(PlainSample, Plain, 8, 4, 7, Some(3), 0) == [Break(7, false), Break(15, false), Break(23, false), Break(31, false)]
  {
    PlainDeepIndentMinContentScan8();
    assert Scan(PlainSample, Plain, 8, 7, 7, Some(3), 0) == [Break(7, false), Break(15, false), Break(23, false), Break(31, false)];
    assert Scan(PlainSample, Plain, 8, 6, 7, Some(3), 0) == [Break(7, false), Break(15, false), Break(23, false), Break(31, false)];
    assert Scan(PlainSample, Plain, 8, 5, 7, Some(3), 0) == [Break(7, false), Break(15, false), Break(23, false), Break(31, false)];
  }

  lemma PlainDeepIndentMinContentScan()
    ensures Scan(PlainSample, Plain, 8, 0, 7, None, 0) == [Break(7, false), Break(15, false), Break(23, false), Break(31, false)]
  {
    PlainDeepIndentMinContentScan4();
    assert Scan(PlainSample, Plain, 8, 3, 7, None, 0) == [Break(7, false), Break(15, false), Break(23, false), Break(31, false)];
    assert Scan(PlainSample, Plain, 8, 2, 7, None, 0) == [Break(7, false), Break(15, false), Break(23, false), Break(31, false)];
    assert Scan(PlainSample, Plain, 8, 1, 7, None, 0) == [Break(7, false), Break(15, false), Break(23, false), Break(31, false)];
  }

  const PlainDeepIndentMinContentBreaks: seq<Break> := [Break(7, false), Break(15, false), Break(23, false), Break(31, false)]

  lemma PlainDeepIndentMinContentRender4()
    ensures WellPlaced(PlainSample, PlainDeepIndentMinContentBreaks[4..], 32)
    ensures Render(PlainSample, PlainDeepIndentMinContentBreaks[4..], "        ", 32) == "yz\n"
  {
  }

  lemma PlainDeepIndentMinContentRender3()
    ensures WellPlaced(PlainSample, PlainDeepIndentMinContentBreaks[3..], 24)
    ensures Render(PlainSample, PlainDeepIndentMinContentBreaks[3..], "        ", 24) == "stu vwx\n        " + "yz\n"
  {
    PlainDeepIndentMinContentRender4();
    RenderStep(PlainSample, PlainDeepIndentMinContentBreaks[3..], PlainDeepIndentMinContentBreaks[4..], "        ", 24, "stu vwx\n        ", "yz\n");
  }

  lemma PlainDeepIndentMinContentRender2()
    ensures WellPlaced(PlainSample, PlainDeepIndentMinContentBreaks[2..], 16)
    ensures Render(PlainSample, PlainDeepIndentMinContentBreaks[2..], "        ", 16) == "mno pqr\n        " + ("stu vwx\n        " + "yz\n")
  {
    PlainDeepIndentMinContentRender3();
    RenderStep(PlainSample, PlainDeepIndentMinContentBreaks[2..], PlainDeepIndentMinContentBreaks[3..], "        ", 16, "mno pqr\n        ", "stu vwx\n        " + "yz\n");
  }

  lemma PlainDeepIndentMinContentRender1()
    ensures WellPlaced(PlainSample, PlainDeepIndentMinContentBreaks[1..], 8)
    ensures Render(PlainSample, PlainDeepIndentMinContentBreaks[1..], "        ", 8) == "ghi jkl\n        " + ("mno pqr\n        " + ("stu vwx\n        " + "yz\n"))
  {
    PlainDeepIndentMinContentRender2();
    RenderStep(PlainSample, PlainDeepIndentMinContentBreaks[1..], PlainDeepIndentMinContentBreaks[2..], "        ", 8, "ghi jkl\n        ", "mno pqr\n        " + ("stu vwx\n        " + "yz\n"));
  }

  lemma PlainDeepIndentMinContentRender0()
    ensures WellPlaced(PlainSample, PlainDeepIndentMinContentBreaks, 0)
    ensures Render(PlainSample, PlainDeepIndentMinContentBreaks, "        ", 0) == "abc def\n        " + ("ghi jkl\n        " + ("mno pqr\n        " + ("stu vwx\n        " + "yz\n")))
  {
    PlainDeepIndentMinContentRender1();
    RenderStep(PlainSample, PlainDeepIndentMinContentBreaks, PlainDeepIndentMinContentBreaks[1..], "        ", 0, "abc def\n        ", "ghi jkl\n        " + ("mno pqr\n        " + ("stu vwx\n        " + "yz\n")));
  }

  /** Plain, width 7, indent of eight spaces, minimum content width 7: continuation lines hold seven characters. */
  lemma PlainDeepIndentMinContent()
    ensures Fold(PlainSample, FoldOptions("        ", 0, 7, 7, Plain)) == Folded("abc def\n        " + ("ghi jkl\n        " + ("mno pqr\n        " + ("stu vwx\n        " + "yz\n"))), [Break(7, false), Break(15, false), Break(23, false), Break(31, false)])
  {
    var o := FoldOptions("        ", 0, 7, 7, Plain);
    assert EndStep(o) == 8 && FirstLimit(o) == 7;
    PlainDeepIndentMinContentScan();
    PlainDeepIndentMinContentRender0();
  }
  lemma PlainPositiveIndentAtStartScan32()
    ensures Scan(PlainSample, Plain, 11, 32, 38, Some(31), 28) == []
  {
    assert Scan(PlainSample, Plain, 11, 35, 45, None, 35) == [];
    assert Scan(PlainSample, Plain, 11, 34, 38, Some(31), 28) == [];
    assert Scan(PlainSample, Plain, 11, 33, 38, Some(31), 28) == [];
  }

  lemma PlainPositiveIndentAtStartScan28()
    ensures Scan(PlainSample, Plain, 11, 28, 30, Some(27), 20) == [Break(27, false)]
  {
    PlainPositiveIndentAtStartScan32();
    assert Scan(PlainSample, Plain, 11, 31, 38, None, 28) == [];
    assert Scan(PlainSample, Plain, 11, 30, 30, Some(27), 20) == [Break(27, false)];
    assert Scan(PlainSample, Plain, 11, 29, 30, Some(27), 20) == [Break(27, false)];
  }

  lemma PlainPositiveIndentAtStartScan24()
    ensures Scan(PlainSample, Plain, 11, 24, 30, Some(23), 20) == [Break(27, false)]
  {
    PlainPositiveIndentAtStartScan28();
    assert Scan(PlainSample, Plain, 11, 27, 30, Some(23), 20) == [Break(27, false)];
    assert Scan(PlainSample, Plain, 11, 26, 30, Some(23), 20) == [Break(27, false)];
    assert Scan(PlainSample, Plain, 11, 25, 30, Some(23), 20) == [Break(27, false)];
  }

  lemma PlainPositiveIndentAtStartScan20()
    ensures Scan(PlainSample, Plain, 11, 20, 22, Some(19), 12) == [Break(19, false), Break(27, false)]
  {
    PlainPositiveIndentAtStartScan24();
    assert Scan(PlainSample, Plain, 11, 23, 30, None, 20) == [Break(27, false)];
    assert Scan(PlainSample, Plain, 11, 22, 22, Some(19), 12) == [Break(19, false), Break(27, false)];
    assert Scan(PlainSample, Plain, 11, 21, 22, Some(19), 12) == [Break(19, false), Break(27, false)];
  }

  lemma PlainPositiveIndentAtStartScan16()
    ensures Scan(PlainSample, Plain, 11, 16, 22, Some(15), 12) == [Break(19, false), Break(27, false)]
  {
    PlainPositiveIndentAtStartScan20();
    assert Scan(PlainSample, Plain, 11, 19, 22, Some(15), 12) == [Break(19, false), Break(27, false)];
    assert Scan(PlainSample, Plain, 11, 18, 22, Some(15), 12) == [Break(19, false), Break(27, false)];
    assert Scan(PlainSample, Plain, 11, 17, 22, Some(15), 12) == [Break(19, false), Break(27, false)];
  }

  lemma PlainPositiveIndentAtStartScan12()
    ensures Scan(PlainSample, Plain, 11, 12, 14, Some(11), 4) == [Break(11, false), Break(19, false), Break(27, false)]
  {
    PlainPositiveIndentAtStartScan16();
    assert Scan(PlainSample, Plain, 11, 15, 22, None, 12) == [Break(19, false), Break(27, false)];
    assert Scan(PlainSample, Plain, 11, 14, 14, Some(11), 4) == [Break(11, false), Break(19, false), Break(27, false)];
    assert Scan(PlainSample, Plain, 11, 13, 14, Some(11), 4) == [Break(11, false), Break(19, false), Break(27, false)];
  }

  lemma PlainPositiveIndentAtStartScan8()
    ensures Scan(PlainSample, Plain, 11, 8, 14, Some(7), 4) == [Break(11, false), Break(19, false), Break(27, false)]
  {
    PlainPositiveIndentAtStartScan12();
    assert Scan(PlainSample, Plain, 11, 11, 14, Some(7), 4) == [Break(11, false), Break(19, false), Break(27, false)];
    assert Scan(PlainSample, Plain, 11, 10, 14, Some(7), 4) == [Break(11, false), Break(19, false), Break(27, false)];
    assert Scan(PlainSample, Plain, 11, 9, 14, Some(7), 4) == [Break(11, false), Break(19, false), Break(27, false)];
  }

  lemma PlainPositiveIndentAtStartScan4()
    ensures Scan(PlainSample, Plain, 11, 4, 14, None, 4) == [Break(11, false), Break(19, false), Break(27, false)]
  {
    PlainPositiveIndentAtStartScan8();
    assert Scan(PlainSample, Plain, 11, 7, 14, None, 4) == [Break(11, false), Break(19, false), Break(27, false)];
    assert Scan(PlainSample, Plain, 11, 6, 14, None, 4) == [Break(11, false), Break(19, false), Break(27, false)];
    assert Scan(PlainSample, Plain, 11, 5, 14, None, 4) == [Break(11, false), Break(19, false), Break(27, false)];
  }

  lemma PlainPositiveIndentAtStartScan()
    ensures Scan(PlainSample, Plain, 11, 0, 2, None, 0) == [Break(3, false), Break(11, false), Break(19, false), Break(27, false)]
  {
    PlainPositiveIndentAtStartScan4();
    assert Scan(PlainSample, Plain, 11, 3, 2, None, 0) == [Break(3, false), Break(11, false), Break(19, false), Break(27, false)];
    assert Scan(PlainSample, Plain, 11, 2, 2, None, 0) == [Break(3, false), Break(11, false), Break(19, false), Break(27, false)];
    assert Scan(PlainSample, Plain, 11, 1, 2, None, 0) == [Break(3, false), Break(11, false), Break(19, false), Break(27, false)];
  }

  const PlainPositiveIndentAtStartBreaks: seq<Break> := [Break(3, false), Break(11, false), Break(19, false), Break(27, false)]

  lemma PlainPositiveIndentAtStartRender4()
    ensures WellPlaced(PlainSample, PlainPositiveIndentAtStartBreaks[4..], 28)
    ensures Render(PlainSample, PlainPositiveIndentAtStartBreaks[4..], "", 28) == "vwx " + "yz\n"
  {
  }

  lemma PlainPositiveIndentAtStartRender3()
    ensures WellPlaced(PlainSample, PlainPositiveIndentAtStartBreaks[3..], 20)
    ensures Render(PlainSample, PlainPositiveIndentAtStartBreaks[3..], "", 20) == "pqr stu\n" + "vwx " + "yz\n"
  {
    PlainPositiveIndentAtStartRender4();
    RenderStep(PlainSample, PlainPositiveIndentAtStartBreaks[3..], PlainPositiveIndentAtStartBreaks[4..], "", 20, "pqr stu\n", "vwx " + "yz\n");
  }

  lemma PlainPositiveIndentAtStartRender2()
    ensures WellPlaced(PlainSample, PlainPositiveIndentAtStartBreaks[2..], 12)
    ensures Render(PlainSample, PlainPositiveIndentAtStartBreaks[2..], "", 12) == "jkl mno\n" + ("pqr stu\n" + "vwx " + "yz\n")
  {
    PlainPositiveIndentAtStartRender3();
    RenderStep(PlainSample, PlainPositiveIndentAtStartBreaks[2..], PlainPositiveIndentAtStartBreaks[3..], "", 12, "jkl mno\n", "pqr stu\n" + "vwx " + "yz\n");
  }

  lemma PlainPositiveIndentAtStartRender1()
    ensures WellPlaced(PlainSample, PlainPositiveIndentAtStartBreaks[1..], 4)
    ensures Render(PlainSample, PlainPositiveIndentAtStartBreaks[1..], "", 4) == "def ghi\n" + ("jkl mno\n" + ("pqr stu\n" + "vwx " + "yz\n"))
  {
    PlainPositiveIndentAtStartRender2();
    RenderStep(PlainSample, PlainPositiveIndentAtStartBreaks[1..], PlainPositiveIndentAtStartBreaks[2..], "", 4, "def ghi\n", "jkl mno\n" + ("pqr stu\n" + "vwx " + "yz\n"));
  }

  lemma PlainPositiveIndentAtStartRender0()
    ensures WellPlaced(PlainSample, PlainPositiveIndentAtStartBreaks, 0)
    ensures Render(PlainSample, PlainPositiveIndentAtStartBreaks, "", 0) == "abc\n" + ("def ghi\n" + ("jkl mno\n" + ("pqr stu\n" + "vwx " + "yz\n")))
  {
    PlainPositiveIndentAtStartRender1();
    RenderStep(PlainSample, PlainPositiveIndentAtStartBreaks, PlainPositiveIndentAtStartBreaks[1..], "", 0, "abc\n", "def ghi\n" + ("jkl mno\n" + ("pqr stu\n" + "vwx " + "yz\n")));
  }

  /** Plain, width 10, 8 columns already used on the first line: the first line holds only "abc", which still overflows. */
  lemma PlainPositiveIndentAtStart()
    ensures Fold(PlainSample, FoldOptions("", 8, 10, 0, Plain)) == Folded("abc\n" + ("def ghi\n" + ("jkl mno\n" + ("pqr stu\n" + "vwx " + "yz\n"))), [Break(3, false), Break(11, false), Break(19, false), Break(27, false)])
  {
    var o := FoldOptions("", 8, 10, 0, Plain);
    assert EndStep(o) == 11 && FirstLimit(o) == 2;
    PlainPositiveIndentAtStartScan();
    PlainPositiveIndentAtStartRender0();
  }
  lemma PlainNegativeIndentAtStartScan16()
    ensures Scan(PlainSample, Plain, 11, 16, 18, Some(15), 0) == [Break(15, false), Break(23, false)]
  {
    PlainMultipleFoldsScan20();
    assert Scan(PlainSample, Plain, 11, 19, 26, None, 16) == [Break(23, false)];
    assert Scan(PlainSample, Plain, 11, 18, 18, Some(15), 0) == [Break(15, false), Break(23, false)];
    assert Scan(PlainSample, Plain, 11, 17, 18, Some(15), 0) == [Break(15, false), Break(23, false)];
  }

  lemma PlainNegativeIndentAtStartScan12()
    ensures Scan(PlainSample, Plain, 11, 12, 18, Some(11), 0) == [Break(15, false), Break(23, false)]
  {
    PlainNegativeIndentAtStartScan16();
    assert Scan(PlainSample, Plain, 11, 15, 18, Some(11), 0) == [Break(15, false), Break(23, false)];
    assert Scan(PlainSample, Plain, 11, 14, 18, Some(11), 0) == [Break(15, false), Break(23, false)];
    assert Scan(PlainSample, Plain, 11, 13, 18, Some(11), 0) == [Break(15, false), Break(23, false)];
  }

  lemma PlainNegativeIndentAtStartScan8()
    ensures Scan(PlainSample, Plain, 11, 8, 18, Some(7), 0) == [Break(15, false), Break(23, false)]
  {
    PlainNegativeIndentAtStartScan12();
    assert Scan(PlainSample, Plain, 11, 11, 18, Some(7), 0) == [Break(15, false), Break(23, false)];
    assert Scan(PlainSample, Plain, 11, 10, 18, Some(7), 0) == [Break(15, false), Break(23, false)];
    assert Scan(PlainSample, Plain, 11, 9, 18, Some(7), 0) == [Break(15, false), Break(23, false)];
  }

  lemma PlainNegativeIndentAtStartScan4()
    ensures Scan(PlainSample, Plain, 11, 4, 18, Some(3), 0) == [Break(15, false), Break(23, false)]
  {
    PlainNegativeIndentAtStartScan8();
    assert Scan(PlainSample, Plain, 11, 7, 18, Some(3), 0) == [Break(15, false), Break(23, false)];
    assert Scan(PlainSample, Plain, 11, 6, 18, Some(3), 0) == [Break(15, false), Break(23, false)];
    assert Scan(PlainSample, Plain, 11, 5, 18, Some(3), 0) == [Break(15, false), Break(23, false)];
  }

  lemma PlainNegativeIndentAtStartScan()
    ensures Scan(PlainSample, Plain, 11, 0, 18, None, 0) == [Break(15, false), Break(23, false)]
  {
    PlainNegativeIndentAtStartScan4();
    assert Scan(PlainSample, Plain, 11, 3, 18, None, 0) == [Break(15, false), Break(23, false)];
    assert Scan(PlainSample, Plain, 11, 2, 18, None, 0) == [Break(15, false), Break(23, false)];
    assert Scan(PlainSample, Plain, 11, 1, 18, None, 0) == [Break(15, false), Break(23, false)];
  }

  const PlainNegativeIndentAtStartBreaks: seq<Break> := [Break(15, false), Break(23, false)]

  lemma PlainNegativeIndentAtStartRender2()
    ensures WellPlaced(PlainSample, PlainNegativeIndentAtStartBreaks[2..], 24)
    ensures Render(PlainSample, PlainNegativeIndentAtStartBreaks[2..], "", 24) == "stu " + "vwx " + "yz\n"
  {
  }

  lemma PlainNegativeIndentAtStartRender1()
    ensures WellPlaced(PlainSample, PlainNegativeIndentAtStartBreaks[1..], 16)
    ensures Render(PlainSample, PlainNegativeIndentAtStartBreaks[1..], "", 16) == "mno pqr\n" + "stu " + "vwx " + "yz\n"
  {
    PlainNegativeIndentAtStartRender2();
    RenderStep(PlainSample, PlainNegativeIndentAtStartBreaks[1..], PlainNegativeIndentAtStartBreaks[2..], "", 16, "mno pqr\n", "stu " + "vwx " + "yz\n");
  }

  lemma PlainNegativeIndentAtStartRender0()
    ensures WellPlaced(PlainSample, PlainNegativeIndentAtStartBreaks, 0)
    ensures Render(PlainSample, PlainNegativeIndentAtStartBreaks, "", 0) == "abc def ghi jkl\n" + ("mno pqr\n" + "stu " + "vwx " + "yz\n")
  {
    PlainNegativeIndentAtStartRender1();
    RenderStep(PlainSample, PlainNegativeIndentAtStartBreaks, PlainNegativeIndentAtStartBreaks[1..], "", 0, "abc def ghi jkl\n", "mno pqr\n" + "stu " + "vwx " + "yz\n");
  }

  /** Plain, width 10, first line 8 columns longer: the first line holds "abc def ghi jkl". */
  lemma PlainNegativeIndentAtStart()
    ensures Fold(PlainSample, FoldOptions("", -8, 10, 0, Plain)) == Folded("abc def ghi jkl\n" + ("mno pqr\n" + "stu " + "vwx " + "yz\n"), [Break(15, false), Break(23, false)])
  {
    var o := FoldOptions("", -8, 10, 0, Plain);
    assert EndStep(o) == 11 && FirstLimit(o) == 18;
    PlainNegativeIndentAtStartScan();
    PlainNegativeIndentAtStartRender0();
  }
  lemma PlainDoubledSpacesScan40()
    ensures Scan(DoubledSample, Plain, 11, 40, 10, None, 0) == []
  {
    assert Scan(DoubledSample, Plain, 11, 43, 53, None, 43) == [];
    assert Scan(DoubledSample, Plain, 11, 42, 10, None, 0) == [];
    assert Scan(DoubledSample, Plain, 11, 41, 10, None, 0) == [];
  }

  lemma PlainDoubledSpacesScan36()
    ensures Scan(DoubledSample, Plain, 11, 36, 10, None, 0) == []
  {
    PlainDoubledSpacesScan40();
    assert Scan(DoubledSample, Plain, 11, 39, 10, None, 0) == [];
    assert Scan(DoubledSample, Plain, 11, 38, 10, None, 0) == [];
    assert Scan(DoubledSample, Plain, 11, 37, 10, None, 0) == [];
  }

  lemma PlainDoubledSpacesScan32()
    ensures Scan(DoubledSample, Plain, 11, 32, 10, None, 0) == []
  {
    PlainDoubledSpacesScan36();
    assert Scan(DoubledSample, Plain, 11, 35, 10, None, 0) == [];
    assert Scan(DoubledSample, Plain, 11, 34, 10, None, 0) == [];
    assert Scan(DoubledSample, Plain, 11, 33, 10, None, 0) == [];
  }

  lemma PlainDoubledSpacesScan28()
    ensures Scan(DoubledSample, Plain, 11, 28, 10, None, 0) == []
  {
    PlainDoubledSpacesScan32();
    assert Scan(DoubledSample, Plain, 11, 31, 10, None, 0) == [];
    assert Scan(DoubledSample, Plain, 11, 30, 10, None, 0) == [];
    assert Scan(DoubledSample, Plain, 11, 29, 10, None, 0) == [];
  }

  lemma PlainDoubledSpacesScan24()
    ensures Scan(DoubledSample, Plain, 11, 24, 10, None, 0) == []
  {
    PlainDoubledSpacesScan28();
    assert Scan(DoubledSample, Plain, 11, 27, 10, None, 0) == [];
    assert Scan(DoubledSample, Plain, 11, 26, 10, None, 0) == [];
    assert Scan(DoubledSample, Plain, 11, 25, 10, None, 0) == [];
  }

  lemma PlainDoubledSpacesScan20()
    ensures Scan(DoubledSample, Plain, 11, 20, 10, None, 0) == []
  {
    PlainDoubledSpacesScan24();
    assert Scan(DoubledSample, Plain, 11, 23, 10, None, 0) == [];
    assert Scan(DoubledSample, Plain, 11, 22, 10, None, 0) == [];
    assert Scan(DoubledSample, Plain, 11, 21, 10, None, 0) == [];
  }

  lemma PlainDoubledSpacesScan16()
    ensures Scan(DoubledSample, Plain, 11, 16, 10, None, 0) == []
  {
    PlainDoubledSpacesScan20();
    assert Scan(DoubledSample, Plain, 11, 19, 10, None, 0) == [];
    assert Scan(DoubledSample, Plain, 11, 18, 10, None, 0) == [];
    assert Scan(DoubledSample, Plain, 11, 17, 10, None, 0) == [];
  }

  lemma PlainDoubledSpacesScan12()
    ensures Scan(DoubledSample, Plain, 11, 12, 10, None, 0) == []
  {
    PlainDoubledSpacesScan16();
    assert Scan(DoubledSample, Plain, 11, 15, 10, None, 0) == [];
    assert Scan(DoubledSample, Plain, 11, 14, 10, None, 0) == [];
    assert Scan(DoubledSample, Plain, 11, 13, 10, None, 0) == [];
  }

  lemma PlainDoubledSpacesScan8()
    ensures Scan(DoubledSample, Plain, 11, 8, 10, None, 0) == []
  {
    PlainDoubledSpacesScan12();
    assert Scan(DoubledSample, Plain, 11, 11, 10, None, 0) == [];
    assert Scan(DoubledSample, Plain, 11, 10, 10, None, 0) == [];
    assert Scan(DoubledSample, Plain, 11, 9, 10, None, 0) == [];
  }

  lemma PlainDoubledSpacesScan4()
    ensures Scan(DoubledSample, Plain, 11, 4, 10, None, 0) == []
  {
    PlainDoubledSpacesScan8();
    assert Scan(DoubledSample, Plain, 11, 7, 10, None, 0) == [];
    assert Scan(DoubledSample, Plain, 11, 6, 10, None, 0) == [];
    assert Scan(DoubledSample, Plain, 11, 5, 10, None, 0) == [];
  }

  lemma PlainDoubledSpacesScan()
    ensures Scan(DoubledSample, Plain, 11, 0, 10, None, 0) == []
  {
    PlainDoubledSpacesScan4();
    assert Scan(DoubledSample, Plain, 11, 3, 10, None, 0) == [];
    assert Scan(DoubledSample, Plain, 11, 2, 10, None, 0) == [];
    assert Scan(DoubledSample, Plain, 11, 1, 10, None, 0) == [];
  }

  /** Plain, width 10, only doubled spaces: nothing is broken and the observer does not fire. */
  lemma PlainDoubledSpaces()
    ensures Fold(DoubledSample, FoldOptions("", 0, 10, 0, Plain)) == Folded(DoubledSample, [])
  {
    var o := FoldOptions("", 0, 10, 0, Plain);
    assert EndStep(o) == 11 && FirstLimit(o) == 10;
    PlainDoubledSpacesScan();
  }
  lemma QuotedPassThroughScan30()
    ensures Scan(QuotedSample, Quoted, 41, 30, 40, Some(16), 0) == []
  {
    assert Scan(QuotedSample, Quoted, 41, 33, 72, None, 32) == [];
    assert Scan(QuotedSample, Quoted, 41, 32, 72, None, 32) == [];
    assert Scan(QuotedSample, Quoted, 41, 31, 40, Some(16), 0) == [];
  }

  lemma QuotedPassThroughScan26()
    ensures Scan(QuotedSample, Quoted, 41, 26, 40, Some(16), 0) == []
  {
    QuotedPassThroughScan30();
    assert Scan(QuotedSample, Quoted, 41, 29, 40, Some(16), 0) == [];
    assert Scan(QuotedSample, Quoted, 41, 28, 40, Some(16), 0) == [];
    assert Scan(QuotedSample, Quoted, 41, 27, 40, Some(16), 0) == [];
  }

  lemma QuotedPassThroughScan22()
    ensures Scan(QuotedSample, Quoted, 41, 22, 40, Some(16), 0) == []
  {
    QuotedPassThroughScan26();
    assert Scan(QuotedSample, Quoted, 41, 25, 40, Some(16), 0) == [];
    assert Scan(QuotedSample, Quoted, 41, 24, 40, Some(16), 0) == [];
    assert Scan(QuotedSample, Quoted, 41, 23, 40, Some(16), 0) == [];
  }

  lemma QuotedPassThroughScan18()
    ensures Scan(QuotedSample, Quoted, 41, 18, 40, Some(16), 0) == []
  {
    QuotedPassThroughScan22();
    assert Scan(QuotedSample, Quoted, 41, 21, 40, Some(16), 0) == [];
    assert Scan(QuotedSample, Quoted, 41, 20, 40, Some(16), 0) == [];
    assert Scan(QuotedSample, Quoted, 41, 19, 40, Some(16), 0) == [];
  }

  lemma QuotedPassThroughScan14()
    ensures Scan(QuotedSample, Quoted, 41, 14, 40, Some(12), 0) == []
  {
    QuotedPassThroughScan18();
    assert Scan(QuotedSample, Quoted, 41, 17, 40, Some(16), 0) == [];
    assert Scan(QuotedSample, Quoted, 41, 16, 40, Some(12), 0) == [];
    assert Scan(QuotedSample, Quoted, 41, 15, 40, Some(12), 0) == [];
  }

  lemma QuotedPassThroughScan10()
    ensures Scan(QuotedSample, Quoted, 41, 10, 40, Some(8), 0) == []
  {
    QuotedPassThroughScan14();
    assert Scan(QuotedSample, Quoted, 41, 13, 40, Some(12), 0) == [];
    assert Scan(QuotedSample, Quoted, 41, 12, 40, Some(8), 0) == [];
    assert Scan(QuotedSample, Quoted, 41, 11, 40, Some(8), 0) == [];
  }

  lemma QuotedPassThroughScan6()
    ensures Scan(QuotedSample, Quoted, 41, 6, 40, Some(4), 0) == []
  {
    QuotedPassThroughScan10();
    assert Scan(QuotedSample, Quoted, 41, 9, 40, Some(8), 0) == [];
    assert Scan(QuotedSample, Quoted, 41, 8, 40, Some(4), 0) == [];
    assert Scan(QuotedSample, Quoted, 41, 7, 40, Some(4), 0) == [];
  }

  lemma QuotedPassThroughScan2()
    ensures Scan(QuotedSample, Quoted, 41, 2, 40, None, 0) == []
  {
    QuotedPassThroughScan6();
    assert Scan(QuotedSample, Quoted, 41, 5, 40, Some(4), 0) == [];
    assert Scan(QuotedSample, Quoted, 41, 4, 40, None, 0) == [];
    assert Scan(QuotedSample, Quoted, 41, 3, 40, None, 0) == [];
  }

  lemma QuotedPassThroughScan()
    ensures Scan(QuotedSample, Quoted, 41, 0, 40, None, 0) == []
  {
    QuotedPassThroughScan2();
    assert Scan(QuotedSample, Quoted, 41, 1, 40, None, 0) == [];
  }

  /** Quoted pass-through: the sample fits a width of 40. */
  lemma QuotedPassThrough()
    ensures Fold(QuotedSample, FoldOptions("", 0, 40, 0, Quoted)) == Folded(QuotedSample, [])
  {
    var o := FoldOptions("", 0, 40, 0, Quoted);
    assert EndStep(o) == 41 && FirstLimit(o) == 40;
    QuotedPassThroughScan();
  }
  lemma QuotedSimpleScan30()
    ensures Scan(QuotedSample, Quoted, 21, 30, 37, None, 17) == []
  {
    assert Scan(QuotedSample, Quoted, 21, 33, 52, None, 32) == [];
    assert Scan(QuotedSample, Quoted, 21, 32, 52, None, 32) == [];
    assert Scan(QuotedSample, Quoted, 21, 31, 37, None, 17) == [];
  }

  lemma QuotedSimpleScan26()
    ensures Scan(QuotedSample, Quoted, 21, 26, 37, None, 17) == []
  {
    QuotedSimpleScan30();
    assert Scan(QuotedSample, Quoted, 21, 29, 37, None, 17) == [];
    assert Scan(QuotedSample, Quoted, 21, 28, 37, None, 17) == [];
    assert Scan(QuotedSample, Quoted, 21, 27, 37, None, 17) == [];
  }

  lemma QuotedSimpleScan22()
    ensures Scan(QuotedSample, Quoted, 21, 22, 37, None, 17) == []
  {
    QuotedSimpleScan26();
    assert Scan(QuotedSample, Quoted, 21, 25, 37, None, 17) == [];
    assert Scan(QuotedSample, Quoted, 21, 24, 37, None, 17) == [];
    assert Scan(QuotedSample, Quoted, 21, 23, 37, None, 17) == [];
  }

  lemma QuotedSimpleScan18()
    ensures Scan(QuotedSample, Quoted, 21, 18, 20, Some(16), 0) == [Break(16, false)]
  {
    QuotedSimpleScan22();
    assert Scan(QuotedSample, Quoted, 21, 21, 37, None, 17) == [];
    assert Scan(QuotedSample, Quoted, 21, 20, 20, Some(16), 0) == [Break(16, false)];
    assert Scan(QuotedSample, Quoted, 21, 19, 20, Some(16), 0) == [Break(16, false)];
  }

  lemma QuotedSimpleScan14()
    ensures Scan(QuotedSample, Quoted, 21, 14, 20, Some(12), 0) == [Break(16, false)]
  {
    QuotedSimpleScan18();
    assert Scan(QuotedSample, Quoted, 21, 17, 20, Some(16), 0) == [Break(16, false)];
    assert Scan(QuotedSample, Quoted, 21, 16, 20, Some(12), 0) == [Break(16, false)];
    assert Scan(QuotedSample, Quoted, 21, 15, 20, Some(12), 0) == [Break(16, false)];
  }

  lemma QuotedSimpleScan10()
    ensures Scan(QuotedSample, Quoted, 21, 10, 20, Some(8), 0) == [Break(16, false)]
  {
    QuotedSimpleScan14();
    assert Scan(QuotedSample, Quoted, 21, 13, 20, Some(12), 0) == [Break(16, false)];
    assert Scan(QuotedSample, Quoted, 21, 12, 20, Some(8), 0) == [Break(16, false)];
    assert Scan(QuotedSample, Quoted, 21, 11, 20, Some(8), 0) == [Break(16, false)];
  }

  lemma QuotedSimpleScan6()
    ensures Scan(QuotedSample, Quoted, 21, 6, 20, Some(4), 0) == [Break(16, false)]
  {
    QuotedSimpleScan10();
    assert Scan(QuotedSample, Quoted, 21, 9, 20, Some(8), 0) == [Break(16, false)];
    assert Scan(QuotedSample, Quoted, 21, 8, 20, Some(4), 0) == [Break(16, false)];
    assert Scan(QuotedSample, Quoted, 21, 7, 20, Some(4), 0) == [Break(16, false)];
  }

  lemma QuotedSimpleScan2()
    ensures Scan(QuotedSample, Quoted, 21, 2, 20, None, 0) == [Break(16, false)]
  {
    QuotedSimpleScan6();
    assert Scan(QuotedSample, Quoted, 21, 5, 20, Some(4), 0) == [Break(16, false)];
    assert Scan(QuotedSample, Quoted, 21, 4, 20, None, 0) == [Break(16, false)];
    assert Scan(QuotedSample, Quoted, 21, 3, 20, None, 0) == [Break(16, false)];
  }

  lemma QuotedSimpleScan()
    ensures Scan(QuotedSample, Quoted, 21, 0, 20, None, 0) == [Break(16, false)]
  {
    QuotedSimpleScan2();
    assert Scan(QuotedSample, Quoted, 21, 1, 20, None, 0) == [Break(16, false)];
  }

  const QuotedSimpleBreaks: seq<Break> := [Break(16, false)]

  lemma QuotedSimpleRender1()
    ensures WellPlaced(QuotedSample, QuotedSimpleBreaks[1..], 17)
    ensures Render(QuotedSample, QuotedSimpleBreaks[1..], "", 17) == "mnopqrstuvwxyz\n" + "\""
  {
  }

  lemma QuotedSimpleRender0()
    ensures WellPlaced(QuotedSample, QuotedSimpleBreaks, 0)
    ensures Render(QuotedSample, QuotedSimpleBreaks, "", 0) == "\"abc def ghi jkl\n" + "mnopqrstuvwxyz\n" + "\""
  {
    QuotedSimpleRender1();
    RenderStep(QuotedSample, QuotedSimpleBreaks, QuotedSimpleBreaks[1..], "", 0, "\"abc def ghi jkl\n", "mnopqrstuvwxyz\n" + "\"");
  }

  /** Quoted, width 20: one bare break, after "jkl". */
  lemma QuotedSimple()
    ensures Fold(QuotedSample, FoldOptions("", 0, 20, 0, Quoted)) == Folded("\"abc def ghi jkl\n" + "mnopqrstuvwxyz\n" + "\"", [Break(16, false)])
  {
    var o := FoldOptions("", 0, 20, 0, Quoted);
    assert EndStep(o) == 21 && FirstLimit(o) == 20;
    QuotedSimpleScan();
    QuotedSimpleRender0();
  }
  lemma QuotedMultipleFoldsScan30()
    ensures Scan(QuotedSample, Quoted, 11, 30, 36, None, 26) == []
  {
    assert Scan(QuotedSample, Quoted, 11, 33, 42, None, 32) == [];
    assert Scan(QuotedSample, Quoted, 11, 32, 42, None, 32) == [];
    assert Scan(QuotedSample, Quoted, 11, 31, 36, None, 26) == [];
  }

  lemma QuotedMultipleFoldsScan26()
    ensures Scan(QuotedSample, Quoted, 11, 26, 27, None, 17) == [Break(25, true)]
  {
    QuotedMultipleFoldsScan30();
    assert Scan(QuotedSample, Quoted, 11, 29, 36, None, 26) == [];
    assert Scan(QuotedSample, Quoted, 11, 28, 36, None, 26) == [];
    assert Scan(QuotedSample, Quoted, 11, 27, 27, None, 17) == [Break(25, true)];
  }

  lemma QuotedMultipleFoldsScan22()
    ensures Scan(QuotedSample, Quoted, 11, 22, 27, None, 17) == [Break(25, true)]
  {
    QuotedMultipleFoldsScan26();
    assert Scan(QuotedSample, Quoted, 11, 25, 27, None, 17) == [Break(25, true)];
    assert Scan(QuotedSample, Quoted, 11, 24, 27, None, 17) == [Break(25, true)];
    assert Scan(QuotedSample, Quoted, 11, 23, 27, None, 17) == [Break(25, true)];
  }

  lemma QuotedMultipleFoldsScan18()
    ensures Scan(QuotedSample, Quoted, 11, 18, 19, Some(16), 9) == [Break(16, false), Break(25, true)]
  {
    QuotedMultipleFoldsScan22();
    assert Scan(QuotedSample, Quoted, 11, 21, 27, None, 17) == [Break(25, true)];
    assert Scan(QuotedSample, Quoted, 11, 20, 27, None, 17) == [Break(25, true)];
    assert Scan(QuotedSample, Quoted, 11, 19, 19, Some(16), 9) == [Break(16, false), Break(25, true)];
  }

  lemma QuotedMultipleFoldsScan14()
    ensures Scan(QuotedSample, Quoted, 11, 14, 19, Some(12), 9) == [Break(16, false), Break(25, true)]
  {
    QuotedMultipleFoldsScan18();
    assert Scan(QuotedSample, Quoted, 11, 17, 19, Some(16), 9) == [Break(16, false), Break(25, true)];
    assert Scan(QuotedSample, Quoted, 11, 16, 19, Some(12), 9) == [Break(16, false), Break(25, true)];
    assert Scan(QuotedSample, Quoted, 11, 15, 19, Some(12), 9) == [Break(16, false), Break(25, true)];
  }

  lemma QuotedMultipleFoldsScan10()
    ensures Scan(QuotedSample, Quoted, 11, 10, 10, Some(8), 0) == [Break(8, false), Break(16, false), Break(25, true)]
  {
    QuotedMultipleFoldsScan14();
    assert Scan(QuotedSample, Quoted, 11, 13, 19, Some(12), 9) == [Break(16, false), Break(25, true)];
    assert Scan(QuotedSample, Quoted, 11, 12, 19, None, 9) == [Break(16, false), Break(25, true)];
    assert Scan(QuotedSample, Quoted, 11, 11, 19, None, 9) == [Break(16, false), Break(25, true)];
  }

  lemma QuotedMultipleFoldsScan6()
    ensures Scan(QuotedSample, Quoted, 11, 6, 10, Some(4), 0) == [Break(8, false), Break(16, false), Break(25, true)]
  {
    QuotedMultipleFoldsScan10();
    assert Scan(QuotedSample, Quoted, 11, 9, 10, Some(8), 0) == [Break(8, false), Break(16, false), Break(25, true)];
    assert Scan(QuotedSample, Quoted, 11, 8, 10, Some(4), 0) == [Break(8, false), Break(16, false), Break(25, true)];
    assert Scan(QuotedSample, Quoted, 11, 7, 10, Some(4), 0) == [Break(8, false), Break(16, false), Break(25, true)];
  }

  lemma QuotedMultipleFoldsScan2()
    ensures Scan(QuotedSample, Quoted, 11, 2, 10, None, 0) == [Break(8, false), Break(16, false), Break(25, true)]
  {
    QuotedMultipleFoldsScan6();
    assert Scan(QuotedSample, Quoted, 11, 5, 10, Some(4), 0) == [Break(8, false), Break(16, false), Break(25, true)];
    assert Scan(QuotedSample, Quoted, 11, 4, 10, None, 0) == [Break(8, false), Break(16, false), Break(25, true)];
    assert Scan(QuotedSample, Quoted, 11, 3, 10, None, 0) == [Break(8, false), Break(16, false), Break(25, true)];
  }

  lemma QuotedMultipleFoldsScan()
    ensures Scan(QuotedSample, Quoted, 11, 0, 10, None, 0) == [Break(8, false), Break(16, false), Break(25, true)]
  {
    QuotedMultipleFoldsScan2();
    assert Scan(QuotedSample, Quoted, 11, 1, 10, None, 0) == [Break(8, false), Break(16, false), Break(25, true)];
  }

  const QuotedMultipleFoldsBreaks: seq<Break> := [Break(8, false), Break(16, false), Break(25, true)]

  lemma QuotedMultipleFoldsRender3()
    ensures WellPlaced(QuotedSample, QuotedMultipleFoldsBreaks[3..], 26)
    ensures Render(QuotedSample, QuotedMultipleFoldsBreaks[3..], "", 26) == "vwxyz\n" + "\""
  {
  }

  lemma QuotedMultipleFoldsRender2()
    ensures WellPlaced(QuotedSample, QuotedMultipleFoldsBreaks[2..], 17)
    ensures Render(QuotedSample, QuotedMultipleFoldsBreaks[2..], "", 17) == "mnopqrstu\\\n" + "vwxyz\n" + "\""
  {
    QuotedMultipleFoldsRender3();
    RenderStep(QuotedSample, QuotedMultipleFoldsBreaks[2..], QuotedMultipleFoldsBreaks[3..], "", 17, "mnopqrstu\\\n", "vwxyz\n" + "\"");
  }

  lemma QuotedMultipleFoldsRender1()
    ensures WellPlaced(QuotedSample, QuotedMultipleFoldsBreaks[1..], 9)
    ensures Render(QuotedSample, QuotedMultipleFoldsBreaks[1..], "", 9) == "ghi jkl\n" + ("mnopqrstu\\\n" + "vwxyz\n" + "\"")
  {
    QuotedMultipleFoldsRender2();
    RenderStep(QuotedSample, QuotedMultipleFoldsBreaks[1..], QuotedMultipleFoldsBreaks[2..], "", 9, "ghi jkl\n", "mnopqrstu\\\n" + "vwxyz\n" + "\"");
  }

  lemma QuotedMultipleFoldsRender0()
    ensures WellPlaced(QuotedSample, QuotedMultipleFoldsBreaks, 0)
    ensures Render(QuotedSample, QuotedMultipleFoldsBreaks, "", 0) == "\"abc def\n" + ("ghi jkl\n" + ("mnopqrstu\\\n" + "vwxyz\n" + "\""))
  {
    QuotedMultipleFoldsRender1();
    RenderStep(QuotedSample, QuotedMultipleFoldsBreaks, QuotedMultipleFoldsBreaks[1..], "", 0, "\"abc def\n", "ghi jkl\n" + ("mnopqrstu\\\n" + "vwxyz\n" + "\""));
  }

  /** Quoted, width 10: two bare breaks, then an escaped break inside the long word. */
  lemma QuotedMultipleFolds()
    ensures Fold(QuotedSample, FoldOptions("", 0, 10, 0, Quoted)) == Folded("\"abc def\n" + ("ghi jkl\n" + ("mnopqrstu\\\n" + "vwxyz\n" + "\"")), [Break(8, false), Break(16, false), Break(25, true)])
  {
    var o := FoldOptions("", 0, 10, 0, Quoted);
    assert EndStep(o) == 11 && FirstLimit(o) == 10;
    QuotedMultipleFoldsScan();
    QuotedMultipleFoldsRender0();
  }
  lemma QuotedShortLineWidthScan30()
    ensures Scan(QuotedSample, Quoted, 4, 30, 30, None, 27) == [Break(28, true)]
  {
    assert Scan(QuotedSample, Quoted, 4, 33, 35, None, 32) == [];
    assert Scan(QuotedSample, Quoted, 4, 32, 35, None, 32) == [];
    assert Scan(QuotedSample, Quoted, 4, 31, 32, None, 29) == [];
  }

  lemma QuotedShortLineWidthScan26()
    ensures Scan(QuotedSample, Quoted, 4, 26, 26, None, 23) == [Break(24, true), Break(26, true), Break(28, true)]
  {
    QuotedShortLineWidthScan30();
    assert Scan(QuotedSample, Quoted, 4, 29, 30, None, 27) == [Break(28, true)];
    assert Scan(QuotedSample, Quoted, 4, 28, 28, None, 25) == [Break(26, true), Break(28, true)];
    assert Scan(QuotedSample, Quoted, 4, 27, 28, None, 25) == [Break(26, true), Break(28, true)];
  }

  lemma QuotedShortLineWidthScan22()
    ensures Scan(QuotedSample, Quoted, 4, 22, 22, None, 19) == [Break(20, true), Break(22, true), Break(24, true), Break(26, true), Break(28, true)]
  {
    QuotedShortLineWidthScan26();
    assert Scan(QuotedSample, Quoted, 4, 25, 26, None, 23) == [Break(24, true), Break(26, true), Break(28, true)];
    assert Scan(QuotedSample, Quoted, 4, 24, 24, None, 21) == [Break(22, true), Break(24, true), Break(26, true), Break(28, true)];
    assert Scan(QuotedSample, Quoted, 4, 23, 24, None, 21) == [Break(22, true), Break(24, true), Break(26, true), Break(28, true)];
  }

  lemma QuotedShortLineWidthScan18()
    ensures Scan(QuotedSample, Quoted, 4, 18, 20, None, 17) == [Break(18, true), Break(20, true), Break(22, true), Break(24, true), Break(26, true), Break(28, true)]
  {
    QuotedShortLineWidthScan22();
    assert Scan(QuotedSample, Quoted, 4, 21, 22, None, 19) == [Break(20, true), Break(22, true), Break(24, true), Break(26, true), Break(28, true)];
    assert Scan(QuotedSample, Quoted, 4, 20, 20, None, 17) == [Break(18, true), Break(20, true), Break(22, true), Break(24, true), Break(26, true), Break(28, true)];
    assert Scan(QuotedSample, Quoted, 4, 19, 20, None, 17) == [Break(18, true), Break(20, true), Break(22, true), Break(24, true), Break(26, true), Break(28, true)];
  }

  lemma QuotedShortLineWidthScan14()
    ensures Scan(QuotedSample, Quoted, 4, 14, 16, None, 13) == [Break(16, false), Break(18, true), Break(20, true), Break(22, true), Break(24, true), Break(26, true), Break(28, true)]
  {
    QuotedShortLineWidthScan18();
    assert Scan(QuotedSample, Quoted, 4, 17, 20, None, 17) == [Break(18, true), Break(20, true), Break(22, true), Break(24, true), Break(26, true), Break(28, true)];
    assert Scan(QuotedSample, Quoted, 4, 16, 16, None, 13) == [Break(16, false), Break(18, true), Break(20, true), Break(22, true), Break(24, true), Break(26, true), Break(28, true)];
    assert Scan(QuotedSample, Quoted, 4, 15, 16, None, 13) == [Break(16, false), Break(18, true), Break(20, true), Break(22, true), Break(24, true), Break(26, true), Break(28, true)];
  }

  lemma QuotedShortLineWidthScan10()
    ensures Scan(QuotedSample, Quoted, 4, 10, 12, None, 9) == [Break(12, false), Break(16, false), Break(18, true), Break(20, true), Break(22, true), Break(24, true), Break(26, true), Break(28, true)]
  {
    QuotedShortLineWidthScan14();
    assert Scan(QuotedSample, Quoted, 4, 13, 16, None, 13) == [Break(16, false), Break(18, true), Break(20, true), Break(22, true), Break(24, true), Break(26, true), Break(28, true)];
    assert Scan(QuotedSample, Quoted, 4, 12, 12, None, 9) == [Break(12, false), Break(16, false), Break(18, true), Break(20, true), Break(22, true), Break(24, true), Break(26, true), Break(28, true)];
    assert Scan(QuotedSample, Quoted, 4, 11, 12, None, 9) == [Break(12, false), Break(16, false), Break(18, true), Break(20, true), Break(22, true), Break(24, true), Break(26, true), Break(28, true)];
  }

  lemma QuotedShortLineWidthScan6()
    ensures Scan(QuotedSample, Quoted, 4, 6, 8, None, 5) == [Break(8, false), Break(12, false), Break(16, false), Break(18, true), Break(20, true), Break(22, true), Break(24, true), Break(26, true), Break(28, true)]
  {
    QuotedShortLineWidthScan10();
    assert Scan(QuotedSample, Quoted, 4, 9, 12, None, 9) == [Break(12, false), Break(16, false), Break(18, true), Break(20, true), Break(22, true), Break(24, true), Break(26, true), Break(28, true)];
    assert Scan(QuotedSample, Quoted, 4, 8, 8, None, 5) == [Break(8, false), Break(12, false), Break(16, false), Break(18, true), Break(20, true), Break(22, true), Break(24, true), Break(26, true), Break(28, true)];
    assert Scan(QuotedSample, Quoted, 4, 7, 8, None, 5) == [Break(8, false), Break(12, false), Break(16, false), Break(18, true), Break(20, true), Break(22, true), Break(24, true), Break(26, true), Break(28, true)];
  }

  lemma QuotedShortLineWidthScan2()
    ensures Scan(QuotedSample, Quoted, 4, 2, 3, None, 0) == [Break(1, true), Break(4, false), Break(8, false), Break(12, false), Break(16, false), Break(18, true), Break(20, true), Break(22, true), Break(24, true), Break(26, true), Break(28, true)]
  {
    QuotedShortLineWidthScan6();
    assert Scan(QuotedSample, Quoted, 4, 5, 5, Some(4), 2) == [Break(4, false), Break(8, false), Break(12, false), Break(16, false), Break(18, true), Break(20, true), Break(22, true), Break(24, true), Break(26, true), Break(28, true)];
    assert Scan(QuotedSample, Quoted, 4, 4, 5, None, 2) == [Break(4, false), Break(8, false), Break(12, false), Break(16, false), Break(18, true), Break(20, true), Break(22, true), Break(24, true), Break(26, true), Break(28, true)];
    assert Scan(QuotedSample, Quoted, 4, 3, 3, None, 0) == [Break(1, true), Break(4, false), Break(8, false), Break(12, false), Break(16, false), Break(18, true), Break(20, true), Break(22, true), Break(24, true), Break(26, true), Break(28, true)];
  }

  lemma QuotedShortLineWidthScan()
    ensures Scan(QuotedSample, Quoted, 4, 0, 3, None, 0) == [Break(1, true), Break(4, false), Break(8, false), Break(12, false), Break(16, false), Break(18, true), Break(20, true), Break(22, true), Break(24, true), Break(26, true), Break(28, true)]
  {
    QuotedShortLineWidthScan2();
    assert Scan(QuotedSample, Quoted, 4, 1, 3, None, 0) == [Break(1, true), Break(4, false), Break(8, false), Break(12, false), Break(16, false), Break(18, true), Break(20, true), Break(22, true), Break(24, true), Break(26, true), Break(28, true)];
  }

  const QuotedShortLineWidthBreaks: seq<Break> := [Break(1, true), Break(4, false), Break(8, false), Break(12, false), Break(16, false), Break(18, true), Break(20, true), Break(22, true), Break(24, true), Break(26, true), Break(28, true)]

  lemma QuotedShortLineWidthRender11()
    ensures WellPlaced(QuotedSample, QuotedShortLineWidthBreaks[11..], 29)
    ensures Render(QuotedSample, QuotedShortLineWidthBreaks[11..], "", 29) == "yz\n" + "\""
  {
  }

  lemma QuotedShortLineWidthRender10()
    ensures WellPlaced(QuotedSample, QuotedShortLineWidthBreaks[10..], 27)
    ensures Render(QuotedSample, QuotedShortLineWidthBreaks[10..], "", 27) == "wx\\\n" + "yz\n" + "\""
  {
    QuotedShortLineWidthRender11();
    RenderStep(QuotedSample, QuotedShortLineWidthBreaks[10..], QuotedShortLineWidthBreaks[11..], "", 27, "wx\\\n", "yz\n" + "\"");
  }

  lemma QuotedShortLineWidthRender9()
    ensures WellPlaced(QuotedSample, QuotedShortLineWidthBreaks[9..], 25)
    ensures Render(QuotedSample, QuotedShortLineWidthBreaks[9..], "", 25) == "uv\\\n" + ("wx\\\n" + "yz\n" + "\"")
  {
    QuotedShortLineWidthRender10();
    RenderStep(QuotedSample, QuotedShortLineWidthBreaks[9..], QuotedShortLineWidthBreaks[10..], "", 25, "uv\\\n", "wx\\\n" + "yz\n" + "\"");
  }

  lemma QuotedShortLineWidthRender8()
    ensures WellPlaced(QuotedSample, QuotedShortLineWidthBreaks[8..], 23)
    ensures Render(QuotedSample, QuotedShortLineWidthBreaks[8..], "", 23) == "st\\\n" + ("uv\\\n" + ("wx\\\n" + "yz\n" + "\""))
  {
    QuotedShortLineWidthRender9();
    RenderStep(QuotedSample, QuotedShortLineWidthBreaks[8..], QuotedShortLineWidthBreaks[9..], "", 23, "st\\\n", "uv\\\n" + ("wx\\\n" + "yz\n" + "\""));
  }

  lemma QuotedShortLineWidthRender7()
    ensures WellPlaced(QuotedSample, QuotedShortLineWidthBreaks[7..], 21)
    ensures Render(QuotedSample, QuotedShortLineWidthBreaks[7..], "", 21) == "qr\\\n" + ("st\\\n" + ("uv\\\n" + ("wx\\\n" + "yz\n" + "\"")))
  {
    QuotedShortLineWidthRender8();
    RenderStep(QuotedSample, QuotedShortLineWidthBreaks[7..], QuotedShortLineWidthBreaks[8..], "", 21, "qr\\\n", "st\\\n" + ("uv\\\n" + ("wx\\\n" + "yz\n" + "\"")));
  }

  lemma QuotedShortLineWidthRender6()
    ensures WellPlaced(QuotedSample, QuotedShortLineWidthBreaks[6..], 19)
    ensures Render(QuotedSample, QuotedShortLineWidthBreaks[6..], "", 19) == "op\\\n" + ("qr\\\n" + ("st\\\n" + ("uv\\\n" + ("wx\\\n" + "yz\n" + "\""))))
  {
    QuotedShortLineWidthRender7();
    RenderStep(QuotedSample, QuotedShortLineWidthBreaks[6..], QuotedShortLineWidthBreaks[7..], "", 19, "op\\\n", "qr\\\n" + ("st\\\n" + ("uv\\\n" + ("wx\\\n" + "yz\n" + "\""))));
  }

  lemma QuotedShortLineWidthRender5()
    ensures WellPlaced(QuotedSample, QuotedShortLineWidthBreaks[5..], 17)
    ensures Render(QuotedSample, QuotedShortLineWidthBreaks[5..], "", 17) == "mn\\\n" + ("op\\\n" + ("qr\\\n" + ("st\\\n" + ("uv\\\n" + ("wx\\\n" + "yz\n" + "\"")))))
  {
    QuotedShortLineWidthRender6();
    RenderStep(QuotedSample, QuotedShortLineWidthBreaks[5..], QuotedShortLineWidthBreaks[6..], "", 17, "mn\\\n", "op\\\n" + ("qr\\\n" + ("st\\\n" + ("uv\\\n" + ("wx\\\n" + "yz\n" + "\"")))));
  }

  lemma QuotedShortLineWidthRender4()
    ensures WellPlaced(QuotedSample, QuotedShortLineWidthBreaks[4..], 13)
    ensures Render(QuotedSample, QuotedShortLineWidthBreaks[4..], "", 13) == "jkl\n" + ("mn\\\n" + ("op\\\n" + ("qr\\\n" + ("st\\\n" + ("uv\\\n" + ("wx\\\n" + "yz\n" + "\""))))))
  {
    QuotedShortLineWidthRender5();
    RenderStep(QuotedSample, QuotedShortLineWidthBreaks[4..], QuotedShortLineWidthBreaks[5..], "", 13, "jkl\n", "mn\\\n" + ("op\\\n" + ("qr\\\n" + ("st\\\n" + ("uv\\\n" + ("wx\\\n" + "yz\n" + "\""))))));
  }

  lemma QuotedShortLineWidthRender3()
    ensures WellPlaced(QuotedSample, QuotedShortLineWidthBreaks[3..], 9)
    ensures Render(QuotedSample, QuotedShortLineWidthBreaks[3..], "", 9) == "ghi\n" + ("jkl\n" + ("mn\\\n" + ("op\\\n" + ("qr\\\n" + ("st\\\n" + ("uv\\\n" + ("wx\\\n" + "yz\n" + "\"")))))))
  {
    QuotedShortLineWidthRender4();
    RenderStep(QuotedSample, QuotedShortLineWidthBreaks[3..], QuotedShortLineWidthBreaks[4..], "", 9, "ghi\n", "jkl\n" + ("mn\\\n" + ("op\\\n" + ("qr\\\n" + ("st\\\n" + ("uv\\\n" + ("wx\\\n" + "yz\n" + "\"")))))));
  }

  lemma QuotedShortLineWidthRender2()
    ensures WellPlaced(QuotedSample, QuotedShortLineWidthBreaks[2..], 5)
    ensures Render(QuotedSample, QuotedShortLineWidthBreaks[2..], "", 5) == "def\n" + ("ghi\n" + ("jkl\n" + ("mn\\\n" + ("op\\\n" + ("qr\\\n" + ("st\\\n" + ("uv\\\n" + ("wx\\\n" + "yz\n" + "\""))))))))
  {
    QuotedShortLineWidthRender3();
    RenderStep(QuotedSample, QuotedShortLineWidthBreaks[2..], QuotedShortLineWidthBreaks[3..], "", 5, "def\n", "ghi\n" + ("jkl\n" + ("mn\\\n" + ("op\\\n" + ("qr\\\n" + ("st\\\n" + ("uv\\\n" + ("wx\\\n" + "yz\n" + "\""))))))));
  }

  lemma QuotedShortLineWidthRender1()
    ensures WellPlaced(QuotedSample, QuotedShortLineWidthBreaks[1..], 2)
    ensures Render(QuotedSample, QuotedShortLineWidthBreaks[1..], "", 2) == "bc\n" + ("def\n" + ("ghi\n" + ("jkl\n" + ("mn\\\n" + ("op\\\n" + ("qr\\\n" + ("st\\\n" + ("uv\\\n" + ("wx\\\n" + "yz\n" + "\"")))))))))
  {
    QuotedShortLineWidthRender2();
    RenderStep(QuotedSample, QuotedShortLineWidthBreaks[1..], QuotedShortLineWidthBreaks[2..], "", 2, "bc\n", "def\n" + ("ghi\n" + ("jkl\n" + ("mn\\\n" + ("op\\\n" + ("qr\\\n" + ("st\\\n" + ("uv\\\n" + ("wx\\\n" + "yz\n" + "\"")))))))));
  }

  lemma QuotedShortLineWidthRender0()
    ensures WellPlaced(QuotedSample, QuotedShortLineWidthBreaks, 0)
    ensures Render(QuotedSample, QuotedShortLineWidthBreaks, "", 0) == "\"a\\\n" + ("bc\n" + ("def\n" + ("ghi\n" + ("jkl\n" + ("mn\\\n" + ("op\\\n" + ("qr\\\n" + ("st\\\n" + ("uv\\\n" + ("wx\\\n" + "yz\n" + "\""))))))))))
  {
    QuotedShortLineWidthRender1();
    RenderStep(QuotedSample, QuotedShortLineWidthBreaks, QuotedShortLineWidthBreaks[1..], "", 0, "\"a\\\n", "bc\n" + ("def\n" + ("ghi\n" + ("jkl\n" + ("mn\\\n" + ("op\\\n" + ("qr\\\n" + ("st\\\n" + ("uv\\\n" + ("wx\\\n" + "yz\n" + "\""))))))))));
  }

  /** Quoted, width 3: escaped breaks where no space fits, bare breaks at the spaces, and the final line break stays unescaped. */
  lemma QuotedShortLineWidth()
    ensures Fold(QuotedSample, FoldOptions("", 0, 3, 0, Quoted)) == Folded("\"a\\\n" + ("bc\n" + ("def\n" + ("ghi\n" + ("jkl\n" + ("mn\\\n" + ("op\\\n" + ("qr\\\n" + ("st\\\n" + ("uv\\\n" + ("wx\\\n" + "yz\n" + "\"")))))))))), [Break(1, true), Break(4, false), Break(8, false), Break(12, false), Break(16, false), Break(18, true), Break(20, true), Break(22, true), Break(24, true), Break(26, true), Break(28, true)])
  {
    var o := FoldOptions("", 0, 3, 0, Quoted);
    assert EndStep(o) == 4 && FirstLimit(o) == 3;
    QuotedShortLineWidthScan();
    QuotedShortLineWidthRender0();
  }
  lemma QuotedDoubledSpacesScan42()
    ensures Scan(QuotedDoubledSample, Quoted, 10, 42, 45, None, 36) == []
  {
    assert Scan(QuotedDoubledSample, Quoted, 10, 45, 53, None, 44) == [];
    assert Scan(QuotedDoubledSample, Quoted, 10, 44, 53, None, 44) == [];
    assert Scan(QuotedDoubledSample, Quoted, 10, 43, 45, None, 36) == [];
  }

  lemma QuotedDoubledSpacesScan38()
    ensures Scan(QuotedDoubledSample, Quoted, 10, 38, 45, None, 36) == []
  {
    QuotedDoubledSpacesScan42();
    assert Scan(QuotedDoubledSample, Quoted, 10, 41, 45, None, 36) == [];
    assert Scan(QuotedDoubledSample, Quoted, 10, 40, 45, None, 36) == [];
    assert Scan(QuotedDoubledSample, Quoted, 10, 39, 45, None, 36) == [];
  }

  lemma QuotedDoubledSpacesScan33()
    ensures Scan(QuotedDoubledSample, Quoted, 10, 33, 35, None, 26) == [Break(35, true)]
  {
    QuotedDoubledSpacesScan38();
    assert Scan(QuotedDoubledSample, Quoted, 10, 37, 45, None, 36) == [];
    assert SkipBlanks(QuotedDoubledSample, 35) == 36;
    assert SkipBlanks(QuotedDoubledSample, 34) == 36;
    assert Scan(QuotedDoubledSample, Quoted, 10, 35, 35, None, 26) == [Break(35, true)];
    assert Scan(QuotedDoubledSample, Quoted, 10, 34, 35, None, 26) == [Break(35, true)];
  }

  lemma QuotedDoubledSpacesScan29()
    ensures Scan(QuotedDoubledSample, Quoted, 10, 29, 35, None, 26) == [Break(35, true)]
  {
    QuotedDoubledSpacesScan33();
    assert Scan(QuotedDoubledSample, Quoted, 10, 32, 35, None, 26) == [Break(35, true)];
    assert Scan(QuotedDoubledSample, Quoted, 10, 31, 35, None, 26) == [Break(35, true)];
    assert Scan(QuotedDoubledSample, Quoted, 10, 30, 35, None, 26) == [Break(35, true)];
  }

  lemma QuotedDoubledSpacesScan24()
    ensures Scan(QuotedDoubledSample, Quoted, 10, 24, 25, None, 16) == [Break(25, true), Break(35, true)]
  {
    QuotedDoubledSpacesScan29();
    assert Scan(QuotedDoubledSample, Quoted, 10, 28, 35, None, 26) == [Break(35, true)];
    assert Scan(QuotedDoubledSample, Quoted, 10, 27, 35, None, 26) == [Break(35, true)];
    assert SkipBlanks(QuotedDoubledSample, 25) == 26;
    assert SkipBlanks(QuotedDoubledSample, 24) == 26;
    assert Scan(QuotedDoubledSample, Quoted, 10, 25, 25, None, 16) == [Break(25, true), Break(35, true)];
  }

  lemma QuotedDoubledSpacesScan20()
    ensures Scan(QuotedDoubledSample, Quoted, 10, 20, 25, None, 16) == [Break(25, true), Break(35, true)]
  {
    QuotedDoubledSpacesScan24();
    assert Scan(QuotedDoubledSample, Quoted, 10, 23, 25, None, 16) == [Break(25, true), Break(35, true)];
    assert Scan(QuotedDoubledSample, Quoted, 10, 22, 25, None, 16) == [Break(25, true), Break(35, true)];
    assert Scan(QuotedDoubledSample, Quoted, 10, 21, 25, None, 16) == [Break(25, true), Break(35, true)];
  }

  lemma QuotedDoubledSpacesScan16()
    ensures Scan(QuotedDoubledSample, Quoted, 10, 16, 17, None, 8) == [Break(15, true), Break(25, true), Break(35, true)]
  {
    QuotedDoubledSpacesScan20();
    assert Scan(QuotedDoubledSample, Quoted, 10, 19, 25, None, 16) == [Break(25, true), Break(35, true)];
    assert Scan(QuotedDoubledSample, Quoted, 10, 18, 25, None, 16) == [Break(25, true), Break(35, true)];
    assert Scan(QuotedDoubledSample, Quoted, 10, 17, 17, None, 8) == [Break(15, true), Break(25, true), Break(35, true)];
  }

  lemma QuotedDoubledSpacesScan12()
    ensures Scan(QuotedDoubledSample, Quoted, 10, 12, 17, None, 8) == [Break(15, true), Break(25, true), Break(35, true)]
  {
    QuotedDoubledSpacesScan16();
    assert Scan(QuotedDoubledSample, Quoted, 10, 15, 17, None, 8) == [Break(15, true), Break(25, true), Break(35, true)];
    assert Scan(QuotedDoubledSample, Quoted, 10, 14, 17, None, 8) == [Break(15, true), Break(25, true), Break(35, true)];
    assert Scan(QuotedDoubledSample, Quoted, 10, 13, 17, None, 8) == [Break(15, true), Break(25, true), Break(35, true)];
  }

  lemma QuotedDoubledSpacesScan8()
    ensures Scan(QuotedDoubledSample, Quoted, 10, 8, 9, None, 0) == [Break(7, true), Break(15, true), Break(25, true), Break(35, true)]
  {
    QuotedDoubledSpacesScan12();
    assert Scan(QuotedDoubledSample, Quoted, 10, 11, 17, None, 8) == [Break(15, true), Break(25, true), Break(35, true)];
    assert Scan(QuotedDoubledSample, Quoted, 10, 10, 17, None, 8) == [Break(15, true), Break(25, true), Break(35, true)];
    assert Scan(QuotedDoubledSample, Quoted, 10, 9, 9, None, 0) == [Break(7, true), Break(15, true), Break(25, true), Break(35, true)];
  }

  lemma QuotedDoubledSpacesScan4()
    ensures Scan(QuotedDoubledSample, Quoted, 10, 4, 9, None, 0) == [Break(7, true), Break(15, true), Break(25, true), Break(35, true)]
  {
    QuotedDoubledSpacesScan8();
    assert Scan(QuotedDoubledSample, Quoted, 10, 7, 9, None, 0) == [Break(7, true), Break(15, true), Break(25, true), Break(35, true)];
    assert Scan(QuotedDoubledSample, Quoted, 10, 6, 9, None, 0) == [Break(7, true), Break(15, true), Break(25, true), Break(35, true)];
    assert Scan(QuotedDoubledSample, Quoted, 10, 5, 9, None, 0) == [Break(7, true), Break(15, true), Break(25, true), Break(35, true)];
  }

  lemma QuotedDoubledSpacesScan()
    ensures Scan(QuotedDoubledSample, Quoted, 10, 0, 9, None, 0) == [Break(7, true), Break(15, true), Break(25, true), Break(35, true)]
  {
    QuotedDoubledSpacesScan4();
    assert Scan(QuotedDoubledSample, Quoted, 10, 3, 9, None, 0) == [Break(7, true), Break(15, true), Break(25, true), Break(35, true)];
    assert Scan(QuotedDoubledSample, Quoted, 10, 2, 9, None, 0) == [Break(7, true), Break(15, true), Break(25, true), Break(35, true)];
    assert Scan(QuotedDoubledSample, Quoted, 10, 1, 9, None, 0) == [Break(7, true), Break(15, true), Break(25, true), Break(35, true)];
  }

  const QuotedDoubledSpacesBreaks: seq<Break> := [Break(7, true), Break(15, true), Break(25, true), Break(35, true)]

  lemma QuotedDoubledSpacesRender4()
    ensures WellPlaced(QuotedDoubledSample, QuotedDoubledSpacesBreaks[4..], 36)
    ensures Render(QuotedDoubledSample, QuotedDoubledSpacesBreaks[4..], "", 36) == "vwx  " + "yz\n" + "\""
  {
  }

  lemma QuotedDoubledSpacesRender3()
    ensures WellPlaced(QuotedDoubledSample, QuotedDoubledSpacesBreaks[3..], 26)
    ensures Render(QuotedDoubledSample, QuotedDoubledSpacesBreaks[3..], "", 26) == "pqr  stu  \\\n" + "vwx  " + "yz\n" + "\""
  {
    QuotedDoubledSpacesRender4();
    RenderStep(QuotedDoubledSample, QuotedDoubledSpacesBreaks[3..], QuotedDoubledSpacesBreaks[4..], "", 26, "pqr  stu  \\\n", "vwx  " + "yz\n" + "\"");
  }

  lemma QuotedDoubledSpacesRender2()
    ensures WellPlaced(QuotedDoubledSample, QuotedDoubledSpacesBreaks[2..], 16)
    ensures Render(QuotedDoubledSample, QuotedDoubledSpacesBreaks[2..], "", 16) == "jkl  mno  \\\n" + ("pqr  stu  \\\n" + "vwx  " + "yz\n" + "\"")
  {
    QuotedDoubledSpacesRender3();
    RenderStep(QuotedDoubledSample, QuotedDoubledSpacesBreaks[2..], QuotedDoubledSpacesBreaks[3..], "", 16, "jkl  mno  \\\n", "pqr  stu  \\\n" + "vwx  " + "yz\n" + "\"");
  }

  lemma QuotedDoubledSpacesRender1()
    ensures WellPlaced(QuotedDoubledSample, QuotedDoubledSpacesBreaks[1..], 8)
    ensures Render(QuotedDoubledSample, QuotedDoubledSpacesBreaks[1..], "", 8) == "f  ghi  \\\n" + ("jkl  mno  \\\n" + ("pqr  stu  \\\n" + "vwx  " + "yz\n" + "\""))
  {
    QuotedDoubledSpacesRender2();
    RenderStep(QuotedDoubledSample, QuotedDoubledSpacesBreaks[1..], QuotedDoubledSpacesBreaks[2..], "", 8, "f  ghi  \\\n", "jkl  mno  \\\n" + ("pqr  stu  \\\n" + "vwx  " + "yz\n" + "\""));
  }

  lemma QuotedDoubledSpacesRender0()
    ensures WellPlaced(QuotedDoubledSample, QuotedDoubledSpacesBreaks, 0)
    ensures Render(QuotedDoubledSample, QuotedDoubledSpacesBreaks, "", 0) == "\"abc  de\\\n" + ("f  ghi  \\\n" + ("jkl  mno  \\\n" + ("pqr  stu  \\\n" + "vwx  " + "yz\n" + "\"")))
  {
    QuotedDoubledSpacesRender1();
    RenderStep(QuotedDoubledSample, QuotedDoubledSpacesBreaks, QuotedDoubledSpacesBreaks[1..], "", 0, "\"abc  de\\\n", "f  ghi  \\\n" + ("jkl  mno  \\\n" + ("pqr  stu  \\\n" + "vwx  " + "yz\n" + "\"")));
  }

  /** Quoted, width 9, doubled spaces: every break is escaped, and a line that reaches a run of spaces keeps the whole run before its escape. */
  lemma QuotedDoubledSpaces()
    ensures Fold(QuotedDoubledSample, FoldOptions("", 0, 9, 0, Quoted)) == Folded("\"abc  de\\\n" + ("f  ghi  \\\n" + ("jkl  mno  \\\n" + ("pqr  stu  \\\n" + "vwx  " + "yz\n" + "\""))), [Break(7, true), Break(15, true), Break(25, true), Break(35, true)])
  {
    var o := FoldOptions("", 0, 9, 0, Quoted);
    assert EndStep(o) == 10 && FirstLimit(o) == 9;
    QuotedDoubledSpacesScan();
    QuotedDoubledSpacesRender0();
  }
}

=== FILE: fold_flow.dfy ===
/**
 Line folding of flow scalars: the write-side transform that inserts line breaks into a
 long plain or double-quoted scalar without changing the value the scalar reads back as.
 Each line gets a budget: `lineWidth` columns less `indentAtStart` on the first line, and
 `lineWidth` less the indent, but never less than `minContentWidth`, on continuation
 lines. The budget is a target, not a bound. In plain mode a line with no break point
 before its limit runs past it; in quoted mode such a line gets an escaped break instead.
 A quoted line still runs past its budget when it keeps a run of blanks before its
 escape, or when its escape comes after a line that ended past the new line's limit.

 A plain scalar may only be broken at a single space that sits between two word
 characters: the line break plus the continuation indentation reads back as that one
 space (line folding, section 6.5 of YAML 1.2). A double-quoted scalar may in addition be
 broken anywhere with an escaped line break, a `\` at the end of the line, which reads
 back as nothing (section 7.3.1 of YAML 1.2). Existing line breaks are kept and restart
 the width count.

 The scanner is greedy: it walks the text keeping the most recent break point of the
 current line, and once the index reaches the line's limit it breaks at that point.
 */
module FoldFlow {

  datatype Option<T> = None | Some(value: T)

  /** Plain scalars break only at single spaces; quoted scalars may also break with an escape. */
  datatype Mode = Plain | Quoted

  /** The folding configuration of one call. `indent` starts every continuation line,
      `indentAtStart` is the number of columns already used on the first line (negative:
      the first line has that many columns more), a non-positive `lineWidth` disables
      folding, and `minContentWidth` is the content width a continuation line is always
      allowed, even past `lineWidth` when the indent is deep. */
  datatype FoldOptions = FoldOptions(
    indent: string,
    indentAtStart: int,
    lineWidth: int,
    minContentWidth: int,
    mode: Mode)

  /** An inserted break at text index `pos`. A bare break replaces the space at `pos` with
      a line break; an escaped break keeps `text[pos]` and writes `\` and a line break after it. */
  datatype Break = Break(pos: nat, escaped: bool)

  /** The folded text and the breaks inserted into it. */
  datatype Folded = Folded(text: string, breaks: seq<Break>) {
    /** The fold observer fires once for the call exactly when some break was inserted. */
    predicate Notifies() {
      |breaks| > 0
    }
  }

  predicate IsBlank(c: char) {
    c == ' ' || c == '\t'
  }

  /** A character that is neither a blank nor a line break. */
  predicate IsWordChar(c: char) {
    c != ' ' && c != '\t' && c != '\n'
  }

  /** A break point: a single space with a word character on either side. */
  predicate IsCandidate(text: string, i: int) {
    0 < i < |text| - 1 && text[i] == ' ' && IsWordChar(text[i - 1]) && IsWordChar(text[i + 1])
  }

  function Max(a: int, b: int): int {
    if a < b then b else a
  }

  /** The distance from a line's boundary (the inserted break or line break before it) to
      its limit: the continuation budget is `EndStep(o) - 1` characters. */
  function EndStep(o: FoldOptions): int {
    Max(1 + o.minContentWidth, 1 + o.lineWidth - |o.indent|)
  }

  /** The limit of the first line: the first index that no longer fits on it. */
  function FirstLimit(o: FoldOptions): int {
    o.lineWidth - o.indentAtStart
  }

  /** Where an inserted break may stand. A bare break needs a single space between word
      characters, so the line before it does not end in a blank and the line after it
      does not start with one. An escaped break keeps its character and needs a word
      character after it, so no blank is at the start of the continuation line. */
  predicate Admissible(text: string, b: Break) {
    if b.escaped then b.pos + 1 < |text| && IsWordChar(text[b.pos + 1])
    else IsCandidate(text, b.pos)
  }

  /** The breaks are admissible, strictly increasing, and all at or after `from`. */
  predicate WellPlaced(text: string, breaks: seq<Break>, from: nat)
    decreases |breaks|
  {
    breaks == [] ||
    (from <= breaks[0].pos && Admissible(text, breaks[0]) && WellPlaced(text, breaks[1..], breaks[0].pos + 1))
  }

  predicate NoEscapes(breaks: seq<Break>) {
    forall k :: 0 <= k < |breaks| ==> !breaks[k].escaped
  }

  /** The first index at or after `p` that does not hold a blank. */
  function SkipBlanks(text: string, p: nat): (r: nat)
    requires p <= |text|
    ensures p <= r <= |text|
    ensures r < |text| ==> !IsBlank(text[r])
    ensures forall m :: p <= m < r ==> IsBlank(text[m])
    decreases |text| - p
  {
    if p < |text| && IsBlank(text[p]) then SkipBlanks(text, p + 1) else p
  }

  /** The greedy scan from index `i`. `step` is `EndStep` of the options, `end` the current
      line's limit, `split` the latest break point of the current line, and `lineStart` the
      index the current line starts at. */
  function Scan(text: string, mode: Mode, step: int, i: nat, end: int, split: Option<nat>, lineStart: nat): (r: seq<Break>)
    requires lineStart <= i <= |text|
    requires split.Some? ==> lineStart <= split.value < i && IsCandidate(text, split.value)
    ensures WellPlaced(text, r, lineStart)
    ensures mode == Plain ==> NoEscapes(r)
    decreases |text| - i
  {
    if i == |text| then []
    else if text[i] == '\n' then Scan(text, mode, step, i + 1, i + step, None, i + 1)
    else
      var split := if IsCandidate(text, i) then Some(i) else split;
      if i < end then Scan(text, mode, step, i + 1, end, split, lineStart)
      else if split.Some? then
        var s := split.value;
        [Break(s, false)] + Scan(text, mode, step, i + 1, s + step, None, s + 1)
      else if mode == Quoted && i > 0 then
        // No break point on the line: escape a break after the blanks the line reached,
        // so that no blank ends up at the start of the next line.
        var r := SkipBlanks(text, i - 1);
        if lineStart < r < |text| && text[r] != '\n' then
          [Break(r - 1, true)] + Scan(text, mode, step, Max(r + 1, i + 1), r - 1 + step, None, r)
        else
          Scan(text, mode, step, i + 1, end, None, lineStart)
      else
        // Plain text without a break point overflows the line.
        Scan(text, mode, step, i + 1, end, None, lineStart)
  }

  /** The text from index `from` on with `breaks` written in, each followed by `indent`. */
  function Render(text: string, breaks: seq<Break>, indent: string, from: nat): string
    requires from <= |text|
    requires WellPlaced(text, breaks, from)
    decreases |breaks|
  {
    if breaks == [] then text[from..]
    else
      var b := breaks[0];
      if b.escaped then text[from..b.pos + 1] + BreakText(true, indent) + Render(text, breaks[1..], indent, b.pos + 1)
      else text[from..b.pos] + BreakText(false, indent) + Render(text, breaks[1..], indent, b.pos + 1)
  }

  /** Folds `text` under `o`; the result carries the breaks it inserted. */
  function Fold(text: string, o: FoldOptions): (r: Folded)
    ensures o.lineWidth <= 0 ==> r == Folded(text, [])
    ensures WellPlaced(text, r.breaks, 0)
    ensures o.mode == Plain ==> NoEscapes(r.breaks)
    ensures r.Notifies() <==> r.text != text
  {
    if o.lineWidth <= 0 then Folded(text, [])
    else
      var breaks := Scan(text, o.mode, EndStep(o), 0, FirstLimit(o), None, 0);
      RenderChangesText(text, breaks, o.indent, 0);
      Folded(Render(text, breaks, o.indent, 0), breaks)
  }

  /** Rendering with at least one break never gives back the text. */
  lemma {:induction false} RenderChangesText(text: string, breaks: seq<Break>, indent: string, from: nat)
    requires from <= |text|
    requires WellPlaced(text, breaks, from)
    ensures breaks == [] <==> Render(text, breaks, indent, from) == text[from..]
  {
    if breaks != [] {
      var b := breaks[0];
      var out := Render(text, breaks, indent, from);
      if b.escaped {
        RenderLength(text, breaks[1..], indent, b.pos + 1);
        assert |out| > |text[from..]|;
      } else {
        RenderLength(text, breaks[1..], indent, b.pos + 1);
        var k := b.pos - from;
        assert out[k] == '\n';
        if |out| == |text[from..]| {
          assert text[from..][k] == text[b.pos] == ' ';
        }
      }
    }
  }

  /** Each bare break adds `|indent|` characters, each escaped one `2 + |indent|`. */
  lemma {:induction false} RenderLength(text: string, breaks: seq<Break>, indent: string, from: nat)
    requires from <= |text|
    requires WellPlaced(text, breaks, from)
    ensures |Render(text, breaks, indent, from)| >= |text| - from
  {
    if breaks != [] {
      RenderLength(text, breaks[1..], indent, breaks[0].pos + 1);
    }
  }

  /** Where an inserted break sits in folded output: `gap` characters after the end of the
      previous inserted break (or after the start of the output). */
  datatype Mark = Mark(gap: nat, escaped: bool)

  /** The characters an inserted break occupies in the output. */
  function BreakText(escaped: bool, indent: string): string {
    (if escaped then "\\\n" else "\n") + indent
  }

  /** The output positions of the breaks that `Render` writes in. */
  function Marks(text: string, breaks: seq<Break>, from: nat): seq<Mark>
    requires from <= |text|
    requires WellPlaced(text, breaks, from)
    decreases |breaks|
  {
    if breaks == [] then []
    else
      var b := breaks[0];
      var gap := if b.escaped then b.pos + 1 - from else b.pos - from;
      [Mark(gap, b.escaped)] + Marks(text, breaks[1..], b.pos + 1)
  }

  /** Every mark points at the text of an inserted break in `out`. */
  predicate MarksFit(out: string, marks: seq<Mark>, indent: string)
    decreases |marks|
  {
    marks == [] ||
    (var m := marks[0];
     var w := |BreakText(m.escaped, indent)|;
     m.gap + w <= |out| && out[m.gap..m.gap + w] == BreakText(m.escaped, indent) &&
     MarksFit(out[m.gap + w..], marks[1..], indent))
  }

  /** How a reader takes the marked breaks back out: an escaped break and the indentation
      after it read as nothing, a bare break and its indentation read as one space. */
  function Reread(out: string, marks: seq<Mark>, indent: string): string
    requires MarksFit(out, marks, indent)
    decreases |marks|
  {
    if marks == [] then out
    else
      var m := marks[0];
      var w := |BreakText(m.escaped, indent)|;
      out[..m.gap] + (if m.escaped then "" else " ") + Reread(out[m.gap + w..], marks[1..], indent)
  }
}

=== FILE: fold_idempotence.dfy ===
/**
 Folding plain text with no continuation indentation is idempotent: folded again with the
 same options, the folded text gets no new break. With an empty indent every bare break
 turns its space into a line break in place, so the folded text has the same indices as
 the input. By the greedy filling of `FoldLines`, each of its lines either fits the limit
 the scan gives it or has no break point, and a scan over such text breaks nothing.
 */
module FoldIdempotence {
  import opened FoldFlow
  import opened FoldProperties
  import opened FoldLines

  /** The text indices the breaks stand on. */
  function Positions(breaks: seq<Break>): set<int> {
    set k | 0 <= k < |breaks| :: breaks[k].pos
  }

  /** `out` is `text` with a line break at every break position and nothing else changed. */
  predicate InPlace(text: string, out: string, breaks: seq<Break>) {
    |out| == |text| &&
    forall m :: 0 <= m < |text| ==> out[m] == if m in Positions(breaks) then '\n' else text[m]
  }

  /** `rest` starts with the first of `breaks` at or after `lineStart`. */
  predicate NextBreak(breaks: seq<Break>, lineStart: nat, rest: seq<Break>) {
    (rest != [] ==> lineStart <= rest[0].pos && rest[0].pos in Positions(breaks)) &&
    forall k :: 0 <= k < |breaks| && lineStart <= breaks[k].pos ==> rest != [] && rest[0].pos <= breaks[k].pos
  }

  /** The end of the line that holds `start`. */
  function LineEndOf(text: string, start: nat): (nl: nat)
    requires start <= |text|
    ensures LineEnd(text, start, nl)
    decreases |text| - start
  {
    if start == |text| || text[start] == '\n' then start else LineEndOf(text, start + 1)
  }

  /** A line has one end. */
  lemma {:induction false} LineEndUnique(text: string, start: nat, nl: nat)
    requires LineEnd(text, start, nl)
    ensures LineEndOf(text, start) == nl
    decreases |text| - start
  {
    if start < nl {
      LineEndUnique(text, start + 1, nl);
    }
  }

  /** Index `n` of the text holds a line break. */
  predicate BreaksLine(text: string, n: int) {
    0 <= n < |text| && text[n] == '\n'
  }

  /** The line from `lineStart` is within its limit `end` or has no break point. */
  predicate LineQuiet(text: string, lineStart: nat, end: int)
    requires lineStart <= |text|
  {
    var nl := LineEndOf(text, lineStart);
    nl <= end || forall m :: lineStart <= m < nl ==> !IsCandidate(text, m)
  }

  /** A plain scan over quiet lines places no break. */
  lemma {:induction false} ScanQuiet(text: string, step: int, i: nat, end: int, split: Option<nat>, lineStart: nat)
    requires ScanState(text, i, end, split, lineStart)
    requires LineQuiet(text, lineStart, end)
    requires forall n :: i <= n && BreaksLine(text, n) ==> LineQuiet(text, n + 1, n + step)
    ensures Scan(text, Plain, step, i, end, split, lineStart) == []
    decreases |text| - i, 1
  {
    if i == |text| {
    } else if text[i] == '\n' {
      QuietAtNewline(text, step, i, end, split, lineStart);
    } else if i < end {
      QuietWithinLimit(text, step, i, end, split, lineStart);
    } else {
      QuietAtLimit(text, step, i, end, split, lineStart);
    }
  }

  lemma {:induction false} QuietAtNewline(text: string, step: int, i: nat, end: int, split: Option<nat>, lineStart: nat)
    requires ScanState(text, i, end, split, lineStart)
    requires i < |text| && text[i] == '\n'
    requires forall n :: i <= n && BreaksLine(text, n) ==> LineQuiet(text, n + 1, n + step)
    ensures Scan(text, Plain, step, i, end, split, lineStart) == []
    decreases |text| - i, 0
  {
    assert BreaksLine(text, i);
    NewlineStarts(text, step, i, end, split, lineStart);
    ScanQuiet(text, step, i + 1, i + step, None, i + 1);
  }

  lemma {:induction false} QuietWithinLimit(text: string, step: int, i: nat, end: int, split: Option<nat>, lineStart: nat)
    requires ScanState(text, i, end, split, lineStart) && LineQuiet(text, lineStart, end)
    requires i < |text| && text[i] != '\n' && i < end
    requires forall n :: i <= n && BreaksLine(text, n) ==> LineQuiet(text, n + 1, n + step)
    ensures Scan(text, Plain, step, i, end, split, lineStart) == []
    decreases |text| - i, 0
  {
    var split' := WithinLimit(text, step, i, end, split, lineStart);
    ScanQuiet(text, step, i + 1, end, split', lineStart);
  }

  lemma {:induction false} QuietAtLimit(text: string, step: int, i: nat, end: int, split: Option<nat>, lineStart: nat)
    requires ScanState(text, i, end, split, lineStart) && LineQuiet(text, lineStart, end)
    requires i < |text| && text[i] != '\n' && end <= i
    requires forall n :: i <= n && BreaksLine(text, n) ==> LineQuiet(text, n + 1, n + step)
    ensures Scan(text, Plain, step, i, end, split, lineStart) == []
    decreases |text| - i, 0
  {
    QuietLineOverflows(text, step, i, end, split, lineStart);
    ScanQuiet(text, step, i + 1, end, None, lineStart);
  }

  /** At a line break the scan starts the next line. */
  lemma NewlineStarts(text: string, step: int, i: nat, end: int, split: Option<nat>, lineStart: nat)
    requires ScanState(text, i, end, split, lineStart)
    requires i < |text| && text[i] == '\n'
    ensures ScanState(text, i + 1, i + step, None, i + 1)
    ensures Scan(text, Plain, step, i, end, split, lineStart) == Scan(text, Plain, step, i + 1, i + step, None, i + 1)
  {
  }

  /** Before the limit the scan moves on, keeping the latest break point. */
  lemma WithinLimit(text: string, step: int, i: nat, end: int, split: Option<nat>, lineStart: nat)
    returns (split': Option<nat>)
    requires ScanState(text, i, end, split, lineStart)
    requires i < |text| && text[i] != '\n' && i < end
    ensures ScanState(text, i + 1, end, split', lineStart)
    ensures Scan(text, Plain, step, i, end, split, lineStart) == Scan(text, Plain, step, i + 1, end, split', lineStart)
  {
    split' := if IsCandidate(text, i) then Some(i) else split;
  }

  /** A quiet line that reaches its limit has no break point to break at. */
  lemma QuietLineOverflows(text: string, step: int, i: nat, end: int, split: Option<nat>, lineStart: nat)
    requires ScanState(text, i, end, split, lineStart) && LineQuiet(text, lineStart, end)
    requires i < |text| && text[i] != '\n' && end <= i
    ensures split.None? && !IsCandidate(text, i)
    ensures ScanState(text, i + 1, end, None, lineStart)
    ensures Scan(text, Plain, step, i, end, split, lineStart) == Scan(text, Plain, step, i + 1, end, None, lineStart)
  {
    assert forall m :: lineStart <= m <= i ==> text[m] != '\n';
    assert i < LineEndOf(text, lineStart);
  }

  /** The positions of a break list are its first one's and those of the rest. */
  lemma PositionsCons(breaks: seq<Break>)
    requires breaks != []
    ensures Positions(breaks) == {breaks[0].pos} + Positions(breaks[1..])
  {
    var tail := breaks[1..];
    forall x | x in Positions(breaks) ensures x == breaks[0].pos || x in Positions(tail) {
      var k :| 0 <= k < |breaks| && breaks[k].pos == x;
      if k > 0 {
        assert tail[k - 1].pos == x;
      }
    }
    forall x | x in Positions(tail) ensures x in Positions(breaks) {
      var k :| 0 <= k < |tail| && tail[k].pos == x;
      assert breaks[k + 1].pos == x;
    }
  }

  /** The breaks of a well-placed list stand at strictly increasing indices. */
  lemma {:induction false} BreaksIncrease(text: string, breaks: seq<Break>, from: nat)
    requires WellPlaced(text, breaks, from)
    ensures forall a, b :: 0 <= a < b < |breaks| ==> breaks[a].pos < breaks[b].pos
    ensures forall k :: 0 <= k < |breaks| ==> from <= breaks[k].pos < |text|
    decreases |breaks|
  {
    if breaks != [] {
      var tail := breaks[1..];
      BreaksIncrease(text, tail, breaks[0].pos + 1);
      assert forall k :: 0 < k < |breaks| ==> breaks[k] == tail[k - 1];
    }
  }

  /** Bare breaks with no indentation turn their spaces into line breaks in place. */
  lemma {:induction false} RenderInPlace(text: string, breaks: seq<Break>, from: nat)
    requires from <= |text| && WellPlaced(text, breaks, from) && NoEscapes(breaks)
    ensures |Render(text, breaks, "", from)| == |text| - from
    ensures forall m :: from <= m < |text| ==>
      Render(text, breaks, "", from)[m - from] == if m in Positions(breaks) then '\n' else text[m]
    decreases |breaks|
  {
    if breaks != [] {
      var p := breaks[0].pos;
      var tail := breaks[1..];
      assert forall k :: 0 <= k < |tail| ==> tail[k] == breaks[k + 1];
      RenderInPlace(text, tail, p + 1);
      BreaksIncrease(text, tail, p + 1);
      PositionsCons(breaks);
      var rest := Render(text, tail, "", p + 1);
      var out := Render(text, breaks, "", from);
      assert out == text[from..p] + "\n" + rest;
      forall m | from <= m < |text|
        ensures out[m - from] == if m in Positions(breaks) then '\n' else text[m]
      {
        assert m < p ==> m !in Positions(tail);
        SpliceAt(text, from, p, rest, m, m in Positions(breaks), m in Positions(tail));
      }
    }
  }

  /** Index `m` of the text in a line with a break at `p`, written in front of the rest
      `rest`, holds a line break exactly when `m` is a break position. */
  lemma SpliceAt(text: string, from: nat, p: nat, rest: string, m: nat, atBreak: bool, atLaterBreak: bool)
    requires from <= p < |text| && from <= m < |text| && |rest| == |text| - (p + 1)
    requires atBreak == (m == p || atLaterBreak) && (m < p ==> !atLaterBreak)
    requires p < m ==> rest[m - (p + 1)] == if atLaterBreak then '\n' else text[m]
    ensures (text[from..p] + "\n" + rest)[m - from] == if atBreak then '\n' else text[m]
  {
  }

  /** A break point of the folded text is one of the input too. */
  lemma CandidatesInPlace(text: string, out: string, breaks: seq<Break>)
    requires InPlace(text, out, breaks)
    ensures forall m :: IsCandidate(out, m) ==> IsCandidate(text, m)
  {
  }

  /** A line of the input that the fold filled greedily is quiet in the folded text. */
  lemma LineQuietFromFilled(text: string, out: string, breaks: seq<Break>, lineStart: nat, end: int, nl: nat, rest: seq<Break>)
    requires InPlace(text, out, breaks)
    requires LineEnd(text, lineStart, nl) && LineFilled(text, lineStart, end, nl, rest)
    requires NextBreak(breaks, lineStart, rest)
    ensures LineQuiet(out, lineStart, end)
  {
    var e := if rest != [] && rest[0].pos < nl then rest[0].pos else nl;
    assert forall k :: 0 <= k < |breaks| ==> breaks[k].pos < lineStart || e <= breaks[k].pos;
    assert forall m :: lineStart <= m < e ==> m !in Positions(breaks);
    LineEndUnique(out, lineStart, e);
    CandidatesInPlace(text, out, breaks);
  }

  /** The breaks after index `n` start with the first break after `n`. */
  lemma {:induction false} BreaksAfterNext(text: string, breaks: seq<Break>, from: nat, n: nat)
    requires WellPlaced(text, breaks, from)
    ensures NextBreak(breaks, n + 1, BreaksAfter(breaks, n))
    decreases |breaks|
  {
    if breaks != [] {
      var tail := breaks[1..];
      BreaksIncrease(text, breaks, from);
      PositionsCons(breaks);
      BreaksAfterNext(text, tail, breaks[0].pos + 1, n);
      assert forall k :: 0 < k < |breaks| ==> breaks[k] == tail[k - 1];
    }
  }

  /** In increasing breaks, the ones after the `k`-th start with the first break after it. */
  lemma NextBreakAfter(breaks: seq<Break>, k: nat)
    requires k < |breaks|
    requires forall a, b :: 0 <= a < b < |breaks| ==> breaks[a].pos < breaks[b].pos
    ensures NextBreak(breaks, breaks[k].pos + 1, breaks[k + 1..])
  {
    if k + 1 < |breaks| {
      assert breaks[k + 1].pos in Positions(breaks);
    }
  }

  /** The line after an inserted break is quiet in the folded text. */
  lemma LineAfterBreakQuiet(text: string, o: FoldOptions, k: nat)
    requires o.mode == Plain && o.indent == "" && o.lineWidth > 0
    requires InPlace(text, Fold(text, o).text, Fold(text, o).breaks)
    requires k < |Fold(text, o).breaks|
    ensures var p := Fold(text, o).breaks[k].pos;
      p < |text| && LineQuiet(Fold(text, o).text, p + 1, p + EndStep(o))
  {
    var bs := Fold(text, o).breaks;
    var n := bs[k].pos;
    BreaksIncrease(text, bs, 0);
    var nl := LineEndOf(text, n + 1);
    FoldFillsLineAfterBreak(text, o, k, nl);
    NextBreakAfter(bs, k);
    LineQuietFromFilled(text, Fold(text, o).text, bs, n + 1, n + EndStep(o), nl, bs[k + 1..]);
  }

  /** The line after a line break of the input is quiet in the folded text. */
  lemma LineAfterNewlineQuiet(text: string, o: FoldOptions, n: nat)
    requires o.mode == Plain && o.indent == "" && o.lineWidth > 0
    requires InPlace(text, Fold(text, o).text, Fold(text, o).breaks)
    requires n < |text| && text[n] == '\n'
    ensures LineQuiet(Fold(text, o).text, n + 1, n + EndStep(o))
  {
    var bs := Fold(text, o).breaks;
    var nl := LineEndOf(text, n + 1);
    FoldFillsLineAfterNewline(text, o, n, nl);
    BreaksAfterNext(text, bs, 0, n);
    LineQuietFromFilled(text, Fold(text, o).text, bs, n + 1, n + EndStep(o), nl, BreaksAfter(bs, n));
  }

  /** The line after every line break of the folded text is quiet. */
  lemma LineAfterQuiet(text: string, o: FoldOptions, n: nat)
    requires o.mode == Plain && o.indent == "" && o.lineWidth > 0
    requires InPlace(text, Fold(text, o).text, Fold(text, o).breaks)
    requires n < |text| && Fold(text, o).text[n] == '\n'
    ensures LineQuiet(Fold(text, o).text, n + 1, n + EndStep(o))
  {
    var bs := Fold(text, o).breaks;
    if n in Positions(bs) {
      var k :| 0 <= k < |bs| && bs[k].pos == n;
      LineAfterBreakQuiet(text, o, k);
    } else {
      LineAfterNewlineQuiet(text, o, n);
    }
  }

  /** With no indentation, plain folding turns the spaces of its breaks into line breaks in place. */
  lemma FoldInPlace(text: string, o: FoldOptions)
    requires o.mode == Plain && o.indent == "" && o.lineWidth > 0
    ensures InPlace(text, Fold(text, o).text, Fold(text, o).breaks)
  {
    RenderInPlace(text, Fold(text, o).breaks, 0);
  }

  /** Every line of plainly folded text, with no indentation, is quiet under the limit a
      second fold gives it. */
  lemma FoldedLinesQuiet(text: string, o: FoldOptions)
    requires o.mode == Plain && o.indent == "" && o.lineWidth > 0
    ensures LineQuiet(Fold(text, o).text, 0, FirstLimit(o))
    ensures var out := Fold(text, o).text;
      forall n :: BreaksLine(out, n) ==> LineQuiet(out, n + 1, n + EndStep(o))
  {
    var bs := Fold(text, o).breaks;
    var out := Fold(text, o).text;
    FoldInPlace(text, o);
    BreaksIncrease(text, bs, 0);
    var nl := LineEndOf(text, 0);
    FoldFillsFirstLine(text, o, nl);
    LineQuietFromFilled(text, out, bs, 0, FirstLimit(o), nl, bs);
    forall n | BreaksLine(out, n)
      ensures LineQuiet(out, n + 1, n + EndStep(o))
    {
      LineAfterQuiet(text, o, n);
    }
  }

  /** Plain folding with no continuation indentation is idempotent: the folded text,
      folded again with the same options, comes back unchanged and with no break. */
  lemma FoldIdempotent(text: string, o: FoldOptions)
    requires o.mode == Plain && o.indent == ""
    ensures Fold(Fold(text, o).text, o) == Folded(Fold(text, o).text, [])
  {
    if o.lineWidth > 0 {
      var out := Fold(text, o).text;
      FoldedLinesQuiet(text, o);
      ScanQuiet(out, EndStep(o), 0, FirstLimit(o), None, 0);
      assert Render(out, [], o.indent, 0) == out;
    }
  }

  /** With a continuation indent the theorem fails: the indent counts as content of the
      line it starts, so a continuation line that filled its budget is too long when read
      again as text. */
  lemma IndentedRefoldBreaksAgain()
    ensures var o := FoldOptions("  ", 0, 10, 0, Plain);
      Fold("abc def ghi jkl\n", o) == Folded("abc def\n  ghi jkl\n", [Break(7, false)]) &&
      Fold("abc def\n  ghi jkl\n", o) == Folded("abc def\n  ghi\n  jkl\n", [Break(13, false)])
  {
    IndentedFold();
    IndentedRefold();
  }

  /** The first fold of the indented example. */
  lemma IndentedFold()
    ensures Fold("abc def ghi jkl\n", FoldOptions("  ", 0, 10, 0, Plain)) == Folded("abc def\n  ghi jkl\n", [Break(7, false)])
  {
    var o := FoldOptions("  ", 0, 10, 0, Plain);
    assert EndStep(o) == 9 && FirstLimit(o) == 10;
    var a := "abc def ghi jkl\n";
    assert Scan(a, Plain, 9, 15, 16, None, 8) == [];
    assert Scan(a, Plain, 9, 11, 16, None, 8) == [];
    assert Scan(a, Plain, 9, 10, 10, Some(7), 0) == [Break(7, false)];
    assert Scan(a, Plain, 9, 8, 10, Some(7), 0) == [Break(7, false)];
    assert Scan(a, Plain, 9, 4, 10, Some(3), 0) == [Break(7, false)];
    assert Scan(a, Plain, 9, 0, 10, None, 0) == [Break(7, false)];
    assert Render(a, [Break(7, false)], "  ", 0) == "abc def\n  ghi jkl\n";
  }

  /** The second fold of the indented example. */
  lemma IndentedRefold()
    ensures Fold("abc def\n  ghi jkl\n", FoldOptions("  ", 0, 10, 0, Plain)) == Folded("abc def\n  ghi\n  jkl\n", [Break(13, false)])
  {
    var o := FoldOptions("  ", 0, 10, 0, Plain);
    assert EndStep(o) == 9 && FirstLimit(o) == 10;
    var b := "abc def\n  ghi jkl\n";
    assert Scan(b, Plain, 9, 17, 22, None, 14) == [];
    assert Scan(b, Plain, 9, 16, 16, Some(13), 8) == [Break(13, false)];
    assert Scan(b, Plain, 9, 14, 16, Some(13), 8) == [Break(13, false)];
    assert Scan(b, Plain, 9, 8, 16, None, 8) == [Break(13, false)];
    assert Scan(b, Plain, 9, 4, 10, Some(3), 0) == [Break(13, false)];
    assert Scan(b, Plain, 9, 0, 10, None, 0) == [Break(13, false)];
    assert Render(b, [Break(13, false)], "  ", 0) == "abc def\n  ghi\n  jkl\n";
  }

  /** In quoted mode the theorem fails too: an escape keeps the blanks its line reached and
      adds a `\`, so the escaped line can be longer than its limit and is escaped again. */
  lemma QuotedRefoldEscapesAgain()
    ensures var o := FoldOptions("", 0, 3, 0, Quoted);
      Fold("a  b", o) == Folded("a  \\\nb", [Break(2, true)]) &&
      Fold("a  \\\nb", o) == Folded("a  \\\n\\\nb", [Break(2, true)])
  {
    var o := FoldOptions("", 0, 3, 0, Quoted);
    assert EndStep(o) == 4 && FirstLimit(o) == 3;
    var a := "a  b";
    assert SkipBlanks(a, 2) == 3;
    assert Scan(a, Quoted, 4, 4, 6, None, 3) == [];
    assert Scan(a, Quoted, 4, 3, 3, None, 0) == [Break(2, true)];
    assert Scan(a, Quoted, 4, 0, 3, None, 0) == [Break(2, true)];
    assert Render(a, [Break(2, true)], "", 0) == "a  \\\nb";
    var b := "a  \\\nb";
    assert SkipBlanks(b, 2) == 3;
    assert Scan(b, Quoted, 4, 4, 6, None, 3) == [];
    assert Scan(b, Quoted, 4, 3, 3, None, 0) == [Break(2, true)];
    assert Scan(b, Quoted, 4, 0, 3, None, 0) == [Break(2, true)];
    assert Render(b, [Break(2, true)], "", 0) == "a  \\\n\\\nb";
  }
}

=== FILE: fold_lines.dfy ===
/**
 How folding fills its lines, in either mode. The greedy scan works line by line: a line
 starts at the start of the text, after a line break of the text, or after an inserted
 break, and its limit is `FirstLimit` on the first line and the line's start plus
 `EndStep - 1` everywhere else. A break falls on a line only when the line reaches its limit, and then
 at the last break point at or before the limit; only a line with no break point up to
 its limit is broken past it, at its first break point, or in quoted mode escaped no
 earlier than two characters before the limit. A line that gets no break either fits or
 has no break point at all.

 In either mode an escaped break is a fallback: the scan escapes only on a line that has
 no break point up to the escape, so a single space between word characters is always
 broken bare.
 */
module FoldLines {
  import opened FoldFlow
  import opened FoldProperties

  /** `nl` ends the line that holds `start`: it is the next line break at or after
      `start`, or the end of the text. */
  predicate LineEnd(text: string, start: nat, nl: nat) {
    start <= nl <= |text| && (nl == |text| || text[nl] == '\n') &&
    forall m :: start <= m < nl ==> text[m] != '\n'
  }

  /** How the line from `lineStart` to its end `nl`, with limit `end`, is filled, `rest`
      being the breaks from that line on. */
  predicate LineFilled(text: string, lineStart: nat, end: int, nl: nat, rest: seq<Break>) {
    if rest != [] && rest[0].pos < nl then
      var p := rest[0].pos;
      // The line reaches its limit ...
      end < nl &&
      // ... and the break is the last break point up to the limit ...
      (p <= end ==> forall m :: p < m <= end ==> !IsCandidate(text, m)) &&
      // ... or, past the limit, the first break point of the line.
      (end < p ==> forall m :: lineStart <= m < p ==> !IsCandidate(text, m))
    else
      nl <= end || forall m :: lineStart <= m < nl ==> !IsCandidate(text, m)
  }

  /** What a scan state knows about its line: no line break since the line's start,
      and `split` is the last break point seen on the line so far. A state that holds one
      has not yet passed the line's limit. */
  predicate ScanState(text: string, i: nat, end: int, split: Option<nat>, lineStart: nat) {
    lineStart <= i <= |text| &&
    (forall m :: lineStart <= m < i ==> text[m] != '\n') &&
    match split
    case None => forall m :: lineStart <= m < i ==> !IsCandidate(text, m)
    case Some(s) => lineStart <= s < i <= end && IsCandidate(text, s) && forall m :: s < m < i ==> !IsCandidate(text, m)
  }

  /** An escape that falls on the line comes at its limit: the escaped line, its `\`
      included, takes at least the columns up to the limit. */
  predicate EscapeAtLimit(end: int, nl: nat, rest: seq<Break>) {
    rest != [] && rest[0].pos < nl && rest[0].escaped ==> end <= rest[0].pos + 2
  }

  /** The scan, in either mode, fills the line it is on greedily, and escapes a break only
      once the line has reached its limit. */
  lemma {:induction false} ScanFillsLine(text: string, mode: Mode, step: int, i: nat, end: int, split: Option<nat>, lineStart: nat, nl: nat)
    requires ScanState(text, i, end, split, lineStart) && LineEnd(text, i, nl)
    ensures LineFilled(text, lineStart, end, nl, Scan(text, mode, step, i, end, split, lineStart))
    ensures EscapeAtLimit(end, nl, Scan(text, mode, step, i, end, split, lineStart))
    decreases |text| - i, 1
  {
    if i < |text| && text[i] != '\n' {
      var split' := if IsCandidate(text, i) then Some(i) else split;
      if i < end {
        ScanFillsLine(text, mode, step, i + 1, end, split', lineStart, nl);
      } else if split'.None? {
        if mode == Quoted && i > 0 {
          EscapeFillsLine(text, step, i, end, lineStart, nl);
        } else {
          ScanFillsLine(text, mode, step, i + 1, end, None, lineStart, nl);
        }
      }
    }
  }

  /** The step of `ScanFillsLine` at which a quoted line without a break point reaches its
      limit: the escape after the blanks it reached is on the line, and past the limit
      only when the line has no break point up to it. */
  lemma {:induction false} EscapeFillsLine(text: string, step: int, i: nat, end: int, lineStart: nat, nl: nat)
    requires ScanState(text, i, end, None, lineStart) && LineEnd(text, i, nl)
    requires 0 < i < |text| && end <= i && text[i] != '\n' && !IsCandidate(text, i)
    ensures LineFilled(text, lineStart, end, nl, Scan(text, Quoted, step, i, end, None, lineStart))
    ensures EscapeAtLimit(end, nl, Scan(text, Quoted, step, i, end, None, lineStart))
    decreases |text| - i, 0
  {
    var r := SkipBlanks(text, i - 1);
    if lineStart < r < |text| && text[r] != '\n' {
      EscapeOnLine(text, step, i, end, lineStart, nl);
    } else {
      ScanFillsLine(text, Quoted, step, i + 1, end, None, lineStart, nl);
    }
  }

  /** The escape of `EscapeFillsLine`: it lies on the line, no earlier than two characters
      before the limit, and past the limit only when the line has no break point up to it. */
  lemma EscapeOnLine(text: string, step: int, i: nat, end: int, lineStart: nat, nl: nat)
    requires ScanState(text, i, end, None, lineStart) && LineEnd(text, i, nl)
    requires 0 < i < |text| && end <= i && text[i] != '\n' && !IsCandidate(text, i)
    requires var r := SkipBlanks(text, i - 1); lineStart < r < |text| && text[r] != '\n'
    ensures LineFilled(text, lineStart, end, nl, Scan(text, Quoted, step, i, end, None, lineStart))
    ensures EscapeAtLimit(end, nl, Scan(text, Quoted, step, i, end, None, lineStart))
  {
    var r := SkipBlanks(text, i - 1);
    var rest := Scan(text, Quoted, step, Max(r + 1, i + 1), r - 1 + step, None, r);
    assert Scan(text, Quoted, step, i, end, None, lineStart) == [Break(r - 1, true)] + rest;
    EscapePoint(text, step, i, end, lineStart);
    assert forall m :: i <= m <= r ==> text[m] != '\n';
  }

  /** The breaks after the `k`-th break of `r` are those of the scan state `j` of the line
      that starts right after that break, with the continuation limit. */
  predicate ResumesAt(text: string, mode: Mode, step: int, r: seq<Break>, k: nat, j: nat)
    requires k < |r|
  {
    r[k].pos < |text| &&
    ScanState(text, j, r[k].pos + step, None, r[k].pos + 1) &&
    r[k + 1..] == Scan(text, mode, step, j, r[k].pos + step, None, r[k].pos + 1)
  }

  /** Putting a break in front keeps what the later breaks resume at. */
  lemma ResumesAtCons(text: string, mode: Mode, step: int, b: Break, rest: seq<Break>, k: nat, j: nat)
    requires 0 < k <= |rest| && ResumesAt(text, mode, step, rest, k - 1, j)
    ensures ResumesAt(text, mode, step, [b] + rest, k, j)
  {
    assert ([b] + rest)[k] == rest[k - 1];
    assert ([b] + rest)[k + 1..] == rest[k..];
  }

  /** After every break it places, the scan goes on from a state of the line that starts
      right after the break, with the continuation limit, in either mode. */
  lemma {:induction false} ScanResumesAfterBreak(text: string, mode: Mode, step: int, i: nat, end: int, split: Option<nat>, lineStart: nat, k: nat)
      returns (j: nat)
    requires ScanState(text, i, end, split, lineStart)
    requires k < |Scan(text, mode, step, i, end, split, lineStart)|
    ensures ResumesAt(text, mode, step, Scan(text, mode, step, i, end, split, lineStart), k, j)
    decreases |text| - i, 2
  {
    if text[i] == '\n' {
      j := ScanResumesAfterBreak(text, mode, step, i + 1, i + step, None, i + 1, k);
    } else {
      var split' := if IsCandidate(text, i) then Some(i) else split;
      if i < end {
        j := ScanResumesAfterBreak(text, mode, step, i + 1, end, split', lineStart, k);
      } else if split'.Some? {
        j := ResumesAfterBareBreak(text, mode, step, i, end, split, lineStart, k);
      } else if mode == Quoted && i > 0 {
        j := ResumesAfterEscape(text, step, i, end, lineStart, k);
      } else {
        j := ScanResumesAfterBreak(text, mode, step, i + 1, end, None, lineStart, k);
      }
    }
  }

  /** The step of `ScanResumesAfterBreak` at which the line breaks bare. */
  lemma {:induction false} ResumesAfterBareBreak(text: string, mode: Mode, step: int, i: nat, end: int, split: Option<nat>, lineStart: nat, k: nat)
      returns (j: nat)
    requires ScanState(text, i, end, split, lineStart)
    requires end <= i < |text| && text[i] != '\n' && (IsCandidate(text, i) || split.Some?)
    requires k < |Scan(text, mode, step, i, end, split, lineStart)|
    ensures ResumesAt(text, mode, step, Scan(text, mode, step, i, end, split, lineStart), k, j)
    decreases |text| - i, 1
  {
    var s := if IsCandidate(text, i) then i else split.value;
    if k == 0 {
      j := i + 1;
      ResumesAtBareBreak(text, mode, step, i, end, split, lineStart, s);
    } else {
      j := ResumesAfterLaterBreak(text, mode, step, i, end, split, lineStart, s, k);
    }
  }

  /** The bare break itself: the scan resumes after it with the state of the next index. */
  lemma ResumesAtBareBreak(text: string, mode: Mode, step: int, i: nat, end: int, split: Option<nat>, lineStart: nat, s: nat)
    requires ScanState(text, i, end, split, lineStart)
    requires end <= i < |text| && text[i] != '\n' && (IsCandidate(text, i) || split.Some?)
    requires s == if IsCandidate(text, i) then i else split.value
    ensures |Scan(text, mode, step, i, end, split, lineStart)| > 0
    ensures ResumesAt(text, mode, step, Scan(text, mode, step, i, end, split, lineStart), 0, i + 1)
  {
    BareBreak(text, mode, step, i, end, split, lineStart, s);
    ResumesAtHead(text, mode, step, Break(s, false), Scan(text, mode, step, i + 1, s + step, None, s + 1), i + 1);
  }

  /** A break after the bare one resumes where it does in the scan of the next line. */
  lemma {:induction false} ResumesAfterLaterBreak(text: string, mode: Mode, step: int, i: nat, end: int, split: Option<nat>, lineStart: nat, s: nat, k: nat)
      returns (j: nat)
    requires ScanState(text, i, end, split, lineStart)
    requires end <= i < |text| && text[i] != '\n' && (IsCandidate(text, i) || split.Some?)
    requires s == if IsCandidate(text, i) then i else split.value
    requires 0 < k < |Scan(text, mode, step, i, end, split, lineStart)|
    ensures ResumesAt(text, mode, step, Scan(text, mode, step, i, end, split, lineStart), k, j)
    decreases |text| - i, 0
  {
    BareBreak(text, mode, step, i, end, split, lineStart, s);
    j := ScanResumesAfterBreak(text, mode, step, i + 1, s + step, None, s + 1, k - 1);
    ResumesAtCons(text, mode, step, Break(s, false), Scan(text, mode, step, i + 1, s + step, None, s + 1), k, j);
  }

  /** A line that reaches its limit with a last break point `s` breaks bare there, and the
      scan goes on with a state of the line after it. */
  lemma BareBreak(text: string, mode: Mode, step: int, i: nat, end: int, split: Option<nat>, lineStart: nat, s: nat)
    requires ScanState(text, i, end, split, lineStart)
    requires end <= i < |text| && text[i] != '\n' && (IsCandidate(text, i) || split.Some?)
    requires s == if IsCandidate(text, i) then i else split.value
    ensures s < |text| && ScanState(text, i + 1, s + step, None, s + 1)
    ensures Scan(text, mode, step, i, end, split, lineStart) ==
      [Break(s, false)] + Scan(text, mode, step, i + 1, s + step, None, s + 1)
  {
  }

  /** The breaks after the first one resume at the state they were computed from. */
  lemma ResumesAtHead(text: string, mode: Mode, step: int, b: Break, rest: seq<Break>, j: nat)
    requires b.pos < |text| && ScanState(text, j, b.pos + step, None, b.pos + 1)
    requires rest == Scan(text, mode, step, j, b.pos + step, None, b.pos + 1)
    ensures ResumesAt(text, mode, step, [b] + rest, 0, j)
  {
    assert ([b] + rest)[1..] == rest;
  }

  /** The step of `ScanResumesAfterBreak` at which a quoted line without a break point
      reaches its limit. */
  lemma {:induction false} ResumesAfterEscape(text: string, step: int, i: nat, end: int, lineStart: nat, k: nat)
      returns (j: nat)
    requires ScanState(text, i, end, None, lineStart)
    requires 0 < i < |text| && end <= i && text[i] != '\n' && !IsCandidate(text, i)
    requires k < |Scan(text, Quoted, step, i, end, None, lineStart)|
    ensures ResumesAt(text, Quoted, step, Scan(text, Quoted, step, i, end, None, lineStart), k, j)
    decreases |text| - i, 1
  {
    var r := SkipBlanks(text, i - 1);
    if lineStart < r < |text| && text[r] != '\n' {
      j := ResumesAtEscape(text, step, i, end, lineStart, k);
    } else {
      j := ScanResumesAfterBreak(text, Quoted, step, i + 1, end, None, lineStart, k);
    }
  }

  /** The escape of `ResumesAfterEscape`, placed after the blanks the line reached. */
  lemma {:induction false} ResumesAtEscape(text: string, step: int, i: nat, end: int, lineStart: nat, k: nat)
      returns (j: nat)
    requires ScanState(text, i, end, None, lineStart)
    requires 0 < i < |text| && end <= i && text[i] != '\n' && !IsCandidate(text, i)
    requires var r := SkipBlanks(text, i - 1); lineStart < r < |text| && text[r] != '\n'
    requires k < |Scan(text, Quoted, step, i, end, None, lineStart)|
    ensures ResumesAt(text, Quoted, step, Scan(text, Quoted, step, i, end, None, lineStart), k, j)
    decreases |text| - i, 0
  {
    var r := SkipBlanks(text, i - 1);
    var next := Max(r + 1, i + 1);
    var rest := Scan(text, Quoted, step, next, r - 1 + step, None, r);
    assert Scan(text, Quoted, step, i, end, None, lineStart) == [Break(r - 1, true)] + rest;
    EscapePoint(text, step, i, end, lineStart);
    if k == 0 {
      j := next;
    } else {
      j := ScanResumesAfterBreak(text, Quoted, step, next, r - 1 + step, None, r, k - 1);
      ResumesAtCons(text, Quoted, step, Break(r - 1, true), rest, k, j);
    }
  }

  /** Plain indices that are neither line breaks nor break points are passed over alike by
      every scan state without a break point. */
  lemma {:induction false} PlainSkipTo(text: string, step: int, j: nat, t: nat, end: int, lineStart: nat)
    requires lineStart <= j <= t <= |text|
    requires forall m :: j <= m < t ==> text[m] != '\n' && !IsCandidate(text, m)
    ensures Scan(text, Plain, step, j, end, None, lineStart) == Scan(text, Plain, step, t, end, None, lineStart)
    decreases t - j
  {
    if j < t {
      PlainSkipTo(text, step, j + 1, t, end, lineStart);
    }
  }

  /** In plain mode every inserted break restarts the scan: the breaks after the `k`-th
      one are those of a fresh scan of the line that starts after it. */
  lemma {:induction false} ScanRestartsAtBreak(text: string, step: int, i: nat, end: int, split: Option<nat>, lineStart: nat, k: nat)
    requires ScanState(text, i, end, split, lineStart)
    requires k < |Scan(text, Plain, step, i, end, split, lineStart)|
    ensures var r := Scan(text, Plain, step, i, end, split, lineStart);
      r[k].pos < |text| && r[k + 1..] == Scan(text, Plain, step, r[k].pos + 1, r[k].pos + step, None, r[k].pos + 1)
    decreases |text| - i, 1
  {
    if i < |text| {
      if text[i] == '\n' {
        ScanRestartsAtBreak(text, step, i + 1, i + step, None, i + 1, k);
      } else {
        var split' := if IsCandidate(text, i) then Some(i) else split;
        if i < end {
          ScanRestartsAtBreak(text, step, i + 1, end, split', lineStart, k);
        } else if split'.Some? {
          RestartsAtTakenBreak(text, step, i, end, split, lineStart, k);
        } else {
          ScanRestartsAtBreak(text, step, i + 1, end, None, lineStart, k);
        }
      }
    }
  }

  /** The step of `ScanRestartsAtBreak` at which the line reaches its limit and breaks. */
  lemma {:induction false} RestartsAtTakenBreak(text: string, step: int, i: nat, end: int, split: Option<nat>, lineStart: nat, k: nat)
    requires ScanState(text, i, end, split, lineStart)
    requires end <= i < |text| && text[i] != '\n' && (IsCandidate(text, i) || split.Some?)
    requires k < |Scan(text, Plain, step, i, end, split, lineStart)|
    ensures var r := Scan(text, Plain, step, i, end, split, lineStart);
      r[k].pos < |text| && r[k + 1..] == Scan(text, Plain, step, r[k].pos + 1, r[k].pos + step, None, r[k].pos + 1)
    decreases |text| - i, 0
  {
    var s := if IsCandidate(text, i) then i else split.value;
    var rest := Scan(text, Plain, step, i + 1, s + step, None, s + 1);
    assert Scan(text, Plain, step, i, end, split, lineStart) == [Break(s, false)] + rest;
    if k == 0 {
      PlainSkipTo(text, step, s + 1, i + 1, s + step, s + 1);
    } else {
      ScanRestartsAtBreak(text, step, i + 1, s + step, None, s + 1, k - 1);
      assert ([Break(s, false)] + rest)[k + 1..] == rest[k..];
    }
  }

  /** The first line of a fold is filled greedily up to `FirstLimit`, in either mode. */
  lemma FoldFillsFirstLine(text: string, o: FoldOptions, nl: nat)
    requires o.lineWidth > 0 && LineEnd(text, 0, nl)
    ensures LineFilled(text, 0, FirstLimit(o), nl, Fold(text, o).breaks)
    ensures EscapeAtLimit(FirstLimit(o), nl, Fold(text, o).breaks)
  {
    ScanFillsLine(text, o.mode, EndStep(o), 0, FirstLimit(o), None, 0, nl);
  }

  /** The line after an inserted break is filled greedily with the continuation budget:
      its limit is `EndStep(o) - 1` characters past its start, whatever `indentAtStart` is. */
  lemma FoldFillsLineAfterBreak(text: string, o: FoldOptions, k: nat, nl: nat)
    requires k < |Fold(text, o).breaks|
    requires LineEnd(text, Fold(text, o).breaks[k].pos + 1, nl)
    ensures var bs := Fold(text, o).breaks;
      LineFilled(text, bs[k].pos + 1, bs[k].pos + EndStep(o), nl, bs[k + 1..])
    ensures var bs := Fold(text, o).breaks;
      EscapeAtLimit(bs[k].pos + EndStep(o), nl, bs[k + 1..])
  {
    if o.lineWidth > 0 {
      var bs := Fold(text, o).breaks;
      var j := ScanResumesAfterBreak(text, o.mode, EndStep(o), 0, FirstLimit(o), None, 0, k);
      var s := bs[k].pos;
      LineEndLater(text, s + 1, j, nl);
      ScanFillsLine(text, o.mode, EndStep(o), j, s + EndStep(o), None, s + 1, nl);
    }
  }

  /** The end of a line is also the end seen from a later index of the line. */
  lemma LineEndLater(text: string, start: nat, j: nat, nl: nat)
    requires LineEnd(text, start, nl) && start <= j <= |text|
    requires forall m :: start <= m < j ==> text[m] != '\n'
    ensures LineEnd(text, j, nl)
  {
  }

  /** The first line break at or after `i`, given that there is one at `n`. */
  function FirstNewline(text: string, i: nat, n: nat): (r: nat)
    requires i <= n < |text| && text[n] == '\n'
    ensures i <= r <= n && text[r] == '\n'
    ensures forall m :: i <= m < r ==> text[m] != '\n'
    decreases n - i
  {
    if text[i] == '\n' then i else FirstNewline(text, i + 1, n)
  }

  /** Keeping the breaks after `n0`, then those after `n`, keeps those after `n`. */
  lemma {:induction false} BreaksAfterTwice(breaks: seq<Break>, n0: nat, n: nat)
    requires n0 <= n
    ensures BreaksAfter(BreaksAfter(breaks, n0), n) == BreaksAfter(breaks, n)
    decreases |breaks|
  {
    if breaks != [] {
      BreaksAfterTwice(breaks[1..], n0, n);
      if breaks[0].pos > n0 {
        var tail := BreaksAfter(breaks[1..], n0);
        assert ([breaks[0]] + tail)[1..] == tail;
      }
    }
  }

  /** Every line break of the text restarts the scan, not only the first one ahead. */
  lemma {:induction false} ScanRestartsAtEveryNewline(text: string, mode: Mode, step: int, i: nat, end: int, split: Option<nat>, lineStart: nat, n: nat)
    requires lineStart <= i <= n < |text| && text[n] == '\n'
    requires split.Some? ==> lineStart <= split.value < i && IsCandidate(text, split.value)
    ensures BreaksAfter(Scan(text, mode, step, i, end, split, lineStart), n) == Scan(text, mode, step, n + 1, n + step, None, n + 1)
    decreases n - i
  {
    var n0 := FirstNewline(text, i, n);
    ScanRestartsAtNewline(text, mode, step, i, end, split, lineStart, n0);
    if n0 < n {
      var r := Scan(text, mode, step, i, end, split, lineStart);
      BreaksAfterTwice(r, n0, n);
      ScanRestartsAtEveryNewline(text, mode, step, n0 + 1, n0 + step, None, n0 + 1, n);
    }
  }

  /** The line after a line break of the text is filled greedily with the continuation
      budget, in either mode, `rest` being the breaks placed after the line break. */
  lemma FoldFillsLineAfterNewline(text: string, o: FoldOptions, n: nat, nl: nat)
    requires o.lineWidth > 0
    requires n < |text| && text[n] == '\n' && LineEnd(text, n + 1, nl)
    ensures LineFilled(text, n + 1, n + EndStep(o), nl, BreaksAfter(Fold(text, o).breaks, n))
    ensures EscapeAtLimit(n + EndStep(o), nl, BreaksAfter(Fold(text, o).breaks, n))
  {
    ScanRestartsAtEveryNewline(text, o.mode, EndStep(o), 0, FirstLimit(o), None, 0, n);
    ScanFillsLine(text, o.mode, EndStep(o), n + 1, n + EndStep(o), None, n + 1, nl);
  }

  /** `indentAtStart` only sets the budget of the first line: two plain folds that differ
      only in it and break at the same index place the same breaks after it. */
  lemma ContinuationIgnoresIndentAtStart(text: string, o: FoldOptions, indentAtStart: int, k: nat, k': nat)
    requires o.mode == Plain
    requires k < |Fold(text, o).breaks| && k' < |Fold(text, o.(indentAtStart := indentAtStart)).breaks|
    requires Fold(text, o).breaks[k].pos == Fold(text, o.(indentAtStart := indentAtStart)).breaks[k'].pos
    ensures Fold(text, o).breaks[k + 1..] == Fold(text, o.(indentAtStart := indentAtStart)).breaks[k' + 1..]
  {
    var o' := o.(indentAtStart := indentAtStart);
    if o.lineWidth > 0 {
      ScanRestartsAtBreak(text, EndStep(o), 0, FirstLimit(o), None, 0, k);
      ScanRestartsAtBreak(text, EndStep(o'), 0, FirstLimit(o'), None, 0, k');
    }
  }

  /** `indentAtStart` only sets the budget of the first line: the breaks after any line
      break of the text are the same for every value of it, in both modes. */
  lemma IndentAtStartOnlyFirstLine(text: string, o: FoldOptions, indentAtStart: int, n: nat)
    requires n < |text| && text[n] == '\n'
    ensures BreaksAfter(Fold(text, o).breaks, n) == BreaksAfter(Fold(text, o.(indentAtStart := indentAtStart)).breaks, n)
  {
    if o.lineWidth > 0 {
      var o' := o.(indentAtStart := indentAtStart);
      ScanRestartsAtEveryNewline(text, o.mode, EndStep(o), 0, FirstLimit(o), None, 0, n);
      ScanRestartsAtEveryNewline(text, o.mode, EndStep(o'), 0, FirstLimit(o'), None, 0, n);
    }
  }

  /** The start of the line that holds index `p`, looking no further back than `from`:
      the index after the last line break before `p`, or `from`. From 0 it is
      `LineStartOf` (`BoundedLineStartFromZero`). */
  function BoundedLineStart(text: string, from: nat, p: nat): (r: nat)
    requires from <= p <= |text|
    ensures from <= r <= p
    ensures forall m :: r <= m < p ==> text[m] != '\n'
    ensures from < r ==> text[r - 1] == '\n'
    decreases p - from
  {
    if p == from then from else if text[p - 1] == '\n' then p else BoundedLineStart(text, from, p - 1)
  }

  /** From the start of the text, the bounded line start is the line start. */
  lemma {:induction false} BoundedLineStartFromZero(text: string, p: nat)
    requires p <= |text|
    ensures BoundedLineStart(text, 0, p) == LineStartOf(text, p)
    decreases p
  {
    if p > 0 && text[p - 1] != '\n' {
      BoundedLineStartFromZero(text, p - 1);
    }
  }

  /** Breaks placed from `from` on take an escape only as a fallback: the line of an
      escaped break has no break point from its start up to and including the break. An
      escape never stands on a line break of the text. */
  predicate EscapesAreFallbacks(text: string, breaks: seq<Break>, from: nat)
    requires from <= |text|
    decreases |breaks|
  {
    breaks == [] ||
    (var b := breaks[0];
     from <= b.pos < |text| &&
     (b.escaped ==> text[b.pos] != '\n' && forall m :: BoundedLineStart(text, from, b.pos) <= m <= b.pos ==> !IsCandidate(text, m)) &&
     EscapesAreFallbacks(text, breaks[1..], b.pos + 1))
  }

  /** No escaped break stands on a break point: a single space between word characters is
      always broken bare, so that it reads back as the space. */
  predicate NoEscapeOnCandidate(text: string, breaks: seq<Break>) {
    forall k :: 0 <= k < |breaks| && breaks[k].escaped ==> !IsCandidate(text, breaks[k].pos)
  }

  /** A line break of the text between `from` and `p` hides everything before it. */
  lemma {:induction false} LineStartAfterNewline(text: string, from: nat, n: nat, p: nat)
    requires from <= n < p <= |text| && text[n] == '\n'
    ensures BoundedLineStart(text, from, p) == BoundedLineStart(text, n + 1, p)
    decreases p - n
  {
    if p > n + 1 && text[p - 1] != '\n' {
      LineStartAfterNewline(text, from, n, p - 1);
    }
  }

  /** Without a line break between `from` and `p`, the line of `p` starts at `from`. */
  lemma {:induction false} LineStartWithoutNewline(text: string, from: nat, p: nat)
    requires from <= p <= |text|
    requires forall m :: from <= m < p ==> text[m] != '\n'
    ensures BoundedLineStart(text, from, p) == from
    decreases p - from
  {
    if p > from {
      LineStartWithoutNewline(text, from, p - 1);
    }
  }

  /** The scan, in either mode, escapes a break only on a line without a break point. */
  lemma {:induction false} ScanEscapesAreFallbacks(text: string, mode: Mode, step: int, i: nat, end: int, split: Option<nat>, lineStart: nat)
    requires ScanState(text, i, end, split, lineStart)
    ensures EscapesAreFallbacks(text, Scan(text, mode, step, i, end, split, lineStart), lineStart)
    decreases |text| - i, 2
  {
    if i < |text| {
      if text[i] == '\n' {
        NewlineStep(text, mode, step, i, end, split, lineStart);
      } else {
        var split' := if IsCandidate(text, i) then Some(i) else split;
        if i < end {
          ScanEscapesAreFallbacks(text, mode, step, i + 1, end, split', lineStart);
        } else if split'.Some? {
          BareStep(text, mode, step, i, end, split, lineStart);
        } else if mode == Quoted && i > 0 {
          EscapeStep(text, step, i, end, lineStart);
        } else {
          ScanEscapesAreFallbacks(text, mode, step, i + 1, end, None, lineStart);
        }
      }
    }
  }

  /** The step of `ScanEscapesAreFallbacks` at a line break of the text. */
  lemma {:induction false} NewlineStep(text: string, mode: Mode, step: int, i: nat, end: int, split: Option<nat>, lineStart: nat)
    requires ScanState(text, i, end, split, lineStart)
    requires i < |text| && text[i] == '\n'
    ensures EscapesAreFallbacks(text, Scan(text, mode, step, i, end, split, lineStart), lineStart)
    decreases |text| - i, 0
  {
    var r := Scan(text, mode, step, i + 1, i + step, None, i + 1);
    assert Scan(text, mode, step, i, end, split, lineStart) == r;
    ScanEscapesAreFallbacks(text, mode, step, i + 1, i + step, None, i + 1);
    if r != [] {
      LineStartAfterNewline(text, lineStart, i, r[0].pos);
    }
  }

  /** The step of `ScanEscapesAreFallbacks` at which a line reaches its limit and breaks
      bare at its last break point. */
  lemma {:induction false} BareStep(text: string, mode: Mode, step: int, i: nat, end: int, split: Option<nat>, lineStart: nat)
    requires ScanState(text, i, end, split, lineStart)
    requires end <= i < |text| && text[i] != '\n' && (IsCandidate(text, i) || split.Some?)
    ensures EscapesAreFallbacks(text, Scan(text, mode, step, i, end, split, lineStart), lineStart)
    decreases |text| - i, 0
  {
    var s := if IsCandidate(text, i) then i else split.value;
    var rest := Scan(text, mode, step, i + 1, s + step, None, s + 1);
    assert Scan(text, mode, step, i, end, split, lineStart) == [Break(s, false)] + rest;
    ScanEscapesAreFallbacks(text, mode, step, i + 1, s + step, None, s + 1);
    assert ([Break(s, false)] + rest)[1..] == rest;
  }

  /** The step of `ScanEscapesAreFallbacks` at which a quoted line without a break point
      reaches its limit and escapes a break after the blanks it reached. */
  lemma {:induction false} EscapeStep(text: string, step: int, i: nat, end: int, lineStart: nat)
    requires ScanState(text, i, end, None, lineStart)
    requires 0 < i < |text| && end <= i && text[i] != '\n' && !IsCandidate(text, i)
    ensures EscapesAreFallbacks(text, Scan(text, Quoted, step, i, end, None, lineStart), lineStart)
    decreases |text| - i, 1
  {
    var r := SkipBlanks(text, i - 1);
    if lineStart < r < |text| && text[r] != '\n' {
      EscapeTaken(text, step, i, end, lineStart);
    } else {
      ScanEscapesAreFallbacks(text, Quoted, step, i + 1, end, None, lineStart);
    }
  }

  /** The escape of `EscapeStep`, after the blanks the line reached, is a fallback. */
  lemma {:induction false} EscapeTaken(text: string, step: int, i: nat, end: int, lineStart: nat)
    requires ScanState(text, i, end, None, lineStart)
    requires 0 < i < |text| && end <= i && text[i] != '\n' && !IsCandidate(text, i)
    requires var r := SkipBlanks(text, i - 1); lineStart < r < |text| && text[r] != '\n'
    ensures EscapesAreFallbacks(text, Scan(text, Quoted, step, i, end, None, lineStart), lineStart)
    decreases |text| - i, 0
  {
    var r := SkipBlanks(text, i - 1);
    var next := Max(r + 1, i + 1);
    var rest := Scan(text, Quoted, step, next, r - 1 + step, None, r);
    assert Scan(text, Quoted, step, i, end, None, lineStart) == [Break(r - 1, true)] + rest;
    EscapePoint(text, step, i, end, lineStart);
    ScanEscapesAreFallbacks(text, Quoted, step, next, r - 1 + step, None, r);
    FallbacksCons(text, Break(r - 1, true), rest, lineStart);
  }

  /** A fallback break in front of fallback breaks. */
  lemma FallbacksCons(text: string, b: Break, rest: seq<Break>, from: nat)
    requires from <= b.pos < |text|
    requires b.escaped ==> text[b.pos] != '\n' && forall m :: BoundedLineStart(text, from, b.pos) <= m <= b.pos ==> !IsCandidate(text, m)
    requires EscapesAreFallbacks(text, rest, b.pos + 1)
    ensures EscapesAreFallbacks(text, [b] + rest, from)
  {
    assert ([b] + rest)[1..] == rest;
  }

  /** Where a quoted line without a break point escapes: after the blanks from `i - 1` on.
      The line has no break point up to there, and the line after it starts a scan state. */
  lemma EscapePoint(text: string, step: int, i: nat, end: int, lineStart: nat)
    requires ScanState(text, i, end, None, lineStart)
    requires 0 < i < |text| && text[i] != '\n' && !IsCandidate(text, i)
    requires var r := SkipBlanks(text, i - 1); lineStart < r < |text| && text[r] != '\n'
    ensures var r := SkipBlanks(text, i - 1);
      text[r - 1] != '\n' &&
      BoundedLineStart(text, lineStart, r - 1) == lineStart &&
      (forall m :: lineStart <= m <= r - 1 ==> !IsCandidate(text, m)) &&
      ScanState(text, Max(r + 1, i + 1), r - 1 + step, None, r)
  {
    var r := SkipBlanks(text, i - 1);
    assert forall m :: lineStart <= m < r ==> text[m] != '\n' && !IsCandidate(text, m);
    assert forall m :: r <= m < Max(r + 1, i + 1) ==> text[m] != '\n' && !IsCandidate(text, m);
    LineStartWithoutNewline(text, lineStart, r - 1);
  }

  /** Fallback escapes never stand on a break point. */
  lemma {:induction false} FallbacksAvoidCandidates(text: string, breaks: seq<Break>, from: nat)
    requires from <= |text| && EscapesAreFallbacks(text, breaks, from)
    ensures NoEscapeOnCandidate(text, breaks)
    decreases |breaks|
  {
    if breaks != [] {
      FallbacksAvoidCandidates(text, breaks[1..], breaks[0].pos + 1);
      assert forall k :: 1 <= k < |breaks| ==> breaks[k] == breaks[1..][k - 1];
    }
  }

  /** A fold takes an escaped break only on a line without a break point up to it. */
  lemma FoldEscapesAreFallbacks(text: string, o: FoldOptions)
    ensures EscapesAreFallbacks(text, Fold(text, o).breaks, 0)
  {
    if o.lineWidth > 0 {
      ScanEscapesAreFallbacks(text, o.mode, EndStep(o), 0, FirstLimit(o), None, 0);
    }
  }

  /** A fold breaks every single space it breaks at bare, so it reads back as one space. */
  lemma FoldSingleSpacesBare(text: string, o: FoldOptions)
    ensures NoEscapeOnCandidate(text, Fold(text, o).breaks)
  {
    FoldEscapesAreFallbacks(text, o);
    FallbacksAvoidCandidates(text, Fold(text, o).breaks, 0);
  }

}

=== FILE: fold_properties.dfy ===
/**
 Properties of flow-scalar folding: reading the folded text back gives the original
 text, text that fits is passed through, plain text without a break point is never
 broken, a deep indent puts one word on each continuation line, and a line break of the
 text restarts the scan.
 */
module FoldProperties {
  import opened FoldFlow

  /** The indexed form of `WellPlaced`. */
  lemma {:induction false} WellPlacedAt(text: string, breaks: seq<Break>, from: nat)
    requires WellPlaced(text, breaks, from)
    ensures forall k :: 0 <= k < |breaks| ==> Admissible(text, breaks[k]) && from <= breaks[k].pos
    ensures forall k :: 0 < k < |breaks| ==> breaks[k - 1].pos < breaks[k].pos
  {
    if breaks != [] {
      WellPlacedAt(text, breaks[1..], breaks[0].pos + 1);
      assert forall k :: 0 < k < |breaks| ==> breaks[k] == breaks[1..][k - 1];
    }
  }

  /** Every bare break stands on a single space between word characters, so it is never
      inside a run of two or more blanks; plain folding inserts no escapes. */
  lemma BreaksAvoidBlankRuns(text: string, o: FoldOptions)
    ensures var r := Fold(text, o);
      forall k :: 0 <= k < |r.breaks| && !r.breaks[k].escaped ==>
        var p := r.breaks[k].pos;
        0 < p < |text| - 1 && text[p] == ' ' && !IsBlank(text[p - 1]) && !IsBlank(text[p + 1])
    ensures o.mode == Plain ==> forall k :: 0 <= k < |Fold(text, o).breaks| ==> !Fold(text, o).breaks[k].escaped
  {
    WellPlacedAt(text, Fold(text, o).breaks, 0);
  }

  /** An escaped break is followed by a word character, so the continuation line never
      starts with a blank and the break never stands right before an existing line break. */
  lemma EscapesPrecedeWordChars(text: string, o: FoldOptions)
    ensures var r := Fold(text, o);
      forall k :: 0 <= k < |r.breaks| && r.breaks[k].escaped ==>
        r.breaks[k].pos + 1 < |text| && IsWordChar(text[r.breaks[k].pos + 1])
  {
    WellPlacedAt(text, Fold(text, o).breaks, 0);
  }

  /** One inserted break between a piece of text and the rest of the output: if the rest
      rereads as `tail`, the whole rereads as the piece, the break's replacement, and `tail`. */
  lemma RereadStep(out: string, ms: seq<Mark>, indent: string, piece: string, escaped: bool,
                   rest: string, marks: seq<Mark>, tail: string, whole: string)
    requires out == piece + BreakText(escaped, indent) + rest
    requires ms == [Mark(|piece|, escaped)] + marks
    requires MarksFit(rest, marks, indent) && Reread(rest, marks, indent) == tail
    requires whole == piece + (if escaped then "" else " ") + tail
    ensures MarksFit(out, ms, indent)
    ensures Reread(out, ms, indent) == whole
  {
    var bt := BreakText(escaped, indent);
    assert out[|piece|..|piece| + |bt|] == bt;
    assert out[|piece| + |bt|..] == rest;
    assert out[..|piece|] == piece;
    assert ms[1..] == marks;
  }

  /** The first inserted break splits the rendering into a piece of text, the break, and
      the rendering of the rest. */
  lemma RenderFirst(text: string, breaks: seq<Break>, indent: string, from: nat)
    requires from <= |text|
    requires WellPlaced(text, breaks, from)
    requires breaks != []
    ensures var b := breaks[0];
      var piece := text[from..if b.escaped then b.pos + 1 else b.pos];
      && Render(text, breaks, indent, from) == piece + BreakText(b.escaped, indent) + Render(text, breaks[1..], indent, b.pos + 1)
      && Marks(text, breaks, from) == [Mark(|piece|, b.escaped)] + Marks(text, breaks[1..], b.pos + 1)
  {
  }

  /** Rereading a rendering whose first break is taken out, given that the rest rereads. */
  lemma RenderRereadsStep(text: string, breaks: seq<Break>, indent: string, from: nat)
    requires from <= |text|
    requires WellPlaced(text, breaks, from)
    requires breaks != []
    requires var b := breaks[0];
      && MarksFit(Render(text, breaks[1..], indent, b.pos + 1), Marks(text, breaks[1..], b.pos + 1), indent)
      && Reread(Render(text, breaks[1..], indent, b.pos + 1), Marks(text, breaks[1..], b.pos + 1), indent) == text[b.pos + 1..]
    ensures MarksFit(Render(text, breaks, indent, from), Marks(text, breaks, from), indent)
    ensures Reread(Render(text, breaks, indent, from), Marks(text, breaks, from), indent) == text[from..]
  {
    var b := breaks[0];
    RenderFirst(text, breaks, indent, from);
    var piece := text[from..if b.escaped then b.pos + 1 else b.pos];
    var tail := text[b.pos + 1..];
    if b.escaped {
      assert text[from..] == piece + "" + tail;
    } else {
      assert [text[b.pos]] == " ";
      assert text[from..] == piece + " " + tail;
    }
    RereadStep(Render(text, breaks, indent, from), Marks(text, breaks, from), indent, piece, b.escaped,
      Render(text, breaks[1..], indent, b.pos + 1), Marks(text, breaks[1..], b.pos + 1), tail, text[from..]);
  }

  /** Rendering from `from` is undone by rereading its marks. */
  lemma {:induction false} RenderRereads(text: string, breaks: seq<Break>, indent: string, from: nat)
    requires from <= |text|
    requires WellPlaced(text, breaks, from)
    ensures MarksFit(Render(text, breaks, indent, from), Marks(text, breaks, from), indent)
    ensures Reread(Render(text, breaks, indent, from), Marks(text, breaks, from), indent) == text[from..]
  {
    if breaks != [] {
      RenderRereads(text, breaks[1..], indent, breaks[0].pos + 1);
      RenderRereadsStep(text, breaks, indent, from);
    }
  }

  /** Reversibility: taking the inserted breaks back out of the folded text (an escaped
      break with its indentation reads as nothing, a bare one as a single space) gives the
      original text, in both modes. */
  lemma FoldRereads(text: string, o: FoldOptions)
    ensures var r := Fold(text, o);
      var marks := Marks(text, r.breaks, 0);
      && |marks| == |r.breaks|
      && MarksFit(r.text, marks, o.indent)
      && Reread(r.text, marks, o.indent) == text
  {
    var r := Fold(text, o);
    RenderRereads(text, r.breaks, o.indent, 0);
    MarksLength(text, r.breaks, 0);
  }

  lemma {:induction false} MarksLength(text: string, breaks: seq<Break>, from: nat)
    requires from <= |text|
    requires WellPlaced(text, breaks, from)
    ensures |Marks(text, breaks, from)| == |breaks|
  {
    if breaks != [] {
      MarksLength(text, breaks[1..], breaks[0].pos + 1);
    }
  }

  /** The folded text ends with the same character as the text, so a trailing line break
      is kept as it is. */
  lemma {:induction false} RenderKeepsLast(text: string, breaks: seq<Break>, indent: string, from: nat)
    requires from < |text|
    requires WellPlaced(text, breaks, from)
    ensures var out := Render(text, breaks, indent, from);
      |out| > 0 && out[|out| - 1] == text[|text| - 1]
  {
    if breaks != [] {
      RenderKeepsLast(text, breaks[1..], indent, breaks[0].pos + 1);
    }
  }

  lemma FoldKeepsLastChar(text: string, o: FoldOptions)
    requires |text| > 0
    ensures var out := Fold(text, o).text;
      |out| > 0 && out[|out| - 1] == text[|text| - 1]
  {
    if o.lineWidth > 0 {
      RenderKeepsLast(text, Fold(text, o).breaks, o.indent, 0);
    }
  }

  /** The index the line holding position `m` starts at: just after the last line break
      before `m`, or 0. */
  function LineStartOf(text: string, m: nat): (a: nat)
    requires m <= |text|
    ensures a <= m
    ensures a == 0 || text[a - 1] == '\n'
    ensures forall k :: a <= k < m ==> text[k] != '\n'
    decreases m
  {
    if m == 0 then 0
    else if text[m - 1] == '\n' then m
    else LineStartOf(text, m - 1)
  }

  /** Every line of the text is within its budget: the first line has fewer than
      `FirstLimit(o)` characters, every later line fewer than `EndStep(o)`, that is at most
      `max(minContentWidth, lineWidth - |indent|)`. */
  predicate Fits(text: string, o: FoldOptions) {
    forall m :: 0 <= m < |text| && text[m] != '\n' ==>
      var a := LineStartOf(text, m);
      if a == 0 then m < FirstLimit(o) else m - a < EndStep(o) - 1
  }

  /** While every remaining character is below the limit of its line, the scan inserts nothing. */
  lemma {:induction false} ScanWithinLimits(text: string, mode: Mode, step: int, i: nat, end: int, split: Option<nat>, lineStart: nat)
    requires lineStart <= i <= |text|
    requires split.Some? ==> lineStart <= split.value < i && IsCandidate(text, split.value)
    requires forall m :: i <= m < |text| && text[m] != '\n' ==>
      var a := LineStartOf(text, m);
      if a <= i then m < end else m < a - 1 + step
    ensures Scan(text, mode, step, i, end, split, lineStart) == []
    decreases |text| - i
  {
    if i < |text| {
      if text[i] == '\n' {
        ScanWithinLimits(text, mode, step, i + 1, i + step, None, i + 1);
      } else {
        assert LineStartOf(text, i) <= i;
        var split' := if IsCandidate(text, i) then Some(i) else split;
        ScanWithinLimits(text, mode, step, i + 1, end, split', lineStart);
      }
    }
  }

  /** Pass-through: text whose lines all fit is returned unchanged and the fold observer
      does not fire, in both modes. */
  lemma PassThrough(text: string, o: FoldOptions)
    requires Fits(text, o)
    ensures Fold(text, o) == Folded(text, [])
  {
    if o.lineWidth > 0 {
      ScanWithinLimits(text, o.mode, EndStep(o), 0, FirstLimit(o), None, 0);
    }
  }

  /** Without a break point ahead, a plain scan inserts nothing. */
  lemma {:induction false} PlainScanWithoutCandidates(text: string, step: int, i: nat, end: int, lineStart: nat)
    requires lineStart <= i <= |text|
    requires forall m :: i <= m < |text| ==> !IsCandidate(text, m)
    ensures Scan(text, Plain, step, i, end, None, lineStart) == []
    decreases |text| - i
  {
    if i < |text| {
      if text[i] == '\n' {
        PlainScanWithoutCandidates(text, step, i + 1, i + step, i + 1);
      } else {
        PlainScanWithoutCandidates(text, step, i + 1, end, lineStart);
      }
    }
  }

  /** Plain text whose spaces all touch another blank (doubled spaces) has no break point:
      it is returned unchanged, without notifying, however far it overflows. */
  lemma DoubledSpacesStayIntact(text: string, o: FoldOptions)
    requires o.mode == Plain
    requires forall m :: 0 < m < |text| - 1 && text[m] == ' ' ==> text[m - 1] == ' ' || text[m + 1] == ' '
    ensures Fold(text, o) == Folded(text, [])
  {
    if o.lineWidth > 0 {
      PlainScanWithoutCandidates(text, EndStep(o), 0, FirstLimit(o), 0);
    }
  }

  /** With a deep indent (`step <= 1`), every break point the plain scan meets at or after
      the limit of its line is taken. */
  lemma {:induction false} DeepScanTakesCandidate(text: string, step: int, i: nat, end: int, split: Option<nat>, lineStart: nat, c: nat)
    requires step <= 1
    requires lineStart <= i <= c
    requires split.Some? ==> lineStart <= split.value < i && IsCandidate(text, split.value)
    requires IsCandidate(text, c)
    requires end <= c || LineStartOf(text, c) > i
    ensures Break(c, false) in Scan(text, Plain, step, i, end, split, lineStart)
    decreases c - i
  {
    assert LineStartOf(text, c) <= c;
    if text[i] == '\n' {
      DeepScanTakesCandidate(text, step, i + 1, i + step, None, i + 1, c);
    } else {
      var split' := if IsCandidate(text, i) then Some(i) else split;
      if i < end {
        DeepScanTakesCandidate(text, step, i + 1, end, split', lineStart, c);
      } else if split'.Some? {
        var s := split'.value;
        if i < c {
          DeepScanTakesCandidate(text, step, i + 1, s + step, None, s + 1, c);
        }
      } else {
        DeepScanTakesCandidate(text, step, i + 1, end, None, lineStart, c);
      }
    }
  }

  /** Deep indent: when the indent leaves no room on a continuation line (`lineWidth` at
      most `|indent|`) and no minimum content width is set, every single space at or after
      the first line's limit, or on a later line, becomes a break: each continuation line
      holds one word. */
  lemma DeepIndentOneWordPerLine(text: string, o: FoldOptions)
    requires o.mode == Plain && 0 < o.lineWidth <= |o.indent| && o.minContentWidth <= 0
    ensures forall c :: IsCandidate(text, c) && (c >= FirstLimit(o) || LineStartOf(text, c) > 0) ==>
      Break(c, false) in Fold(text, o).breaks
  {
    forall c | IsCandidate(text, c) && (c >= FirstLimit(o) || LineStartOf(text, c) > 0)
      ensures Break(c, false) in Fold(text, o).breaks
    {
      DeepScanTakesCandidate(text, EndStep(o), 0, FirstLimit(o), None, 0, c);
    }
  }

  /** The breaks placed after index `n`. */
  function BreaksAfter(breaks: seq<Break>, n: nat): seq<Break> {
    if breaks == [] then []
    else if breaks[0].pos > n then [breaks[0]] + BreaksAfter(breaks[1..], n)
    else BreaksAfter(breaks[1..], n)
  }

  lemma {:induction false} BreaksAfterAll(text: string, breaks: seq<Break>, from: nat, n: nat)
    requires WellPlaced(text, breaks, from) && n < from
    ensures BreaksAfter(breaks, n) == breaks
    decreases |breaks|
  {
    if breaks != [] {
      BreaksAfterAll(text, breaks[1..], breaks[0].pos + 1, n);
    }
  }

  /** A break before `n` is not among those after it. */
  lemma BreaksAfterSkips(b: Break, tail: seq<Break>, n: nat)
    requires b.pos <= n
    ensures BreaksAfter([b] + tail, n) == BreaksAfter(tail, n)
  {
    assert ([b] + tail)[1..] == tail;
  }

  /** A line break restarts the scan: what it places after the line break at `n` is what a
      scan starting on the next line places, whatever happened before. */
  lemma {:induction false} ScanRestartsAtNewline(text: string, mode: Mode, step: int, i: nat, end: int, split: Option<nat>, lineStart: nat, n: nat)
    requires lineStart <= i <= n < |text| && text[n] == '\n'
    requires split.Some? ==> lineStart <= split.value < i && IsCandidate(text, split.value)
    requires forall m :: i <= m < n ==> text[m] != '\n'
    ensures BreaksAfter(Scan(text, mode, step, i, end, split, lineStart), n) == Scan(text, mode, step, n + 1, n + step, None, n + 1)
    decreases n - i
  {
    if i == n {
      BreaksAfterAll(text, Scan(text, mode, step, n + 1, n + step, None, n + 1), n + 1, n);
    } else {
      assert text[i] != '\n';
      var split' := if IsCandidate(text, i) then Some(i) else split;
      if i < end {
        ScanRestartsAtNewline(text, mode, step, i + 1, end, split', lineStart, n);
      } else if split'.Some? {
        var s := split'.value;
        ScanRestartsAtNewline(text, mode, step, i + 1, s + step, None, s + 1, n);
        BreaksAfterSkips(Break(s, false), Scan(text, mode, step, i + 1, s + step, None, s + 1), n);
      } else if mode == Quoted && i > 0 {
        QuotedRestartsAtNewline(text, step, i, end, lineStart, n);
      } else {
        ScanRestartsAtNewline(text, mode, step, i + 1, end, None, lineStart, n);
      }
    }
  }

  /** The step of `ScanRestartsAtNewline` for a quoted line without a break point. */
  lemma {:induction false} QuotedRestartsAtNewline(text: string, step: int, i: nat, end: int, lineStart: nat, n: nat)
    requires 0 < i && lineStart <= i < n < |text| && text[n] == '\n' && end <= i
    requires forall m :: i <= m < n ==> text[m] != '\n'
    requires !IsCandidate(text, i)
    ensures BreaksAfter(Scan(text, Quoted, step, i, end, None, lineStart), n) == Scan(text, Quoted, step, n + 1, n + step, None, n + 1)
    decreases n - i, 0
  {
    var r := SkipBlanks(text, i - 1);
    assert !IsBlank(text[n]);
    if lineStart < r < |text| && text[r] != '\n' {
      var i' := Max(r + 1, i + 1);
      ScanRestartsAtNewline(text, Quoted, step, i', r - 1 + step, None, r, n);
      BreaksAfterSkips(Break(r - 1, true), Scan(text, Quoted, step, i', r - 1 + step, None, r), n);
    } else {
      ScanRestartsAtNewline(text, Quoted, step, i + 1, end, None, lineStart, n);
    }
  }
}
